=== FILE: README.md ===
# CurioClip clip enrichment, modelled in Dafny

CurioClip saves short social-video links (YouTube, TikTok, Instagram) into user-owned
categories called *curios*. When a user saves a link, a background job (`process_clip_task`)
enriches the clip:

- It reuses the results of an earlier clip with the same URL when one exists.
- Otherwise it downloads the audio and metadata, transcribes the audio, and asks a list of
  chat models in turn for a JSON summary.
- It stores the summary, tags, category and description.
- It embeds the clip's texts in overlapping word chunks so that clips can be found by
  vector search.

This project models that core as pure functions over an immutable record store:

| module | what it holds |
|---|---|
| `Models` | The tables (`Clip`, `Curio`, `Tag`, `ClipTag`, `ClipEmbedding`, `ClipProcessingTask`) as sequences whose index is the row id. `Valid` collects the schema's database constraints and the platform choices. |
| `Text` | The Python string operations the code uses: `split()`, `" ".join`, `strip()`, `find`, `rfind`, `rstrip`. |
| `Chunking` | `chunk_text`. |
| `JsonExtract` | `parse_openai_response`: fence removal, brace span, newline escaping inside string literals. |
| `Summarizer` | The model fallback loop of `summarize_and_categorize_clip`. |
| `Acquire` | `detect_platform`, `get_platform_video_id`, `fetch_audio_and_metadata`. |
| `Embeddings` | `process_clip_embeddings`. |
| `Search` | The Python post-processing of `vector_search_clip_ids_with_similarity`. |
| `Reuse` | `reuse_clip_if_exists`. |
| `Tasks` | `process_clip_task` and its stages. |

Downloads, speech-to-text, chat completion, the embedding service, `json_repair.loads`, the
thumbnail upload and the file-existence test of the cleanup are outside the process, so they enter as function parameters (oracles). An
operation that commits some writes and then raises returns an `Outcome(store, result)`: the
writes made so far, plus the error. Django has no transaction around these calls, so nothing is
rolled back.

Five places where the code does something its authors evidently did not intend are modelled
twice: once as written (`…AsWritten`) and once corrected. The rest of the model uses the
corrected version; see "Findings".

## Model

| member | source | states |
|---|---|---|
| Text.Split | api/utils.py:352 | `split()` yields non-empty, whitespace-free words (which words is `Text.SplitCollapses`) |
| Text.SplitJoin | api/utils.py:352-364 | splitting a space-joined list of words gives back exactly those words |
| Text.SquashWord | api/utils.py:352 | collapsing whitespace copies a run of non-space characters as it is |
| Text.JoinSplitSquash | api/utils.py:352 | `" ".join(s.split())` equals the character-by-character collapse of `s`: each whitespace run between words becomes one space, and the ends are stripped |
| Text.SplitCollapses | api/utils.py:352 | `split()` yields the one whitespace-free word list whose space-join is the collapsed text: the maximal non-whitespace runs, in order |
| Text.Strip | api/utils.py:223 | `strip()` returns the slice between the leading and trailing whitespace runs; it neither starts nor ends with whitespace |
| Text.StripKeeps | api/utils.py:162 | stripping removes only whitespace: a non-space character is in the result iff it is in the input |
| Text.IndexOf | api/utils.py:164 | `find` returns the first position of the character, and `None` (-1) iff the character is absent |
| Text.LastIndexOf | api/utils.py:165 | `rfind` returns the last position of the character, and `None` iff the character is absent |
| Text.RStrip | api/utils.py:58 | `rstrip("/")` removes exactly the trailing run of slashes |
| Chunking.ChunkText | api/utils.py:351-366 | fails with the configuration error iff the stride `int(chunk_size * (1 - overlap_ratio))`, taken in exact arithmetic, is not positive; otherwise yields ceil(n / stride) chunks, chunk k being the space-joined words `[k*stride, k*stride + chunk_size)` |
| Chunking.JoinedWindows | api/utils.py:358-366 | the loop makes ceil(n / stride) passes, each starting inside the word list, and appends the joined window of each pass |
| Chunking.ChunkCount | api/utils.py:359-365 | the number of chunks is ceil(n / stride) and the last chunk starts before the end of the words |
| Chunking.CeilingCount | api/utils.py:359-365 | a pass count m with m·stride ≥ n and (m-1)·stride < n is ceil(n / stride) |
| Chunking.ChunkAt | api/utils.py:360-364 | chunk k is the joined window starting at k strides |
| Chunking.ChunkWords | api/utils.py:352-364 | splitting chunk k again gives back exactly its window of words, which holds between 1 and chunk_size words |
| Chunking.WindowRoundTrip | api/utils.py:361-364 | joining a window and splitting it again is the identity; a window has at most `chunk_size` words and at least one when it starts inside the text |
| Chunking.ChunkOverlap | api/utils.py:354-365 | consecutive full windows share `chunk_size - stride` words: the tail of one is the head of the next |
| Chunking.TrailingWindowContained | api/utils.py:360-365 | once a window reaches the end of the text, the next window is a suffix of it: trailing chunks are redundant |
| Chunking.FiveWordsThreeWindows | api/utils.py:351-366 | five words, windows of four, stride two give three windows, the last lying inside the second |
| Chunking.DefaultStep | api/utils.py:381 | the defaults 300 and 0.2 give a stride of 240 words |
| Chunking.OffsetMonotone | api/utils.py:365 | window starts never decrease from pass to pass |
| JsonExtract.StripFences | api/utils.py:162 | removing ```` ```json ```` / ```` ``` ```` fences never lengthens the text |
| JsonExtract.StripFencesKeeps | api/utils.py:162 | fence removal keeps every character outside the fence alphabet: such a character is in the result iff it is in the input |
| JsonExtract.StripFencesNoBacktick | api/utils.py:162 | text without a backtick comes back unchanged |
| JsonExtract.StripFencesSplit | api/utils.py:162 | a fence never straddles a closing brace, so fence removal works separately on each side of one |
| JsonExtract.PlainPrefix | api/utils.py:162 | characters before the first backtick are copied unchanged |
| JsonExtract.BraceSpan | api/utils.py:164-169 | no span iff the text lacks `{` or `}`; otherwise the span runs from the first `{` to the last `}` |
| JsonExtract.BodyLength | api/utils.py:173 | the closing quote found ends a well-formed literal body: no raw quote, and every backslash escapes one character |
| JsonExtract.BodyCloses | api/utils.py:173 | a literal body followed by a quote is closed by that quote, whatever follows |
| JsonExtract.TokenizeSound | api/utils.py:173 | the regex scan loses no character, and every literal it finds is quote, body, quote |
| JsonExtract.EscapeNewlines | api/utils.py:172 | `_escaper` leaves no raw newline and adds exactly one character per newline |
| JsonExtract.EscapeUnchangedIff | api/utils.py:171-173 | the substitution grows the text by one character per newline inside a literal, and changes it iff some literal holds a newline |
| JsonExtract.NoNewlineUnchanged | api/utils.py:171-173 | text without a raw newline passes the substitution unchanged |
| JsonExtract.RescanEscaped | api/utils.py:171-173 | scanning the escaped text finds the same literals, escaped, at the same places |
| JsonExtract.EscapeLiteralsClean | api/utils.py:171-173 | after the substitution no string literal holds a raw newline, and a second substitution changes nothing |
| JsonExtract.ParseResponse | api/utils.py:156-178 | every failure carries the raw reply; it fails for want of braces iff the reply lacks `{` or `}`; it succeeds iff the lenient parser accepts the extracted text, returning its value |
| JsonExtract.BracesSurvive | api/utils.py:162-167 | fence removal and stripping never hide or invent a brace |
| JsonExtract.OnlyObjectParsed | api/utils.py:158-175 | prose without `{` before the object and without `}` after it is ignored: only the object, with its fences removed and newlines escaped, reaches the parser |
| Summarizer.Get | api/tasks.py:60 | `dict.get(key, default)`: the default only for a missing key; JSON `null` reads as `None` |
| Summarizer.Attempt | api/utils.py:218-226 | one loop iteration: the service error propagates; otherwise the stripped reply is parsed |
| Summarizer.FirstSuccess | api/utils.py:216-230 | the first model whose attempt succeeds, `None` iff every attempt fails |
| Summarizer.Fallback | api/utils.py:215-231 | the first success is returned; if every model fails, the last model's error; with no models, the `RuntimeError` |
| Summarizer.FallbackSpec | api/utils.py:215-231 | the loop with its `last_exception` accumulator returns the first success or the last error |
| Summarizer.TriedPrefix | api/utils.py:216-230 | the loop calls exactly the models up to the first success, or all of them |
| Summarizer.SummarizeAndCategorize | api/utils.py:181-231 | succeeds iff some model's answer parses, returning the first such answer; otherwise raises the last model's error |
| Summarizer.ConfiguredFallback | api/constants.py:6 | with the two configured models, the second is consulted only when the first fails, and its outcome is the result |
| Models.NewClip | api/models.py:59-77 | a fresh clip carries the column defaults: platform `other`, blank texts, no video id, not a favourite |
| Models.NewTask | api/models.py:147-152 | a fresh task row is `pending` with no error |
| Models.EmptyStore | api/models.py:85-98 | the empty store meets the model invariant |
| Models.UpdateClip | api/tasks.py:41 | `clip.save()` replaces one row and nothing else; the store stays valid iff the new row is valid |
| Models.FindTag | api/tasks.py:67 | the first tag with the name, `None` iff there is none |
| Models.FindTagAppend | api/tasks.py:67 | a tag found stays the one found when rows are appended |
| Models.TagGetOrCreate | api/tasks.py:67 | returns the existing tag unchanged, else appends one; the result is named as asked and tag names stay unique |
| Models.LinkTag | api/tasks.py:68 | the pair is present afterwards, no other link is added, and an existing pair leaves the store unchanged |
| Models.CuriosNamed | api/utils.py:332-335 | exactly the ids of the curios with that name (and that owner, when given), ascending |
| Models.CurioGetOrCreate | api/tasks.py:75-82 | none found: creates the owner's curio with the given description; one found: returns it unchanged; several: `MultipleObjectsReturned` |
| Models.CuriosNamedAppend | api/tasks.py:75-82 | appending a curio extends the lookup by its id exactly when it matches |
| Models.CurioGetOrCreateIdempotent | api/tasks.py:75-82 | a second `get_or_create` with the same name and owner returns the same curio and writes nothing |
| Models.EmbeddingsOf | api/utils.py:282 | the clip's embedding rows; empty iff no row belongs to the clip |
| Models.AddEmbedding | api/models.py:166 | the vector column refuses exactly the vectors that are not 1536 wide; otherwise one row is appended |
| Models.TasksWithCeleryId | api/tasks.py:19 | exactly the task rows with that queue-task id, ascending and each once |
| Models.OnlyCeleryRow | api/tasks.py:19 | when only row t can carry the id, the lookup yields exactly t |
| Models.CeleryIdCount | api/tasks.py:19 | the lookup yields the single row iff no other row carries the id, and at least two ids once two rows do, as `.get()` distinguishes |
| Models.SetTask | api/tasks.py:22-23 | only the status and error of that task row change |
| Acquire.DetectPlatform | api/utils.py:42-50 | the first host substring that matches decides the platform, each case as an iff; `unknown` iff none matches |
| Acquire.DetectedPlatformChoice | api/models.py:63-68 | the detected platform is one of the column's choices iff it is not `unknown` |
| Acquire.UnknownHostWitness | api/utils.py:49-50 | `a.io/v` is detected as `unknown`, which is not a platform choice |
| Acquire.ClipPlatform | api/models.py:63-68 | always a declared choice; the detected platform when known, else the default `other` |
| Acquire.LastSegment | api/utils.py:58 | the fallback video id contains neither `/` nor `?` |
| Acquire.LastSegmentOf | api/utils.py:57-63 | for `path/id?query`, the fallback extracts exactly `id` |
| Acquire.PlatformVideoId | api/utils.py:53-65 | a truthy downloader id wins; TikTok and Instagram fall back to the URL's last segment; other platforms pass the id through |
| Acquire.FetchMetadata | api/utils.py:67-122 | fails iff the download fails, with its error; otherwise the platform, video id, title, thumbnail and file path are as described, and a local thumbnail copy exists iff there is a thumbnail URL and its download succeeded |
| Embeddings.Single | api/utils.py:383-385 | `[value] if value else []` |
| Embeddings.Enumerate | api/utils.py:393-396 | each chunk is tagged with its field and its own index |
| Embeddings.Layout | api/utils.py:389-396 | the flattened list has one entry per chunk of every field |
| Embeddings.LayoutAt | api/utils.py:392-396 | chunk j of field i sits at the count of earlier fields' chunks plus j, with field name i and index j |
| Embeddings.LayoutFrom | api/utils.py:392-396 | every entry is some field's chunk, tagged with that field and that chunk's index |
| Embeddings.BeforeMonotone | api/utils.py:392-396 | later fields start no earlier in the flattened list |
| Embeddings.ClipFields | api/utils.py:380-387 | the four fields are title, summary, description (each when truthy) and the transcript's chunks; chunking with the defaults cannot fail |
| Embeddings.TranscriptText | api/utils.py:380 | `clip.transcript or ""` |
| Embeddings.Texts | api/utils.py:389-394 | `all_texts` lists each entry's text in layout order |
| Embeddings.Rows | api/utils.py:401-408 | `zip` stops at the shorter list; row k carries entry k's field, index and text and vector k |
| Embeddings.FirstMisfit | api/models.py:166 | the first row the vector column would refuse, `None` iff every row is 1536 wide |
| Embeddings.SaveRows | api/utils.py:401-408 | all rows are appended iff all fit; otherwise the rows before the first misfit stay committed and the misfit's width is raised |
| Embeddings.ProcessClipEmbeddings | api/utils.py:379-408 | a service error writes nothing; otherwise one row per laid-out entry that received a vector, stopping at the first misfit; only embeddings change and the store stays valid |
| Embeddings.WellBehavedService | api/utils.py:379-408 | a service returning one 1536-wide vector per text stores exactly one row per entry, in order |
| Embeddings.SaveAll | api/utils.py:401-408 | rows that all fit are all appended, in order |
| Embeddings.ClipLayout | api/utils.py:380-396 | the entries are title, summary and description (each at index 0, when truthy) followed by the transcript chunks at indices 0, 1, … |
| Embeddings.ShortServiceTruncates | api/utils.py:401 | a service returning fewer vectors than texts silently drops the trailing entries |
| Search.ToMatch | api/utils.py:433-442 | a match carries the row's ids, field, index and text, and its similarity times 100 |
| Search.Keep | api/utils.py:431 | kept rows are rows at or above the threshold, and every such row is kept (their order is `Search.KeepInOrder`) |
| Search.PassingFrom | api/utils.py:431 | the indices from a start position whose rows reach the threshold: all of them, in increasing order |
| Search.KeepFrom | api/utils.py:431 | filtering a suffix of the rows keeps exactly the rows at the passing indices of that suffix, in order |
| Search.KeepInOrder | api/utils.py:431 | the kept rows are the rows at the passing indices, in increasing index order, one each |
| Search.Matches | api/utils.py:433-443 | one match per kept row, in order |
| Search.SearchResults | api/utils.py:431-443 | every match reaches `threshold * 100` percent and is the match of some row reaching the threshold; every row reaching the threshold yields its match; the matches are exactly those rows', one each, in the rows' order |
| Search.MatchesInOrder | api/utils.py:431-443 | the k-th match is the match of the k-th passing row, so every match comes from a row reaching the threshold |
| Search.DescendingKeepsPrefix | api/utils.py:424-431 | on rows ordered best first, the filter keeps a prefix |
| Search.NoneKept | api/utils.py:424-431 | when the best row misses the threshold, nothing is kept |
| Search.DescendingResults | api/utils.py:424-443 | the matches come out ordered best first |
| Reuse.Donor | api/utils.py:266-276 | `None` iff no clip with the URL has both a summary and a transcript; otherwise a newest such clip |
| Reuse.EnsureDonorEmbeddings | api/utils.py:281-283 | a donor with embeddings is left as it is; otherwise its embeddings are computed; only embeddings change |
| Reuse.CopyFields | api/utils.py:285-292 | title, platform, transcript, summary, video id and description come from the donor; owner, URL, curio, thumbnail, favourite flag and creation time stay |
| Reuse.ThumbnailAsWritten | api/utils.py:294-308 | the re-uploaded donor thumbnail when there is one; otherwise the metadata is fetched again, and that fetch's error aborts the reuse |
| Reuse.Thumbnail | api/utils.py:294-308 | agrees with the code whenever the fallback fetch succeeds; when it fails the clip just gets no thumbnail |
| Reuse.FallbackFetch | api/utils.py:294-305 | the clip's URL is downloaded again exactly when the donor's thumbnail does not re-upload; when that download succeeds, the clip's thumbnail is the upload of the fetched thumbnail, or none |
| Reuse.ReuseDownload | api/utils.py:259-305 | a reuse downloads only if it succeeds, and a successful reuse downloads exactly through the fallback fetch for its donor |
| Reuse.ThumbnailFetchAborts | api/utils.py:301-305 | no donor thumbnail plus a failing download: the code aborts with the download error, the corrected step yields no thumbnail |
| Reuse.TagsOf | api/utils.py:311 | exactly the tags linked to the donor |
| Reuse.LinkAll | api/utils.py:312-315 | afterwards the links are the old ones plus one per tag; existing pairs are ignored, not duplicated |
| Reuse.LinkAllAgain | api/utils.py:312-315 | linking tags that are all linked already changes nothing |
| Reuse.LinkAllIdempotent | api/utils.py:312-315 | a second identical bulk link changes nothing |
| Reuse.Retarget | api/utils.py:318-327 | each copy equals its source row except for the clip |
| Reuse.CopyEmbeddings | api/utils.py:318-327 | the donor's rows are appended, re-pointed at the clip, in order |
| Reuse.StoredWidths | api/models.py:166 | rows in a valid store are 1536 wide, so copying them cannot be refused |
| Reuse.LinkedTagsExist | api/models.py:91-93 | tags linked in a valid store exist |
| Reuse.CopyRest | api/utils.py:294-327 | the thumbnail is stored; the links afterwards are exactly the old ones plus the clip paired with each tag of the donor; the embeddings are the old rows followed by the donor's rows re-pointed at the clip; curios, tags and tasks are untouched |
| Reuse.CurioStepAsWritten | api/utils.py:330 | a donor without a curio raises `AttributeError` from the log line; otherwise it is the corrected step |
| Reuse.CurioStep | api/utils.py:331-347 | only a donor with a curio and a clip without one change anything: the clip then gets the owner's first curio of the donor curio's name, or a new private one carrying the donor curio's description (the fixed text when that is blank); nothing else but the curio table changes |
| Reuse.ReuseClip | api/utils.py:259-348 | no donor: `False`, nothing written; otherwise never `False`; it fails exactly when the donor lacks embeddings and computing them fails, with that error and no clip row touched; on success the clip holds the donor's fields and the thumbnail, and keeps its owner, URL, favourite flag and creation time; every other clip row and the tag table are unchanged; the links are exactly the old ones plus the donor's tags on the clip; the embeddings are the donor-ready rows followed by the donor's rows re-pointed at the clip; curios are only appended, and the category is as described |
| Reuse.ReuseFrom | api/utils.py:281-348 | the same, once the donor is chosen: it fails exactly when ensuring the donor's embeddings fails, with that error and that store |
| Reuse.CopySteps | api/utils.py:285-347 | copying keeps the store valid and the task rows unchanged |
| Reuse.CopyStepsCopied | api/utils.py:285-347 | after copying, the clip holds the donor's fields, tags, embeddings and category, and keeps its owner, URL, favourite flag and creation time; every other clip row, the tag table and the existing curios are unchanged |
| Reuse.ReuseClipAsWritten | api/utils.py:259-348 | whenever the code succeeds it agrees with the corrected reuse; it fails where the corrected reuse succeeds only on a missing donor curio or a failing fallback fetch |
| Reuse.ReuseFromAsWritten | api/utils.py:281-348 | the same, once the donor is chosen |
| Reuse.DonorWithoutCurioFails | api/utils.py:330-331 | a donor with embeddings and a thumbnail but no curio: the code raises after copying everything, the corrected reuse succeeds |
| Tasks.ApplyMetadataAsWritten | api/tasks.py:38-41 | only title, thumbnail and platform change, taken from the metadata as they are |
| Tasks.ApplyMetadata | api/tasks.py:38-41 | the stored platform is always a declared choice; otherwise as written, with `other` for an unrecognised host |
| Tasks.UnknownPlatformStored | api/tasks.py:40 | for `a.io/v` the code stores `unknown`, outside the column's choices; the corrected step stores `other` |
| Tasks.CurioNamesOf | api/tasks.py:52-54 | exactly the names of the owner's curios |
| Tasks.AttachTags | api/tasks.py:65-68 | afterwards every name has a tag linked to the clip; only tags and this clip's links are added, and the store stays valid |
| Tasks.AttachStep | api/tasks.py:66-68 | attaching the first name and then the rest attaches them all |
| Tasks.AttachedHead | api/tasks.py:66-68 | a name attached first stays attached while the rest are processed |
| Tasks.AttachAgain | api/tasks.py:66-68 | names that are all attached already: nothing is written |
| Tasks.AttachTagsIdempotent | api/tasks.py:66-68 | running the tag loop twice with the same names equals running it once |
| Tasks.SetCurio | api/tasks.py:83-84 | only the clip's curio changes |
| Tasks.AssignByName | api/tasks.py:86-92 | one curio found: the clip points at it; none: unchanged; several: `MultipleObjectsReturned` |
| Tasks.ResolveCurioAsWritten | api/tasks.py:71-92 | a suggestion puts the clip in the owner's only curio of that name, or appends a private one with the AI-suggestion description and points the clip at it, and fails with `MultipleCurios` when the owner has two; an assigned name other than `Other` is looked up among every owner's curios |
| Tasks.ResolveCurio | api/tasks.py:71-92 | a suggestion puts the clip in the owner's only curio of that name, or appends a private one with the AI-suggestion description and points the clip at it, and fails with `MultipleCurios` when the owner has two; an assigned name other than `Other` is looked up among the owner's curios only; only the clip's curio and the curio table change, and a changed curio always belongs to the clip's owner |
| Tasks.SuggestedTwice | api/tasks.py:74-84 | resolving the same suggestion again creates no second curio and writes nothing |
| Tasks.ForeignCurioAssigned | api/tasks.py:87 | when the only curio with the name belongs to another user, the code assigns it; the corrected lookup leaves the clip as it was |
| Tasks.Acquisition | api/tasks.py:34-48 | a download error writes nothing; otherwise only clip `id` changes: title, thumbnail and platform from the metadata, and the transcript replaced iff transcription succeeds (kept otherwise, and the error returned); the audio path is recorded |
| Tasks.SummaryStage | api/tasks.py:52-61 | the model answer for the owner's curio names; its error writes nothing; on success only the summary changes (`""` when the key is missing) |
| Tasks.ClassifyStage | api/tasks.py:65-98 | a `null` tag list raises before any write; otherwise the tags are attached first, and a failing curio resolution (several of the owner's curios of the suggested or assigned name) ends the stage keeping those tag writes; on success every tag is attached, the clip's curio is the one the resolution chose, the description is stored, and the embeddings are those `process_clip_embeddings` computes for the updated clip |
| Tasks.Enrich | api/tasks.py:24-98 | a missing clip raises; a successful reuse ends the run with no audio path recorded, reporting the audio file and thumbnail copy that the reuse's fallback download left, if it made one; a reuse error ends it with nothing downloaded; otherwise the fresh pipeline runs; the task rows are never touched |
| Tasks.Fresh | api/tasks.py:33-98 | an acquisition error ends the run; the audio path is the one acquisition recorded; the rest is `Tasks.Continue` |
| Tasks.Continue | api/tasks.py:52-98 | after a failed acquisition nothing more happens; otherwise a summary error ends the run with the summary stage's store, and a summary success runs the classification stage on that store with the parsed answer, whose outcome is the run's |
| Tasks.ClassifyCompleted | api/tasks.py:65-98 | a completed classification had a tag list, attached every tag, stored the description, kept title, thumbnail, transcript and summary, and left the embeddings computed for the finished clip |
| Tasks.ContinueCompleted | api/tasks.py:52-98 | after acquisition, a completed run means the summarizer answered: its summary, tags and description are stored and the embeddings are those of the finished clip |
| Tasks.FreshCompleted | api/tasks.py:33-98 | a fresh run completes only after every stage returned: download and transcription succeeded, and the title, thumbnail, transcript, summary, tags, description and embeddings are all as those stages give them |
| Tasks.ReusedSkipsProcessing | api/tasks.py:26-31 | a reused clip completes with exactly the reuse's writes and no audio path recorded; nothing is downloaded when the donor's thumbnail re-uploads or the download fails; otherwise the downloaded audio file stays on disk, and so does the thumbnail copy iff it was saved |
| Tasks.Removed | api/tasks.py:107-109 | the file is removed iff a truthy path was recorded and that file exists, and then it is the recorded path |
| Tasks.ProcessClipTask | api/tasks.py:17-109 | a missing or ambiguous task row raises before any write; otherwise the row goes `processing`, then `completed` iff enrichment succeeded, else `failed` with the error; no other task row and no other field of the row changes; on every path the recorded audio path is removed when it exists, while the reuse's download and any thumbnail copy are reported as left behind |
| Tasks.ProcessClipTaskAsWritten | api/tasks.py:17-109 | as written, every run that finds its task row ends `failed`, with `TypeError` once the clip loads; nothing but the task row changes |

## Left out

- Downloads (`yt_dlp`, cookies), speech-to-text, chat completion, the embedding service,
  the thumbnail download, compression and upload (`handle_thumbnail_upload`) and
  `json_repair.loads` are outside the process. They are oracle parameters: `Acquire.Extractor`,
  `Acquire.ImageFetch`, `Tasks.Transcriber`, `Summarizer.Complete`, `Embeddings.Embedder`,
  `Reuse.Uploader` and `Summarizer.Loads`. The prompt text is not modelled.
- The search query itself is not modelled: the SQL, pgvector's cosine distance and `LIMIT top_n`.
  Only the Python filter and mapping of the rows are.
- Search.ToMatch: does not model `round(..., 2)`, which is floating point; the percentage is
  the exact product.
- Error texts (`str(e)`) are modelled as `Errors.Error` values. Logging is left out.
- Column length limits (`max_length`) and the database's own refusals are not modelled, except
  for the 1536-wide vector column, the unique tag name and the unique clip-tag pair.
- `NULL`s stored in `blank=True` text columns are modelled as `None`: the tables are unmanaged,
  so the code's writes of `None` are kept as given.
- JSON values of the wrong type are not modelled, for example a `tags` value that is a string
  or a number. Only a missing key, `null`, and a value of the expected type are.
- Acquire.FetchMetadata: duration and uploader are left out because nothing reads them. The
  thumbnail file extension is left out because the file's path is never read back.
- The local thumbnail copy made by `fetch_audio_and_metadata` (api/utils.py:103) is never
  deleted. The model only records that it exists (`thumbnailSaved`, `Run.thumbnailLeft`), for
  the fresh download and for the reuse's fallback download alike.
- The reuse's fallback download (api/utils.py:301-302) writes an audio file that nothing removes,
  because `audio_path` is set only on the fresh path. The model reports that file
  (`Run.strayAudio`) and does not model the file system itself.
- Tasks.Removed: whether a file exists is a given predicate (`TaskServices.fileExists`). The
  model does not relate it to the file the downloader actually wrote. The fallback file name
  (api/utils.py:95) rewrites only `.webm` and `.m4a` to `.mp3`, so the real audio file can sit
  under another name and stay on disk; that file is not tracked.
- Chunking.ChunkText: follows the code, which makes ceil(n / stride) windows. Trailing windows
  may lie inside the previous one (`Chunking.TrailingWindowContained`).
- Chunking.ChunkText: a negative `chunk_size` is not modelled (sizes are `nat`).
- Chunking.ChunkText: the stride is computed in exact arithmetic, not in floating point. Python's
  `10 * (1 - 0.9)` is `0.9999999999999998`, so `chunk_text(text, 10, 0.9)` raises `ValueError`
  (api/utils.py:354-356) where the model yields a stride of 1. The only caller passes 300 and 0.2,
  where both give 240 (`Chunking.DefaultStep`).
- Chunking.ChunkWords: is stated on the list of words, not on the original text. Re-splitting
  a chunk gives its words, not the text's original spacing.
- Reuse.Donor: the database's order among clips with equal `created_at` is unspecified. The
  model picks the earliest stored one.
- Reuse.Donor: the clip being enriched may be its own donor when it already has a summary and a
  transcript, as in the code.
- Reuse.CurioStep: when the owner has several curios with the donor curio's name, the model takes
  the first in store order. The code's `.first()` (api/utils.py:332-335) has no `order_by`, so
  Django orders by primary key, a random UUID (api/models.py:47). Which of them is picked is
  therefore arbitrary, and the model fixes one choice.
- Reuse.CopyEmbeddings: the donor's rows are copied in store order. The query at api/utils.py:318
  has no `order_by`, so the database may return them, and `bulk_create` insert them, in any
  order. The copied rows as a collection are the same.
- Tasks.ProcessClipTask: assumes api/utils.py imports. In this snapshot its import list
  (api/utils.py:14-18) names four constants that api/constants.py does not define, so the module,
  and with it the task, fails to load before any clip is processed.
- Concurrency is left out: Celery retries, two workers on the same task row, and race
  conditions in `get_or_create`.
- Authentication, JWT handling, views, URLs, serializers and the other models (profiles, plans,
  ratings, comments, invitations) are outside the enrichment core.
- `transcribe_audio_with_openai` and `summarize_transcript` are reached only through the
  oracles.

## Findings

| source | as written | input that shows it | evidently intended | confidence | as-written member | corrected member |
|---|---|---|---|---|---|---|
| api/tasks.py:26 | `reuse_clip_if_exists(clip, OPENAI_API_KEY)` passes two of the four required arguments, so the call raises `TypeError` (assuming the module imports at all: api/utils.py:14-18 imports `COOKIE_STORAGE_PATH`, `COOKIE_LOCAL_PATH`, `SUPABASE_URL` and `SUPABASE_KEY`, which api/constants.py does not define, so in this snapshot the import fails first) | any existing clip: the task always ends `failed` and no clip is ever enriched (`Tasks.ProcessClipTaskAsWritten`) | pass the storage URL and key as well | high, not executed | Tasks.ProcessClipTaskAsWritten | Tasks.ProcessClipTask |
| api/utils.py:330 | the log line reads `existing_clip.curio.name` before line 331 checks that the curio exists | a donor with a summary, transcript, embeddings and thumbnail but no curio: `AttributeError` after every copy was committed (`Reuse.DonorWithoutCurioFails`) | log after the check; reuse succeeds | high, not executed | Reuse.ReuseFromAsWritten | Reuse.ReuseFrom |
| api/utils.py:301-305 | when the donor has no usable thumbnail, the full audio download is rerun unguarded just to find one | a donor without thumbnail and a URL whose download now fails: the reuse aborts with the download error (`Reuse.ThumbnailFetchAborts`) | a missing thumbnail is optional, as `handle_thumbnail_upload` already returns `None` on failure | medium, not executed | Reuse.ThumbnailAsWritten | Reuse.Thumbnail |
| api/tasks.py:87 | `Curio.objects.get(name=...)` is not restricted to the clip's owner | another user owns the only curio with the assigned name: the clip is put in that user's curio (`Tasks.ForeignCurioAssigned`) | look up among the owner's curios, the list the model was given at line 53 | high, not executed | Tasks.ResolveCurioAsWritten | Tasks.ResolveCurio |
| api/utils.py:50 | `detect_platform` returns `"unknown"`, which line 40 of api/tasks.py stores although the field's `choices` at api/models.py:63-68 list only tiktok, instagram, youtube and other (Django does not check `choices` on `save()`, so the row is written with a value outside them) | URL `a.io/v` (`Acquire.UnknownHostWitness`, `Tasks.UnknownPlatformStored`) | store the column default `other` | medium, not executed | Tasks.ApplyMetadataAsWritten | Tasks.ApplyMetadata |

=== FILE: acquire.dfy ===
/** `detect_platform`, `get_platform_video_id` and the parts of `fetch_audio_and_metadata` the
    pipeline consumes. The downloader and the image fetch are supplied by the caller. */
module Acquire {
  import opened Wrappers
  import opened Errors
  import Text
  import Models

  predicate IsYoutubeUrl(url: string) {
    Text.Contains(url, "youtube.com") || Text.Contains(url, "youtu.be")
  }

  /** `detect_platform(url)` as written: substring tests, first hit wins; `"unknown"` otherwise. */
  function DetectPlatform(url: string): (p: string)
    ensures p == "youtube" <==> IsYoutubeUrl(url)
    ensures p == "tiktok" <==> !IsYoutubeUrl(url) && Text.Contains(url, "tiktok.com")
    ensures p == "instagram" <==>
      !IsYoutubeUrl(url) && !Text.Contains(url, "tiktok.com") && Text.Contains(url, "instagram.com")
    ensures p == "unknown" <==>
      !IsYoutubeUrl(url) && !Text.Contains(url, "tiktok.com") && !Text.Contains(url, "instagram.com")
  {
    if IsYoutubeUrl(url) then "youtube"
    else if Text.Contains(url, "tiktok.com") then "tiktok"
    else if Text.Contains(url, "instagram.com") then "instagram"
    else "unknown"
  }

  /** The detected platform is a declared `Clip.platform` choice exactly when one of the three
      hosts was recognised: the fallback `"unknown"` is not one of them. */
  lemma DetectedPlatformChoice(url: string)
    ensures Models.ValidPlatform(DetectPlatform(url)) <==> DetectPlatform(url) != "unknown"
  {
    assert "unknown" !in Models.PlatformChoices;
  }

  /** A text shorter than a pattern does not contain it. */
  lemma {:induction false} ShortLacks(s: string, sub: string)
    requires |s| < |sub|
    ensures !Text.Contains(s, sub)
    decreases |s|
  {
    if |s| > 0 {
      ShortLacks(s[1..], sub);
    }
  }

  /** A link to another host is detected as `"unknown"`, which `clip.save()` would store although
      it is outside the column's choices. */
  lemma UnknownHostWitness()
    ensures DetectPlatform("a.io/v") == "unknown"
    ensures !Models.ValidPlatform(DetectPlatform("a.io/v"))
  {
    ShortLacks("a.io/v", "youtube.com");
    ShortLacks("a.io/v", "youtu.be");
    ShortLacks("a.io/v", "tiktok.com");
    ShortLacks("a.io/v", "instagram.com");
    DetectedPlatformChoice("a.io/v");
  }

  /** The platform a clip row should receive: the detected one, with the column's default
      `"other"` in place of `"unknown"`. */
  function ClipPlatform(url: string): (p: string)
    ensures Models.ValidPlatform(p)
    ensures DetectPlatform(url) != "unknown" ==> p == DetectPlatform(url)
    ensures DetectPlatform(url) == "unknown" ==> p == Models.DefaultPlatform
  {
    var d := DetectPlatform(url);
    if d == "unknown" then Models.DefaultPlatform else d
  }

  /** `url.rstrip("/").split("/")[-1].split("?")[0]`: the last path segment, cut at the first `?`. */
  function LastSegment(url: string): (seg: string)
    ensures '/' !in seg && '?' !in seg
  {
    var u := Text.RStrip(url, '/');
    var tail := match Text.LastIndexOf(u, '/') case Some(i) => u[i + 1..] case None => u;
    assert '/' !in tail;
    match Text.IndexOf(tail, '?') case Some(j) => tail[..j] case None => tail
  }

  /** The segment after the last slash is the video id, whatever path precedes it and whatever
      query follows it. */
  lemma LastSegmentOf(path: string, id: string, query: string)
    requires '/' !in id && '?' !in id && '/' !in query
    ensures LastSegment(path + "/" + id + "?" + query) == id
  {
    var tail := id + "?" + query;
    var url := path + "/" + tail;
    assert url == path + "/" + id + "?" + query;
    AfterLastSlash(path, tail);
    BeforeFirstQuery(id, query);
  }

  /** A text ending in a slash-free, non-empty tail is unchanged by `rstrip("/")` and its last
      slash sits just before the tail. */
  lemma AfterLastSlash(path: string, tail: string)
    requires '/' !in tail && |tail| > 0
    ensures Text.RStrip(path + "/" + tail, '/') == path + "/" + tail
    ensures Text.LastIndexOf(path + "/" + tail, '/') == Some(|path|)
  {
    var u := path + "/" + tail;
    assert u[|u| - 1] == tail[|tail| - 1];
    assert u[|path|] == '/';
    assert forall k :: |path| < k < |u| ==> u[k] == tail[k - |path| - 1];
    assert u[|path| + 1..] == tail;
  }

  lemma BeforeFirstQuery(id: string, query: string)
    requires '?' !in id
    ensures Text.IndexOf(id + "?" + query, '?') == Some(|id|)
    ensures (id + "?" + query)[..|id|] == id
  {
    var t := id + "?" + query;
    assert t[|id|] == '?';
    assert forall k :: 0 <= k < |id| ==> t[k] == id[k];
  }

  /** `get_platform_video_id(info, url, platform)`: the downloader's id when it is truthy; for
      tiktok and instagram a missing or empty id falls back to the URL's last segment; for
      the other platforms the id is passed through as it came (`None` stays `None`). */
  function PlatformVideoId(infoId: Option<string>, url: string, platform: string): (r: Option<string>)
    ensures Models.Truthy(infoId) ==> r == infoId
    ensures platform in {"tiktok", "instagram"} && !Models.Truthy(infoId) ==> r == Some(LastSegment(url))
    ensures platform !in {"tiktok", "instagram"} ==> r == infoId
    ensures r.Some? && r != infoId ==> '/' !in r.value && '?' !in r.value
  {
    if platform == "youtube" then infoId
    else if platform == "instagram" || platform == "tiktok" then
      if Models.Truthy(infoId) then infoId else Some(LastSegment(url))
    else infoId
  }

  /** What `YoutubeDL.extract_info(url, download=True)` yields that the code reads: the id, title
      and thumbnail URL (`None` when absent) and the path of the downloaded audio. */
  datatype Info = Info(id: Option<string>, title: Option<string>, thumbnail: Option<string>, filepath: string)

  /** The dictionary `fetch_audio_and_metadata` returns, without the fields nobody reads
      (duration, uploader). `thumbnailSaved` records that a local copy of the thumbnail was written;
      nothing ever deletes it. */
  datatype Metadata = Metadata(
    title: Option<string>,
    thumbnail: Option<string>,
    thumbnailSaved: bool,
    platform: string,
    filepath: string,
    platformVideoId: Option<string>)

  /** The downloader (cookie fetch, `extract_info`, audio extraction): metadata, or the error it raised. */
  type Extractor = string -> Result<Info, Error>

  /** `download_image(url, path)`: whether the image was written. */
  type ImageFetch = string -> bool

  /** `fetch_audio_and_metadata(url)`: the downloader's error propagates; otherwise the platform
      comes from `detect_platform`, the video id from `get_platform_video_id`, and a local
      thumbnail copy exists only when there is a thumbnail URL and its download succeeded. */
  function FetchMetadata(url: string, extract: Extractor, fetchImage: ImageFetch): (r: Result<Metadata, Error>)
    ensures extract(url).Failure? <==> r.Failure?
    ensures r.Failure? ==> r.error == extract(url).error
    ensures r.Success? ==>
      var info := extract(url).value;
      && r.value.platform == DetectPlatform(url)
      && r.value.platformVideoId == PlatformVideoId(info.id, url, DetectPlatform(url))
      && r.value.title == info.title && r.value.thumbnail == info.thumbnail
      && r.value.filepath == info.filepath
      && (r.value.thumbnailSaved <==> Models.Truthy(info.thumbnail) && fetchImage(info.thumbnail.value))
  {
    var platform := DetectPlatform(url);
    var info :- extract(url);
    var saved := Models.Truthy(info.thumbnail) && fetchImage(info.thumbnail.value);
    Success(Metadata(info.title, info.thumbnail, saved, platform, info.filepath,
      PlatformVideoId(info.id, url, platform)))
  }
}

=== FILE: chunking.dfy ===
/** `chunk_text`: split a text into windows of `chunk_size` words whose starts are
    `int(chunk_size * (1 - overlap_ratio))` words apart. */
module Chunking {
  import opened Wrappers
  import opened Errors
  import Text

  /** The defaults `process_clip_embeddings` passes. */
  const DefaultChunkSize: nat := 300
  const DefaultOverlapRatio: real := 0.2

  /** The stride `int(chunk_size * (1 - overlap_ratio))`, computed here in exact arithmetic.
      Python computes the product in binary floating point, so the two can differ by one where
      the exact product is a whole number (chunk size 10 and ratio 0.9 give 1 here, 0 in Python);
      on the defaults 300 and 0.2 both give 240. */
  function Step(chunkSize: nat, overlapRatio: real): int {
    ((chunkSize as real) * (1.0 - overlapRatio)).Floor
  }

  function Min(a: int, b: int): int {
    if a <= b then a else b
  }

  /** `words[start:start + size]`, empty once `start` is past the end as in Python. */
  function Window(words: seq<string>, start: nat, size: nat): seq<string> {
    words[Min(start, |words|)..Min(start + size, |words|)]
  }

  /** `k * step`, the start of the k-th window, spelled out as repeated addition. */
  function Offset(k: nat, step: nat): nat {
    if k == 0 then 0 else Offset(k - 1, step) + step
  }

  lemma {:induction false} OffsetIsProduct(k: nat, step: nat)
    ensures Offset(k, step) == k * step
  {
    if k > 0 {
      OffsetIsProduct(k - 1, step);
    }
  }

  /** The word windows the loop `while i < n` visits once `i == from`. */
  function Windows(words: seq<string>, size: nat, step: nat, from: nat): seq<seq<string>>
    requires step > 0
    decreases |words| - from
  {
    if from >= |words| then []
    else [Window(words, from, size)] + Windows(words, size, step, from + step)
  }

  /** The loop from position `from` makes ceil((n - from) / step) passes: that many strides
      cover what is left, one fewer does not. */
  lemma {:induction false} WindowsCount(words: seq<string>, size: nat, step: nat, from: nat)
    requires step > 0
    ensures Offset(|Windows(words, size, step, from)|, step) >= |words| - from
    ensures |Windows(words, size, step, from)| == 0
         || Offset(|Windows(words, size, step, from)| - 1, step) < |words| - from
    decreases |words| - from
  {
    if from < |words| {
      var rest := Windows(words, size, step, from + step);
      WindowsCount(words, size, step, from + step);
      assert |Windows(words, size, step, from)| == |rest| + 1;
      assert Offset(|rest| + 1, step) == Offset(|rest|, step) + step;
      if |rest| > 0 {
        assert Offset(|rest|, step) == Offset(|rest| - 1, step) + step;
      }
    } else {
      assert Windows(words, size, step, from) == [];
    }
  }

  /** The k-th pass from position `from` takes the window starting `k` strides further on. */
  lemma {:induction false} WindowsAt(words: seq<string>, size: nat, step: nat, from: nat, k: nat)
    requires step > 0
    requires k < |Windows(words, size, step, from)|
    ensures from + Offset(k, step) < |words|
    ensures Windows(words, size, step, from)[k] == Window(words, from + Offset(k, step), size)
    decreases k
  {
    var rest := Windows(words, size, step, from + step);
    assert Windows(words, size, step, from) == [Window(words, from, size)] + rest;
    if k > 0 {
      WindowsAt(words, size, step, from + step, k - 1);
      assert Offset(k, step) == step + Offset(k - 1, step);
    }
  }

  /** `" ".join(chunk)` for each window, in order. */
  function JoinAll(windows: seq<seq<string>>): (chunks: seq<string>)
    ensures |chunks| == |windows|
    ensures forall k {:trigger chunks[k]} :: 0 <= k < |windows| ==> chunks[k] == Text.Join(windows[k])
  {
    if |windows| == 0 then [] else [Text.Join(windows[0])] + JoinAll(windows[1..])
  }

  /** `chunk_text(text, chunk_size, overlap_ratio)`: a configuration error exactly when the
      stride is not positive; otherwise ceil(n / step) chunks, chunk k joining the words
      `words[k * step : k * step + chunk_size]` with single spaces. */
  function ChunkText(text: string, chunkSize: nat, overlapRatio: real): (r: Result<seq<string>, Error>)
    ensures r.Failure? <==> Step(chunkSize, overlapRatio) <= 0
    ensures r.Failure? ==> r.error == InvalidChunking
    ensures r.Success? ==>
      var words := Text.Split(text);
      var step := Step(chunkSize, overlapRatio);
      && step > 0
      && |r.value| == (|words| + step - 1) / step
      && (|r.value| == 0 || Offset(|r.value| - 1, step) < |words|)
      && forall k {:trigger r.value[k]} :: 0 <= k < |r.value| ==>
        r.value[k] == Text.Join(Window(words, Offset(k, step), chunkSize))
  {
    if Step(chunkSize, overlapRatio) <= 0 then Failure(InvalidChunking)
    else
      var words := Text.Split(text);
      var step := Step(chunkSize, overlapRatio);
      var chunks := JoinAll(Windows(words, chunkSize, step, 0));
      JoinedWindows(words, chunkSize, step, chunks);
      Success(chunks)
  }

  lemma JoinedWindows(words: seq<string>, size: nat, step: nat, chunks: seq<string>)
    requires step > 0
    requires chunks == JoinAll(Windows(words, size, step, 0))
    ensures |chunks| == (|words| + step - 1) / step
    ensures |chunks| == 0 || Offset(|chunks| - 1, step) < |words|
    ensures forall k {:trigger chunks[k]} :: 0 <= k < |chunks| ==>
        chunks[k] == Text.Join(Window(words, Offset(k, step), size))
  {
    ChunkCount(words, size, step);
    forall k | 0 <= k < |chunks|
      ensures chunks[k] == Text.Join(Window(words, Offset(k, step), size))
    {
      ChunkAt(words, size, step, k);
    }
  }

  lemma ChunkCount(words: seq<string>, size: nat, step: nat)
    requires step > 0
    ensures |Windows(words, size, step, 0)| == (|words| + step - 1) / step
    ensures |Windows(words, size, step, 0)| == 0 || Offset(|Windows(words, size, step, 0)| - 1, step) < |words|
  {
    WindowsCount(words, size, step, 0);
    CeilingCount(|words|, step, |Windows(words, size, step, 0)|);
  }

  lemma ChunkAt(words: seq<string>, size: nat, step: nat, k: nat)
    requires step > 0
    requires k < |Windows(words, size, step, 0)|
    ensures JoinAll(Windows(words, size, step, 0))[k] == Text.Join(Window(words, Offset(k, step), size))
  {
    WindowsAt(words, size, step, 0, k);
  }

  /** A count `m` with `m * step >= n` and `(m - 1) * step < n` is ceil(n / step). */
  lemma CeilingCount(n: nat, step: nat, m: nat)
    requires step > 0
    requires Offset(m, step) >= n
    requires m == 0 || Offset(m - 1, step) < n
    ensures m == (n + step - 1) / step
  {
    OffsetIsProduct(m, step);
    if m > 0 {
      OffsetIsProduct(m - 1, step);
      assert m * step == (m - 1) * step + step;
    }
    DivisionUnique(n + step - 1, step, m);
  }

  lemma DivisionUnique(a: int, b: int, m: int)
    requires b > 0
    requires m * b <= a < m * b + b
    ensures a / b == m
  {
    var q := a / b;
    assert a == q * b + a % b;
    LessByFactor(q, m + 1, b);
    LessByFactor(m, q + 1, b);
  }

  lemma LessByFactor(x: int, y: int, b: int)
    requires b > 0
    requires x * b < y * b
    ensures x < y
  {
  }

  /** The defaults give a stride of 240 words. */
  lemma DefaultStep()
    ensures Step(DefaultChunkSize, DefaultOverlapRatio) == 240
  {
  }

  /** Each chunk is exactly its window of words: splitting the chunk again gives them back,
      and there are between 1 and `chunk_size` of them. `ChunkText` chunks `Text.Split(text)`,
      whose elements are all words. */
  lemma ChunkWords(words: seq<string>, size: nat, step: nat, chunks: seq<string>, k: nat)
    requires Text.AllWords(words)
    requires 0 < step && 0 < size
    requires chunks == JoinAll(Windows(words, size, step, 0))
    requires k < |chunks|
    ensures Text.Split(chunks[k]) == Window(words, Offset(k, step), size)
    ensures 1 <= |Text.Split(chunks[k])| <= size
  {
    JoinedWindows(words, size, step, chunks);
    OffsetMonotone(k, |chunks| - 1, step);
    WindowRoundTrip(words, Offset(k, step), size);
  }

  lemma {:induction false} OffsetMonotone(j: nat, k: nat, step: nat)
    requires j <= k
    ensures Offset(j, step) <= Offset(k, step)
    decreases k
  {
    if j < k {
      OffsetMonotone(j, k - 1, step);
    }
  }

  lemma WindowRoundTrip(words: seq<string>, start: nat, size: nat)
    requires Text.AllWords(words)
    ensures Text.Split(Text.Join(Window(words, start, size))) == Window(words, start, size)
    ensures |Window(words, start, size)| <= size
    ensures start < |words| && size > 0 ==> |Window(words, start, size)| >= 1
  {
    var w := Window(words, start, size);
    assert forall i :: 0 <= i < |w| ==> w[i] == words[Min(start, |words|) + i];
    Text.SplitJoin(w);
  }

  /** A full window shares its last `chunk_size - step` words with the first words of the next. */
  lemma ChunkOverlap(words: seq<string>, size: nat, step: nat, k: nat)
    requires 0 < step <= size
    requires k * step + size <= |words|
    ensures (k + 1) * step <= |words|
    ensures Window(words, k * step, size)[step..] == Window(words, (k + 1) * step, size)[..size - step]
  {
    var a := k * step;
    assert (k + 1) * step == a + step;
    assert Window(words, a, size) == words[a..a + size];
    assert Window(words, a + step, size)[..size - step] == words[a + step..a + size];
  }

  /** Once a window reaches the end of the words, every later window lies inside it:
      the loop still emits those trailing chunks. */
  lemma TrailingWindowContained(words: seq<string>, size: nat, step: nat, k: nat)
    requires step > 0
    requires k * step + size >= |words|
    requires (k + 1) * step < |words|
    ensures Window(words, (k + 1) * step, size) == Window(words, k * step, size)[step..]
  {
    assert (k + 1) * step == k * step + step;
  }

  /** Five words, windows of four, stride two: three windows, the last inside the second.
      The count is ceil(5 / 2), not ceil((5 - 4) / 2) + 1. */
  lemma FiveWordsThreeWindows()
    ensures Windows(["a", "b", "c", "d", "e"], 4, 2, 0) == [["a", "b", "c", "d"], ["c", "d", "e"], ["e"]]
  {
    var ws := ["a", "b", "c", "d", "e"];
    assert Window(ws, 4, 4) == ws[4..5] == ["e"];
    assert Window(ws, 2, 4) == ws[2..5] == ["c", "d", "e"];
    assert Window(ws, 0, 4) == ws[0..4] == ["a", "b", "c", "d"];
    assert Windows(ws, 4, 2, 6) == [];
    assert Windows(ws, 4, 2, 4) == [Window(ws, 4, 4)] + Windows(ws, 4, 2, 6);
    assert Windows(ws, 4, 2, 2) == [Window(ws, 2, 4)] + Windows(ws, 4, 2, 4);
    assert Windows(ws, 4, 2, 0) == [Window(ws, 0, 4)] + Windows(ws, 4, 2, 2);
  }
}

=== FILE: embeddings.dfy ===
/** `process_clip_embeddings`: lay out a clip's texts as (field, chunk index, text) entries, send
    the texts to the embedding service, and store one `ClipEmbedding` per (entry, vector) pair. */
module Embeddings {
  import opened Wrappers
  import opened Errors
  import Text
  import Chunking
  import Models

  /** One text to embed, with the field it came from and its position within that field. */
  datatype Entry = Entry(text: string, field: string, index: nat)

  /** The embedding service: the texts in, one vector per text (or the service's error) out. */
  type Embedder = seq<string> -> Result<seq<Models.Vector>, Error>

  /** `[value] if value else []`. */
  function Single(o: Option<string>): (r: seq<string>)
    ensures Models.Truthy(o) ==> r == [o.value]
    ensures !Models.Truthy(o) ==> r == []
  {
    if Models.Truthy(o) then [o.value] else []
  }

  /** `enumerate(chunks)` tagged with the field name. */
  function Enumerate(field: string, chunks: seq<string>, from: nat): (r: seq<Entry>)
    ensures |r| == |chunks|
    ensures forall k {:trigger r[k]} :: 0 <= k < |r| ==> r[k] == Entry(chunks[k], field, from + k)
  {
    if |chunks| == 0 then [] else [Entry(chunks[0], field, from)] + Enumerate(field, chunks[1..], from + 1)
  }

  /** The nested `for field_name, chunks in fields: for idx, chunk in enumerate(chunks)` loop. */
  function Layout(fields: seq<(string, seq<string>)>): (r: seq<Entry>)
    ensures |r| == Before(fields, |fields|)
  {
    if |fields| == 0 then []
    else
      LayoutLength(fields);
      Enumerate(fields[0].0, fields[0].1, 0) + Layout(fields[1..])
  }

  /** How many entries the fields before field `i` contribute. */
  function Before(fields: seq<(string, seq<string>)>, i: nat): nat
    requires i <= |fields|
  {
    if i == 0 then 0 else Before(fields, i - 1) + |fields[i - 1].1|
  }

  lemma {:induction false} BeforeTail(fields: seq<(string, seq<string>)>, i: nat)
    requires 0 < i <= |fields|
    ensures Before(fields, i) == |fields[0].1| + Before(fields[1..], i - 1)
  {
    if i > 1 {
      BeforeTail(fields, i - 1);
    }
  }

  lemma LayoutLength(fields: seq<(string, seq<string>)>)
    requires |fields| > 0
    ensures Before(fields, |fields|) == |fields[0].1| + Before(fields[1..], |fields| - 1)
  {
    BeforeTail(fields, |fields|);
  }

  lemma {:induction false} BeforeMonotone(fields: seq<(string, seq<string>)>, i: nat, j: nat)
    requires i <= j <= |fields|
    ensures Before(fields, i) <= Before(fields, j)
    decreases j
  {
    if i < j {
      BeforeMonotone(fields, i, j - 1);
    }
  }

  /** Chunk `j` of field `i` is laid out at position `Before(fields, i) + j`, with index `j`: fields
      keep their order, each field's entries are contiguous, and its indices restart at 0. */
  lemma {:induction false} LayoutAt(fields: seq<(string, seq<string>)>, i: nat, j: nat)
    requires i < |fields| && j < |fields[i].1|
    ensures Before(fields, i) + j < |Layout(fields)|
    ensures Layout(fields)[Before(fields, i) + j] == Entry(fields[i].1[j], fields[i].0, j)
    decreases i
  {
    BeforeMonotone(fields, i + 1, |fields|);
    var head := Enumerate(fields[0].0, fields[0].1, 0);
    assert Layout(fields) == head + Layout(fields[1..]);
    if i > 0 {
      LayoutAt(fields[1..], i - 1, j);
      BeforeTail(fields, i);
    }
  }

  /** Every entry comes from some field's chunk, at that chunk's index. */
  lemma {:induction false} LayoutFrom(fields: seq<(string, seq<string>)>, p: nat)
    requires p < |Layout(fields)|
    ensures exists i :: (0 <= i < |fields| && Layout(fields)[p].index < |fields[i].1|
      && Layout(fields)[p] == Entry(fields[i].1[Layout(fields)[p].index], fields[i].0, Layout(fields)[p].index))
    decreases |fields|
  {
    var head := Enumerate(fields[0].0, fields[0].1, 0);
    assert Layout(fields) == head + Layout(fields[1..]);
    if p >= |head| {
      LayoutFrom(fields[1..], p - |head|);
      var i' :| 0 <= i' < |fields[1..]| && Layout(fields[1..])[p - |head|].index < |fields[1..][i'].1|
        && Layout(fields[1..])[p - |head|] == Entry(fields[1..][i'].1[Layout(fields[1..])[p - |head|].index],
             fields[1..][i'].0, Layout(fields[1..])[p - |head|].index);
      assert fields[1..][i'] == fields[i' + 1];
    } else {
      assert Layout(fields)[p] == head[p];
    }
  }

  /** The four fields in order: title, summary and description when truthy, then the transcript
      (`""` when missing) cut into 300-word chunks 240 words apart. */
  function ClipFields(c: Models.Clip): (r: seq<(string, seq<string>)>)
    ensures Chunking.ChunkText(TranscriptText(c), Chunking.DefaultChunkSize, Chunking.DefaultOverlapRatio).Success?
    ensures r == [("title", Single(c.title)), ("summary", Single(c.summary)), ("description", Single(c.description)),
      ("transcript", Chunking.ChunkText(TranscriptText(c), Chunking.DefaultChunkSize, Chunking.DefaultOverlapRatio).value)]
  {
    Chunking.DefaultStep();
    var chunks := Chunking.ChunkText(TranscriptText(c), Chunking.DefaultChunkSize, Chunking.DefaultOverlapRatio).value;
    [("title", Single(c.title)), ("summary", Single(c.summary)),
     ("description", Single(c.description)), ("transcript", chunks)]
  }

  /** `clip.transcript or ""`. */
  function TranscriptText(c: Models.Clip): (t: string)
    ensures Models.Truthy(c.transcript) ==> t == c.transcript.value
    ensures !Models.Truthy(c.transcript) ==> t == ""
  {
    if Models.Truthy(c.transcript) then c.transcript.value else ""
  }

  /** `zip(all_texts, all_fields, all_indices, vectors)` turned into rows for clip `clip`:
      as many rows as the shorter of the two lists. */
  function Rows(clip: nat, entries: seq<Entry>, vectors: seq<Models.Vector>): (rows: seq<Models.ClipEmbedding>)
    ensures |rows| == Chunking.Min(|entries|, |vectors|)
    ensures forall k {:trigger rows[k]} :: 0 <= k < |rows| ==>
      rows[k] == Models.ClipEmbedding(clip, entries[k].field, Some(entries[k].index as int), entries[k].text, vectors[k])
  {
    if |entries| == 0 || |vectors| == 0 then []
    else
      [Models.ClipEmbedding(clip, entries[0].field, Some(entries[0].index as int), entries[0].text, vectors[0])]
        + Rows(clip, entries[1..], vectors[1..])
  }

  /** Position of the first row whose vector is not 1536 wide. */
  function FirstMisfit(rows: seq<Models.ClipEmbedding>): (r: Option<nat>)
    ensures r.None? <==> forall k :: 0 <= k < |rows| ==> |rows[k].embedding| == Models.EmbeddingDimensions
    ensures r.Some? ==> r.value < |rows| && |rows[r.value].embedding| != Models.EmbeddingDimensions
    ensures r.Some? ==> forall k :: 0 <= k < r.value ==> |rows[k].embedding| == Models.EmbeddingDimensions
  {
    if |rows| == 0 then None
    else if |rows[0].embedding| != Models.EmbeddingDimensions then Some(0)
    else match FirstMisfit(rows[1..])
      case None => None
      case Some(k) => Some(k + 1)
  }

  /** The `for ... in zip(...): ClipEmbedding.objects.create(...)` loop. Each create commits on its
      own: a vector of the wrong width raises there, and the rows before it stay written. */
  function SaveRows(st: Models.Store, rows: seq<Models.ClipEmbedding>): (r: Models.Outcome<()>)
    ensures r.store == st.(embeddings := r.store.embeddings)
    ensures FirstMisfit(rows).None? ==>
      r.result == Success(()) && r.store.embeddings == st.embeddings + rows
    ensures FirstMisfit(rows).Some? ==>
      var k := FirstMisfit(rows).value;
      && r.result == Failure(DimensionMismatch(|rows[k].embedding|))
      && r.store.embeddings == st.embeddings + rows[..k]
    ensures Models.Valid(st) && (forall k :: 0 <= k < |rows| ==> rows[k].clip < |st.clips|) ==>
      Models.Valid(r.store)
    decreases |rows|
  {
    if |rows| == 0 then Models.Outcome(st, Success(()))
    else
      match Models.AddEmbedding(st, rows[0])
      case Failure(e) => Models.Outcome(st, Failure(e))
      case Success(st1) =>
        var r := SaveRows(st1, rows[1..]);
        assert st.embeddings + rows == st1.embeddings + rows[1..];
        assert FirstMisfit(rows).Some? ==> (FirstMisfit(rows).value >= 1 &&
          rows[..FirstMisfit(rows).value] == [rows[0]] + rows[1..][..FirstMisfit(rows).value - 1]);
        r
  }

  /** `process_clip_embeddings(clip, key)` for clip `id`: the service sees every laid-out text; its
      error leaves the store untouched; otherwise the rows pairing entries with vectors are
      written up to the first vector of the wrong width. Only embedding rows change. */
  function ProcessClipEmbeddings(st: Models.Store, id: nat, embed: Embedder): (r: Models.Outcome<()>)
    requires id < |st.clips|
    ensures r.store == st.(embeddings := r.store.embeddings)
    ensures var entries := Layout(ClipFields(st.clips[id]));
      var texts := Texts(entries);
      && (embed(texts).Failure? ==> r == Models.Outcome(st, Failure(embed(texts).error)))
      && (embed(texts).Success? ==> r == SaveRows(st, Rows(id, entries, embed(texts).value)))
    ensures Models.Valid(st) ==> Models.Valid(r.store)
  {
    var fields := ClipFields(st.clips[id]);
    var entries := Layout(fields);
    match embed(Texts(entries))
    case Failure(e) => Models.Outcome(st, Failure(e))
    case Success(vectors) =>
      var rows := Rows(id, entries, vectors);
      assert forall k :: 0 <= k < |rows| ==> rows[k].clip == id;
      SaveRows(st, rows)
  }

  /** `all_texts`: the entries' texts, in layout order. */
  function Texts(entries: seq<Entry>): (texts: seq<string>)
    ensures |texts| == |entries|
    ensures forall k {:trigger texts[k]} :: 0 <= k < |texts| ==> texts[k] == entries[k].text
  {
    if |entries| == 0 then [] else [entries[0].text] + Texts(entries[1..])
  }

  /** With a well-behaved service (one 1536-wide vector per text) every entry becomes exactly one
      row, in layout order, carrying the entry's field, index and text. */
  lemma WellBehavedService(st: Models.Store, id: nat, embed: Embedder)
    requires id < |st.clips|
    requires var texts := Texts(Layout(ClipFields(st.clips[id])));
      embed(texts).Success? && |embed(texts).value| == |texts|
      && forall k :: 0 <= k < |texts| ==> |embed(texts).value[k]| == Models.EmbeddingDimensions
    ensures var entries := Layout(ClipFields(st.clips[id]));
      var r := ProcessClipEmbeddings(st, id, embed);
      && r.result == Success(())
      && |r.store.embeddings| == |st.embeddings| + |entries|
      && forall k :: 0 <= k < |entries| ==>
        var e := r.store.embeddings[|st.embeddings| + k];
        e.clip == id && e.field == entries[k].field && e.chunkIndex == Some(entries[k].index as int)
        && e.textChunk == entries[k].text
  {
    var entries := Layout(ClipFields(st.clips[id]));
    var vectors := embed(Texts(entries)).value;
    assert ProcessClipEmbeddings(st, id, embed) == SaveRows(st, Rows(id, entries, vectors));
    SaveAll(st, id, entries, vectors);
  }

  lemma SaveAll(st: Models.Store, id: nat, entries: seq<Entry>, vectors: seq<Models.Vector>)
    requires |vectors| == |entries|
    requires forall k :: 0 <= k < |vectors| ==> |vectors[k]| == Models.EmbeddingDimensions
    ensures var r := SaveRows(st, Rows(id, entries, vectors));
      && r.result == Success(())
      && |r.store.embeddings| == |st.embeddings| + |entries|
      && forall k :: 0 <= k < |entries| ==>
        var e := r.store.embeddings[|st.embeddings| + k];
        e.clip == id && e.field == entries[k].field && e.chunkIndex == Some(entries[k].index as int)
        && e.textChunk == entries[k].text
  {
    var rows := Rows(id, entries, vectors);
    forall k | 0 <= k < |rows|
      ensures |rows[k].embedding| == Models.EmbeddingDimensions
    {
      assert rows[k].embedding == vectors[k];
    }
    assert FirstMisfit(rows).None?;
    var r := SaveRows(st, rows);
    assert r.result == Success(()) && r.store.embeddings == st.embeddings + rows;
    forall k | 0 <= k < |entries|
      ensures var e := r.store.embeddings[|st.embeddings| + k];
        e.clip == id && e.field == entries[k].field && e.chunkIndex == Some(entries[k].index as int)
        && e.textChunk == entries[k].text
    {
      assert r.store.embeddings[|st.embeddings| + k] == rows[k];
      assert rows[k] == Models.ClipEmbedding(id, entries[k].field, Some(entries[k].index as int), entries[k].text, vectors[k]);
    }
  }

  /** A clip's entries in order: its title, summary and description when truthy (each at
      index 0), then transcript chunk k at index k. */
  lemma ClipLayout(c: Models.Clip)
    ensures var L := Layout(ClipFields(c));
      var chunks := ClipFields(c)[3].1;
      var nt := |Single(c.title)|;
      var ns := |Single(c.summary)|;
      var nd := |Single(c.description)|;
      && |L| == nt + ns + nd + |chunks|
      && (Models.Truthy(c.title) ==> L[0] == Entry(c.title.value, "title", 0))
      && (Models.Truthy(c.summary) ==> L[nt] == Entry(c.summary.value, "summary", 0))
      && (Models.Truthy(c.description) ==> L[nt + ns] == Entry(c.description.value, "description", 0))
      && forall k :: 0 <= k < |chunks| ==> L[nt + ns + nd + k] == Entry(chunks[k], "transcript", k)
  {
    FourFields(Single(c.title), Single(c.summary), Single(c.description), ClipFields(c)[3].1);
  }

  lemma FourFields(t: seq<string>, s: seq<string>, d: seq<string>, chunks: seq<string>)
    ensures var fields := [("title", t), ("summary", s), ("description", d), ("transcript", chunks)];
      var L := Layout(fields);
      && |L| == |t| + |s| + |d| + |chunks|
      && (|t| > 0 ==> L[0] == Entry(t[0], "title", 0))
      && (|s| > 0 ==> L[|t|] == Entry(s[0], "summary", 0))
      && (|d| > 0 ==> L[|t| + |s|] == Entry(d[0], "description", 0))
      && forall k :: 0 <= k < |chunks| ==> L[|t| + |s| + |d| + k] == Entry(chunks[k], "transcript", k)
  {
    var fields := [("title", t), ("summary", s), ("description", d), ("transcript", chunks)];
    assert Before(fields, 1) == |t|;
    assert Before(fields, 2) == |t| + |s|;
    assert Before(fields, 3) == |t| + |s| + |d|;
    assert Before(fields, 4) == Before(fields, 3) + |chunks|;
    if |t| > 0 {
      LayoutAt(fields, 0, 0);
    }
    if |s| > 0 {
      LayoutAt(fields, 1, 0);
    }
    if |d| > 0 {
      LayoutAt(fields, 2, 0);
    }
    forall k | 0 <= k < |chunks|
      ensures Layout(fields)[Before(fields, 3) + k] == Entry(chunks[k], "transcript", k)
    {
      LayoutAt(fields, 3, k);
    }
  }

  /** A service that returns fewer vectors than texts silently drops the trailing entries. */
  lemma ShortServiceTruncates(st: Models.Store, id: nat, embed: Embedder)
    requires id < |st.clips|
    requires var texts := Texts(Layout(ClipFields(st.clips[id])));
      embed(texts).Success? && |embed(texts).value| < |texts|
      && forall k :: 0 <= k < |embed(texts).value| ==> |embed(texts).value[k]| == Models.EmbeddingDimensions
    ensures var r := ProcessClipEmbeddings(st, id, embed);
      var texts := Texts(Layout(ClipFields(st.clips[id])));
      r.result == Success(()) && |r.store.embeddings| == |st.embeddings| + |embed(texts).value|
  {
    var entries := Layout(ClipFields(st.clips[id]));
    var texts := Texts(entries);
    var rows := Rows(id, entries, embed(texts).value);
    assert FirstMisfit(rows).None?;
  }
}

=== FILE: errors.dfy ===
/** The exceptions the enrichment pipeline can raise, as values. */
module Errors {

  /** Why `parse_openai_response` gave up: no braces at all, or the lenient parser failed. */
  datatype JsonCause = NoBraces | RepairFailed

  datatype Error =
      /** `chunk_text`: the stride `int(chunk_size * (1 - overlap_ratio))` is not positive. */
    | InvalidChunking
      /** `parse_openai_response`: the `ValueError` that carries the raw model output. */
    | JsonParsing(cause: JsonCause, raw: string)
      /** `summarize_and_categorize_clip` with an empty model list: `RuntimeError`. */
    | AllModelsFailed
      /** Any failure reported by an external service (download, speech-to-text, completion, embedding). */
    | Service(message: string)
      /** `TypeError`: a call that omits required positional arguments. */
    | MissingArguments
      /** `AttributeError`: reading `.name` of a donor clip whose curio is `None`. */
    | NoCurioOnDonor
      /** `ClipProcessingTask.objects.get(celery_task_id=...)` finding no row, or several. */
    | TaskNotUnique
      /** `Clip.DoesNotExist` raised by `Clip.objects.get(id=...)`. */
    | ClipDoesNotExist
      /** `Curio.MultipleObjectsReturned` raised by `get` / `get_or_create` on a non-unique name. */
    | MultipleCurios
      /** `TypeError`: iterating over a `tags` value that is JSON `null`. */
    | TagsNotIterable
      /** The vector column rejects a vector whose length is not 1536. */
    | DimensionMismatch(dimensions: nat)
}

=== FILE: json_extract.dfy ===
/** `parse_openai_response`: the three string steps that turn a model's reply into the text
    handed to the lenient JSON parser — drop markdown fences, keep the span from the first `{`
    to the last `}`, and escape raw newlines inside double-quoted literals — and the parse itself,
    with the lenient parser as a partial function supplied by the caller. */
module JsonExtract {
  import opened Wrappers
  import opened Errors
  import Text

  /* ---------- Step 1: `re.sub(r"```(?:json)?|```", "", s)` ---------- */

  /** Three backticks at the front. */
  predicate FenceAt(s: string) {
    |s| >= 3 && s[0] == '`' && s[1] == '`' && s[2] == '`'
  }

  /** `json` directly after the three backticks. */
  predicate TagAt(s: string) {
    |s| >= 7 && s[3] == 'j' && s[4] == 's' && s[5] == 'o' && s[6] == 'n'
  }

  /** The regular expression scanned left to right: at each position a run of three backticks
      is removed together with a directly following `json` when there is one; every other
      character is kept. */
  function StripFences(s: string): (r: string)
    ensures |r| <= |s|
    decreases |s|
  {
    if FenceAt(s) then
      if TagAt(s) then StripFences(s[7..]) else StripFences(s[3..])
    else if |s| == 0 then ""
    else [s[0]] + StripFences(s[1..])
  }

  /** The characters the fence pattern can consume. */
  predicate FenceChar(c: char) {
    c == '`' || c == 'j' || c == 's' || c == 'o' || c == 'n'
  }

  /** Fence removal neither adds nor removes any character outside the pattern's alphabet. */
  lemma {:induction false} StripFencesKeeps(s: string, c: char)
    requires !FenceChar(c)
    ensures c in StripFences(s) <==> c in s
    decreases |s|
  {
    if FenceAt(s) {
      var k := if TagAt(s) then 7 else 3;
      StripFencesKeeps(s[k..], c);
      assert s == s[..k] + s[k..];
      assert c !in s[..k] by {
        assert forall i :: 0 <= i < k ==> FenceChar(s[..k][i]);
      }
    } else if |s| > 0 {
      StripFencesKeeps(s[1..], c);
      assert s == [s[0]] + s[1..];
    }
  }

  /** Text without a backtick has no fence to remove. */
  lemma {:induction false} StripFencesNoBacktick(s: string)
    requires '`' !in s
    ensures StripFences(s) == s
    decreases |s|
  {
    if |s| > 0 {
      assert s[0] != '`';
      StripFencesNoBacktick(s[1..]);
      assert s == [s[0]] + s[1..];
    }
  }

  /** A fence cannot reach across a closing brace, so what follows it is processed on its own. */
  lemma {:induction false} StripFencesSplit(a: string, b: string)
    requires |a| > 0 && a[|a| - 1] == '}'
    ensures StripFences(a + b) == StripFences(a) + StripFences(b)
    decreases |a|
  {
    var s := a + b;
    if FenceAt(a) {
      FenceSplit(a, b);
      if TagAt(a) {
        assert s[7..] == a[7..] + b;
        StripFencesSplit(a[7..], b);
        assert StripFences(s) == StripFences(s[7..]);
      } else {
        assert s[3..] == a[3..] + b;
        StripFencesSplit(a[3..], b);
        assert StripFences(s) == StripFences(s[3..]);
      }
    } else {
      FenceSplit(a, b);
      assert StripFences(s) == [s[0]] + StripFences(s[1..]);
      if |a| == 1 {
        assert s[1..] == b;
      } else {
        assert s[1..] == a[1..] + b;
        StripFencesSplit(a[1..], b);
      }
    }
  }

  /** Whether a fence, and a tag after it, starts at the front is decided within `a`. */
  lemma FenceSplit(a: string, b: string)
    requires |a| > 0 && a[|a| - 1] == '}'
    ensures FenceAt(a + b) <==> FenceAt(a)
    ensures FenceAt(a) ==> |a| > 3 && (TagAt(a + b) <==> TagAt(a)) && (TagAt(a) ==> |a| > 7)
  {
    var s := a + b;
    if |a| < 3 {
      assert s[|a| - 1] == '}';
    } else {
      assert s[0] == a[0] && s[1] == a[1] && s[2] == a[2];
    }
    if FenceAt(a) {
      if |a| < 7 {
        assert s[|a| - 1] == '}';
      } else {
        assert s[3] == a[3] && s[4] == a[4] && s[5] == a[5] && s[6] == a[6];
      }
    }
  }

  /** Text that starts with `{` keeps it as its first character after fence removal. */
  lemma StripFencesFirst(s: string)
    requires |s| > 0 && s[0] == '{'
    ensures |StripFences(s)| > 0 && StripFences(s)[0] == '{'
  {
  }

  /** Text that ends with `}` keeps it as its last character after fence removal. */
  lemma {:induction false} StripFencesLast(s: string)
    requires |s| > 0 && s[|s| - 1] == '}'
    ensures |StripFences(s)| > 0 && StripFences(s)[|StripFences(s)| - 1] == '}'
    decreases |s|
  {
    if FenceAt(s) {
      if TagAt(s) {
        StripFencesLast(s[7..]);
      } else {
        StripFencesLast(s[3..]);
      }
    } else if |s| > 1 {
      StripFencesLast(s[1..]);
    }
  }

  /* ---------- Step 2: `candidate[candidate.find("{"):candidate.rfind("}") + 1]` ---------- */

  /** The stripped, fence-free text the brace search runs on. */
  function Candidate(raw: string): string {
    Text.Strip(StripFences(raw))
  }

  /** Where the object text lies in `c`: `None` when `c` lacks `{` or `}`; otherwise the slice
      bounds `start`..`stop`, where `start` is the first `{` and `stop - 1` the last `}`, or an
      empty slice at `start` when the last `}` comes before the first `{` (Python's slice of a
      reversed range). */
  function BraceSpan(c: string): (r: Option<(nat, nat)>)
    ensures r.None? <==> '{' !in c || '}' !in c
    ensures r.Some? ==> r.value.0 <= r.value.1 <= |c| && r.value.0 < |c| && c[r.value.0] == '{'
    ensures r.Some? ==> forall i :: 0 <= i < r.value.0 ==> c[i] != '{'
    ensures r.Some? && r.value.0 < r.value.1 ==> c[r.value.1 - 1] == '}'
    ensures r.Some? ==> forall i :: r.value.1 <= i < |c| ==> c[i] != '}'
  {
    match (Text.IndexOf(c, '{'), Text.LastIndexOf(c, '}'))
    case (Some(start), Some(last)) =>
      if last < start then Some((start, start)) else Some((start, last + 1))
    case _ => None
  }

  /** The text handed on to the escaper. */
  function SpanText(c: string): string {
    match BraceSpan(c)
    case Some((start, stop)) => c[start..stop]
    case None => ""
  }

  /* ---------- Step 3: re-escape raw newlines inside double-quoted literals ---------- */

  /** The literal body the pattern `"(?:[^"\\]|\\.)*"` matches after the opening quote:
      single characters other than `"` and `\`, and backslash pairs (any second character). */
  predicate Body(b: string)
    decreases |b|
  {
    if |b| == 0 then true
    else if b[0] == '"' then false
    else if b[0] == '\\' then |b| >= 2 && Body(b[2..])
    else Body(b[1..])
  }

  /** Where the closing quote of a literal opened just before `t` lies: the first `"` met while
      stepping over single characters and backslash pairs, `None` when the text ends first.
      Backtracking cannot find any other match, since every quote stepped over is the second
      half of a backslash pair. */
  function BodyLength(t: string): (r: Option<nat>)
    ensures r.Some? ==> r.value < |t| && t[r.value] == '"' && Body(t[..r.value])
    decreases |t|
  {
    if |t| == 0 then None
    else if t[0] == '"' then Some(0)
    else if t[0] == '\\' then
      if |t| >= 2 then
        match BodyLength(t[2..])
        case Some(n) =>
          assert t[..n + 2][2..] == t[2..][..n];
          Some(n + 2)
        case None => None
      else None
    else
      match BodyLength(t[1..])
      case Some(n) =>
        assert t[..n + 1][1..] == t[1..][..n];
        Some(n + 1)
      case None => None
  }

  /** A complete literal body is closed by the first quote after it, whatever follows. */
  lemma {:induction false} BodyCloses(b: string, rest: string)
    requires Body(b)
    ensures BodyLength(b + ['"'] + rest) == Some(|b|)
    decreases |b|
  {
    var t := b + ['"'] + rest;
    if |b| == 0 {
      assert t[0] == '"';
    } else if b[0] == '\\' {
      assert t[2..] == b[2..] + ['"'] + rest;
      BodyCloses(b[2..], rest);
    } else {
      assert t[1..] == b[1..] + ['"'] + rest;
      BodyCloses(b[1..], rest);
    }
  }

  /** The pieces `re.sub` sees: a matched literal (quotes included) or a character it steps over. */
  datatype Segment = Literal(text: string) | Plain(c: char)

  /** `re.sub`'s scan: a `"` that starts a match opens a literal running to its closing quote;
      any other character, including a quote that is never closed, is stepped over. */
  function Tokenize(s: string): (segs: seq<Segment>)
    decreases |s|
  {
    if |s| == 0 then []
    else if s[0] == '"' && BodyLength(s[1..]).Some? then
      var n := BodyLength(s[1..]).value;
      [Literal(s[..n + 2])] + Tokenize(s[n + 2..])
    else [Plain(s[0])] + Tokenize(s[1..])
  }

  function SegmentText(g: Segment): string {
    match g
    case Literal(t) => t
    case Plain(c) => [c]
  }

  /** The segments written back to back. */
  function Flatten(segs: seq<Segment>): string {
    if |segs| == 0 then "" else SegmentText(segs[0]) + Flatten(segs[1..])
  }

  /** A literal as the pattern matches it: quote, body, quote. */
  predicate Quoted(t: string) {
    |t| >= 2 && t[0] == '"' && t[|t| - 1] == '"' && Body(t[1..|t| - 1])
  }

  predicate AllQuoted(segs: seq<Segment>) {
    forall k :: 0 <= k < |segs| && segs[k].Literal? ==> Quoted(segs[k].text)
  }

  lemma FlattenCons(g: Segment, rest: seq<Segment>)
    ensures Flatten([g] + rest) == SegmentText(g) + Flatten(rest)
  {
    assert ([g] + rest)[1..] == rest;
  }

  lemma AllQuotedCons(g: Segment, rest: seq<Segment>)
    requires g.Literal? ==> Quoted(g.text)
    requires AllQuoted(rest)
    ensures AllQuoted([g] + rest)
  {
    forall k | 0 <= k < |[g] + rest| && ([g] + rest)[k].Literal?
      ensures Quoted(([g] + rest)[k].text)
    {
      if k > 0 {
        assert ([g] + rest)[k] == rest[k - 1];
      }
    }
  }

  /** The literal the scan takes at a quote whose body closes is quote, body, quote. */
  lemma LiteralQuoted(s: string)
    requires |s| > 0 && s[0] == '"' && BodyLength(s[1..]).Some?
    ensures BodyLength(s[1..]).value + 2 <= |s|
    ensures Quoted(s[..BodyLength(s[1..]).value + 2])
  {
    var n := BodyLength(s[1..]).value;
    var lit := s[..n + 2];
    assert lit[1..|lit| - 1] == s[1..][..n];
    assert lit[|lit| - 1] == s[1..][n];
  }

  /** The scan loses nothing and every literal it finds is a well-formed quoted string. */
  lemma TokenizeSound(s: string)
    ensures Flatten(Tokenize(s)) == s
    ensures AllQuoted(Tokenize(s))
  {
    TokenizeFlatten(s);
    TokenizeQuoted(s);
  }

  /** One step of the scan at a quote whose body closes: the literal takes `n + 2` characters. */
  lemma TokenizeLiteral(s: string) returns (n: nat)
    requires |s| > 0 && s[0] == '"' && BodyLength(s[1..]).Some?
    ensures n == BodyLength(s[1..]).value && n + 2 <= |s|
    ensures Tokenize(s) == [Literal(s[..n + 2])] + Tokenize(s[n + 2..])
  {
    n := BodyLength(s[1..]).value;
  }

  /** One step of the scan anywhere else. */
  lemma TokenizePlain(s: string)
    requires |s| > 0 && !(s[0] == '"' && BodyLength(s[1..]).Some?)
    ensures Tokenize(s) == [Plain(s[0])] + Tokenize(s[1..])
  {
  }

  lemma {:induction false} TokenizeFlatten(s: string)
    ensures Flatten(Tokenize(s)) == s
    decreases |s|, 1
  {
    if |s| > 0 {
      if s[0] == '"' && BodyLength(s[1..]).Some? {
        var n := TokenizeLiteral(s);
        FlattenLiteral(s, n);
      } else {
        FlattenPlain(s);
      }
    }
  }

  /** `TokenizeFlatten` when the scan starts with a literal. */
  lemma {:induction false} FlattenLiteral(s: string, n: nat)
    requires n + 2 <= |s| && Tokenize(s) == [Literal(s[..n + 2])] + Tokenize(s[n + 2..])
    ensures Flatten(Tokenize(s)) == s
    decreases |s|, 0
  {
    var head, tail := s[..n + 2], s[n + 2..];
    TokenizeFlatten(tail);
    FlattenCons(Literal(head), Tokenize(tail));
    assert s == head + tail;
  }

  /** `TokenizeFlatten` when the scan starts with a plain character. */
  lemma {:induction false} FlattenPlain(s: string)
    requires |s| > 0 && !(s[0] == '"' && BodyLength(s[1..]).Some?)
    ensures Flatten(Tokenize(s)) == s
    decreases |s|, 0
  {
    TokenizePlain(s);
    var tail := s[1..];
    TokenizeFlatten(tail);
    FlattenCons(Plain(s[0]), Tokenize(tail));
    assert s == [s[0]] + tail;
  }



  lemma {:induction false} TokenizeQuoted(s: string)
    ensures AllQuoted(Tokenize(s))
    decreases |s|
  {
    if |s| > 0 {
      if s[0] == '"' && BodyLength(s[1..]).Some? {
        LiteralQuoted(s);
        var n := BodyLength(s[1..]).value;
        var rest := Tokenize(s[n + 2..]);
        TokenizeQuoted(s[n + 2..]);
        assert Tokenize(s) == [Literal(s[..n + 2])] + rest;
        AllQuotedCons(Literal(s[..n + 2]), rest);
      } else {
        var rest := Tokenize(s[1..]);
        TokenizeQuoted(s[1..]);
        assert Tokenize(s) == [Plain(s[0])] + rest;
        AllQuotedCons(Plain(s[0]), rest);
      }
    }
  }


  /** `match.group(0).replace("\n", "\\n")`: each raw newline becomes a backslash and `n`. */
  function EscapeNewlines(t: string): (r: string)
    ensures '\n' !in r
    ensures |r| == |t| + Text.Count(t, '\n')
  {
    if |t| == 0 then ""
    else (if t[0] == '\n' then "\\n" else [t[0]]) + EscapeNewlines(t[1..])
  }

  lemma {:induction false} EscapeNewlinesAppend(a: string, b: string)
    ensures EscapeNewlines(a + b) == EscapeNewlines(a) + EscapeNewlines(b)
    decreases |a|
  {
    if |a| > 0 {
      assert (a + b)[1..] == a[1..] + b;
      EscapeNewlinesAppend(a[1..], b);
    } else {
      assert a + b == b;
    }
  }

  /** Text without a raw newline is left as it is. */
  lemma {:induction false} EscapeNewlinesNone(t: string)
    requires '\n' !in t
    ensures EscapeNewlines(t) == t
    decreases |t|
  {
    if |t| > 0 {
      EscapeNewlinesNone(t[1..]);
      assert t == [t[0]] + t[1..];
    }
  }

  /** A backslash pair in front of a body is a body. */
  lemma BodyPair(c: char, t: string)
    requires Body(t)
    ensures Body(['\\'] + ([c] + t))
  {
    assert (['\\'] + ([c] + t))[2..] == t;
  }


  /** A character other than a quote or a backslash in front of a body is a body. */
  lemma BodySingle(c: char, t: string)
    requires c != '"' && c != '\\' && Body(t)
    ensures Body([c] + t)
  {
    assert ([c] + t)[1..] == t;
  }

  /** Escaping keeps a literal body a literal body: the new backslash pairs with its `n`,
      and a newline that ended a backslash pair leaves a pair of backslashes and an `n`. */
  lemma {:induction false} EscapeKeepsBody(b: string)
    requires Body(b)
    ensures Body(EscapeNewlines(b))
    decreases |b|
  {
    if |b| > 0 {
      if b[0] == '\\' {
        EscapeKeepsBody(b[2..]);
        EscapePair(b[1], b[2..]);
        assert b == ['\\'] + ([b[1]] + b[2..]);
      } else {
        EscapeKeepsBody(b[1..]);
        EscapeSingle(b[0], b[1..]);
        assert b == [b[0]] + b[1..];
      }
    }
  }

  /** One step of `EscapeNewlines`, on a character in front of a text. */
  lemma EscapeCons(c: char, t: string)
    ensures EscapeNewlines([c] + t) == (if c == '\n' then ['\\', 'n'] else [c]) + EscapeNewlines(t)
  {
    assert ([c] + t)[1..] == t;
  }


  /** A backslash pair in front of text whose escape is a body: the escape is a body too. A
      raw newline after the backslash becomes a pair of backslashes and an `n`. */
  lemma EscapePair(c: char, t: string)
    requires Body(EscapeNewlines(t))
    ensures Body(EscapeNewlines(['\\'] + ([c] + t)))
  {
    var tail := EscapeNewlines(t);
    EscapeCons(c, t);
    EscapeCons('\\', [c] + t);
    if c == '\n' {
      BodyEscapedNewline(tail);
    } else {
      BodyPair(c, tail);
    }
  }

  /** An escaped newline in front of a body is a body. */
  lemma BodyEscape(t: string)
    requires Body(t)
    ensures Body(['\\', 'n'] + t)
  {
    assert (['\\', 'n'] + t)[2..] == t;
  }

  /** A backslash, then an escaped newline, in front of a body is a body. */
  lemma BodyEscapedNewline(t: string)
    requires Body(t)
    ensures Body(['\\'] + (['\\', 'n'] + t))
  {
    BodySingle('n', t);
    BodyPair('\\', ['n'] + t);
    assert ['\\'] + (['\\', 'n'] + t) == ['\\'] + (['\\'] + (['n'] + t));
  }




  /** A character other than a quote or a backslash in front of text whose escape is a body:
      the escape is a body too. */
  lemma EscapeSingle(c: char, t: string)
    requires c != '"' && c != '\\' && Body(EscapeNewlines(t))
    ensures Body(EscapeNewlines([c] + t))
  {
    var tail := EscapeNewlines(t);
    EscapeCons(c, t);
    if c == '\n' {
      BodyEscape(tail);
    } else {
      BodySingle(c, tail);
    }
  }




  /** What `re.sub` writes for each piece. */
  function Render(segs: seq<Segment>): string {
    if |segs| == 0 then ""
    else
      (match segs[0] case Literal(t) => EscapeNewlines(t) case Plain(c) => [c]) + Render(segs[1..])
  }

  /** `re.sub(r'"(?:[^"\\]|\\.)*"', _escaper, json_str, flags=re.DOTALL)`. */
  function EscapeLiterals(s: string): string {
    Render(Tokenize(s))
  }

  /** Newlines inside literals: the ones the escaper rewrites. */
  function LiteralNewlines(segs: seq<Segment>): nat {
    if |segs| == 0 then 0
    else (if segs[0].Literal? then Text.Count(segs[0].text, '\n') else 0) + LiteralNewlines(segs[1..])
  }

  /** Rendering differs from the original text by one added backslash per literal newline;
      stepped-over characters are copied as they are. */
  lemma {:induction false} RenderLength(segs: seq<Segment>)
    ensures |Render(segs)| == |Flatten(segs)| + LiteralNewlines(segs)
    ensures LiteralNewlines(segs) == 0 ==> Render(segs) == Flatten(segs)
  {
    if |segs| > 0 {
      RenderLength(segs[1..]);
      if segs[0].Literal? && LiteralNewlines(segs) == 0 {
        EscapeNewlinesNone(segs[0].text);
      }
    }
  }

  /** The escaper changes its input exactly when some literal holds a raw newline, and then
      only by lengthening it. */
  lemma EscapeUnchangedIff(s: string)
    ensures |EscapeLiterals(s)| == |s| + LiteralNewlines(Tokenize(s))
    ensures EscapeLiterals(s) == s <==> LiteralNewlines(Tokenize(s)) == 0
  {
    TokenizeSound(s);
    RenderLength(Tokenize(s));
  }

  lemma {:induction false} LiteralNewlinesBound(segs: seq<Segment>)
    ensures LiteralNewlines(segs) <= Text.Count(Flatten(segs), '\n')
  {
    if |segs| > 0 {
      LiteralNewlinesBound(segs[1..]);
      Text.CountAppend(SegmentText(segs[0]), Flatten(segs[1..]), '\n');
    }
  }

  /** Input without a raw newline comes back unchanged. */
  lemma NoNewlineUnchanged(s: string)
    requires '\n' !in s
    ensures EscapeLiterals(s) == s
  {
    TokenizeSound(s);
    LiteralNewlinesBound(Tokenize(s));
    EscapeUnchangedIff(s);
  }

  /** Every segment is stepped over. */
  predicate AllPlain(segs: seq<Segment>) {
    forall k :: 0 <= k < |segs| ==> segs[k].Plain?
  }

  /** After a quote that is never closed no later quote is closed either: every quote the scan
      met was the second half of a backslash pair, and restarting just after it retraces the
      same steps to the end. */
  lemma {:induction false} UnclosedAllPlain(t: string)
    requires BodyLength(t).None?
    ensures AllPlain(Tokenize(t))
    decreases |t|
  {
    if |t| > 0 {
      assert t[0] != '"';
      if t[0] == '\\' && |t| >= 2 {
        UnclosedAllPlain(t[2..]);
        var u := t[1..];
        assert u[1..] == t[2..];
        if u[0] == '"' {
          assert BodyLength(u[1..]).None?;
        }
        assert Tokenize(u) == [Plain(u[0])] + Tokenize(t[2..]);
        assert Tokenize(t) == [Plain(t[0])] + Tokenize(u);
      } else if t[0] == '\\' {
        assert Tokenize(t) == [Plain(t[0])] + Tokenize(t[1..]);
        assert t[1..] == "";
      } else {
        UnclosedAllPlain(t[1..]);
        assert Tokenize(t) == [Plain(t[0])] + Tokenize(t[1..]);
      }
    }
  }

  lemma {:induction false} RenderAllPlain(segs: seq<Segment>)
    requires AllPlain(segs)
    ensures Render(segs) == Flatten(segs)
  {
    if |segs| > 0 {
      RenderAllPlain(segs[1..]);
    }
  }

  /** Each literal with its newlines escaped; stepped-over characters as they were. */
  function EscapeSegments(segs: seq<Segment>): (r: seq<Segment>)
    ensures |r| == |segs|
  {
    if |segs| == 0 then []
    else
      [match segs[0] case Literal(t) => Literal(EscapeNewlines(t)) case Plain(c) => Plain(c)]
      + EscapeSegments(segs[1..])
  }

  /** Scanning the escaped text finds the same literals, now escaped, at the same places. */
  lemma {:induction false} RescanEscaped(s: string)
    ensures Tokenize(EscapeLiterals(s)) == EscapeSegments(Tokenize(s))
    decreases |s|, 1
  {
    if |s| > 0 {
      if s[0] == '"' && BodyLength(s[1..]).Some? {
        RescanLiteral(s);
      } else if s[0] == '"' {
        RescanUnclosed(s);
      } else {
        RescanPlain(s);
      }
    }
  }

  /** `RescanEscaped` when the text opens with a closed literal. */
  lemma {:induction false} RescanLiteral(s: string)
    requires |s| > 0 && s[0] == '"' && BodyLength(s[1..]).Some?
    ensures Tokenize(EscapeLiterals(s)) == EscapeSegments(Tokenize(s))
    decreases |s|, 0
  {
    var segs := Tokenize(s);
    var n := BodyLength(s[1..]).value;
    var lit := s[..n + 2];
    var body := s[1..][..n];
    assert lit == "\"" + body + "\"";
    assert segs[1..] == Tokenize(s[n + 2..]);
    var rest := EscapeLiterals(s[n + 2..]);
    EscapeQuoted(body);
    assert EscapeLiterals(s) == EscapeNewlines(lit) + rest;
    EscapedLiteralScan(body, rest);
    RescanEscaped(s[n + 2..]);
  }

  /** `RescanEscaped` when the text opens with a quote that never closes: nothing after it is a
      literal, and nothing is escaped. */
  lemma RescanUnclosed(s: string)
    requires |s| > 0 && s[0] == '"' && BodyLength(s[1..]).None?
    ensures Tokenize(EscapeLiterals(s)) == EscapeSegments(Tokenize(s))
  {
    var segs := Tokenize(s);
    UnclosedAllPlain(s[1..]);
    assert segs[1..] == Tokenize(s[1..]);
    RenderAllPlain(Tokenize(s[1..]));
    TokenizeSound(s[1..]);
    assert EscapeLiterals(s) == s;
    PlainEscapeSegments(segs);
  }

  /** `RescanEscaped` when the text opens with a character other than a quote. */
  lemma {:induction false} RescanPlain(s: string)
    requires |s| > 0 && s[0] != '"'
    ensures Tokenize(EscapeLiterals(s)) == EscapeSegments(Tokenize(s))
    decreases |s|, 0
  {
    var segs := Tokenize(s);
    assert segs[1..] == Tokenize(s[1..]);
    var u := EscapeLiterals(s);
    assert u == [s[0]] + EscapeLiterals(s[1..]);
    assert u[1..] == EscapeLiterals(s[1..]);
    RescanEscaped(s[1..]);
  }


  lemma EscapeQuoted(body: string)
    ensures EscapeNewlines("\"" + body + "\"") == "\"" + EscapeNewlines(body) + "\""
  {
    EscapeNewlinesAppend("\"" + body, "\"");
    EscapeNewlinesAppend("\"", body);
  }

  /** An escaped literal is found again as one literal, whatever follows it. */
  lemma EscapedLiteralScan(body: string, rest: string)
    requires Body(body)
    ensures Tokenize("\"" + EscapeNewlines(body) + "\"" + rest)
         == [Literal("\"" + EscapeNewlines(body) + "\"")] + Tokenize(rest)
  {
    var eb := EscapeNewlines(body);
    var u := "\"" + eb + "\"" + rest;
    EscapeKeepsBody(body);
    assert u[1..] == eb + ['"'] + rest;
    BodyCloses(eb, rest);
    assert u[..|eb| + 2] == "\"" + eb + "\"";
    assert u[|eb| + 2..] == rest;
  }

  lemma {:induction false} PlainEscapeSegments(segs: seq<Segment>)
    requires AllPlain(segs)
    ensures EscapeSegments(segs) == segs
  {
    if |segs| > 0 {
      PlainEscapeSegments(segs[1..]);
    }
  }

  lemma {:induction false} RenderEscaped(segs: seq<Segment>)
    ensures Render(EscapeSegments(segs)) == Render(segs)
  {
    if |segs| > 0 {
      RenderEscaped(segs[1..]);
      if segs[0].Literal? {
        EscapeNewlinesNone(EscapeNewlines(segs[0].text));
      }
    }
  }

  /** No literal of the escaped text holds a raw newline (control characters are not allowed
      inside JSON strings, section 7 of RFC 8259), and escaping twice is escaping once. */
  lemma EscapeLiteralsClean(s: string)
    ensures forall k :: 0 <= k < |Tokenize(EscapeLiterals(s))| && Tokenize(EscapeLiterals(s))[k].Literal? ==>
      '\n' !in Tokenize(EscapeLiterals(s))[k].text
    ensures EscapeLiterals(EscapeLiterals(s)) == EscapeLiterals(s)
  {
    RescanEscaped(s);
    EscapedLiteralsClean(Tokenize(s));
    RenderEscaped(Tokenize(s));
  }

  lemma {:induction false} EscapedLiteralsClean(segs: seq<Segment>)
    ensures forall k :: 0 <= k < |segs| && EscapeSegments(segs)[k].Literal? ==>
      '\n' !in EscapeSegments(segs)[k].text
  {
    if |segs| > 0 {
      EscapedLiteralsClean(segs[1..]);
      var e := EscapeSegments(segs);
      assert e[1..] == EscapeSegments(segs[1..]);
      forall k | 0 <= k < |segs| && e[k].Literal?
        ensures '\n' !in e[k].text
      {
        if k > 0 {
          assert e[k] == EscapeSegments(segs[1..])[k - 1];
        }
      }
    }
  }

  /* ---------- The whole of `parse_openai_response` ---------- */

  /** The exact text `json_repair.loads` receives, or `None` when there are no braces. */
  function Extracted(raw: string): Option<string> {
    var c := Candidate(raw);
    if BraceSpan(c).None? then None else Some(EscapeLiterals(SpanText(c)))
  }

  /** `parse_openai_response(raw)` with `loads` standing for `json_repair.loads` (`None` where it
      raises). Every failure is the `ValueError` that carries the raw reply; the no-braces failure
      happens exactly when the reply lacks `{` or `}`; otherwise the parser sees only the escaped
      brace span. */
  function ParseResponse<T>(raw: string, loads: string -> Option<T>): (r: Result<T, Error>)
    ensures r.Failure? ==> r.error.JsonParsing? && r.error.raw == raw
    ensures r == Failure(JsonParsing(NoBraces, raw)) <==> '{' !in raw || '}' !in raw
    ensures r.Success? <==> Extracted(raw).Some? && loads(Extracted(raw).value).Some?
    ensures r.Success? ==> Some(r.value) == loads(Extracted(raw).value)
  {
    BracesSurvive(raw);
    match Extracted(raw)
    case None => Failure(JsonParsing(NoBraces, raw))
    case Some(text) =>
      match loads(text)
      case Some(v) => Success(v)
      case None => Failure(JsonParsing(RepairFailed, raw))
  }

  /** Fences and surrounding whitespace never hide or invent a brace. */
  lemma BracesSurvive(raw: string)
    ensures '{' in Candidate(raw) <==> '{' in raw
    ensures '}' in Candidate(raw) <==> '}' in raw
  {
    StripFencesKeeps(raw, '{');
    StripFencesKeeps(raw, '}');
    Text.StripKeeps(StripFences(raw), '{');
    Text.StripKeeps(StripFences(raw), '}');
  }

  /** Noise around the object is ignored: with prose before it that holds no `{` and prose after
      it that holds no `}`, and no backtick in either, the parser receives the fence-free object
      text itself, whatever the surrounding whitespace. */
  lemma OnlyObjectParsed(before: string, obj: string, after: string)
    requires |obj| >= 2 && obj[0] == '{' && obj[|obj| - 1] == '}'
    requires '{' !in before && '`' !in before
    requires '}' !in after && '`' !in after
    ensures Extracted(before + obj + after) == Some(EscapeLiterals(StripFences(obj)))
  {
    FencesAroundObject(before, obj, after);
    FramedSpan(before, StripFences(obj), after);
  }

  /** Fence removal works inside the object only. */
  lemma FencesAroundObject(before: string, obj: string, after: string)
    requires |obj| >= 2 && obj[0] == '{' && obj[|obj| - 1] == '}'
    requires '`' !in before && '`' !in after
    ensures var x := StripFences(obj);
      && |x| > 0 && x[0] == '{' && x[|x| - 1] == '}'
      && StripFences(before + obj + after) == before + x + after
  {
    StripFencesFirst(obj);
    StripFencesLast(obj);
    StripFencesSplit(obj, after);
    StripFencesNoBacktick(after);
    PlainPrefix(before, obj + after);
    assert before + obj + after == before + (obj + after);
  }

  /** The brace span of a stripped text made of a `{`-free prefix, an object, and a `}`-free
      suffix is the object. */
  lemma FramedSpan(before: string, x: string, after: string)
    requires |x| > 0 && x[0] == '{' && x[|x| - 1] == '}'
    requires '{' !in before && '}' !in after
    ensures BraceSpan(Text.Strip(before + x + after)).Some?
    ensures SpanText(Text.Strip(before + x + after)) == x
  {
    var t := before + x + after;
    var p := |before|;
    var q := p + |x|;
    assert t[p] == '{' && t[q - 1] == '}';
    assert forall i :: 0 <= i < p ==> t[i] == before[i];
    assert forall i :: q <= i < |t| ==> t[i] == after[i - q];
    assert t[p..q] == x;
    StrippedSpan(t, p, q);
  }

  /** Stripping keeps the braces that delimit `t[p..q]`, so the span found is that text. */
  lemma StrippedSpan(t: string, p: nat, q: nat)
    requires p < q <= |t|
    requires t[p] == '{' && t[q - 1] == '}'
    requires forall i :: 0 <= i < p ==> t[i] != '{'
    requires forall i :: q <= i < |t| ==> t[i] != '}'
    ensures BraceSpan(Text.Strip(t)).Some?
    ensures SpanText(Text.Strip(t)) == t[p..q]
  {
    var c := Text.Strip(t);
    var lead := Text.LeadingSpaces(t);
    assert !Text.IsSpace(t[p]) && !Text.IsSpace(t[q - 1]);
    assert lead <= p;
    assert lead + |c| >= q;
    SliceSpan(t, c, lead, p, q);
  }

  /** Brace search in a window `c` of `t` that contains the braces delimiting `t[p..q]`. */
  lemma SliceSpan(t: string, c: string, lead: nat, p: nat, q: nat)
    requires lead <= p < q <= lead + |c| <= |t|
    requires c == t[lead..lead + |c|]
    requires t[p] == '{' && t[q - 1] == '}'
    requires forall i :: 0 <= i < p ==> t[i] != '{'
    requires forall i :: q <= i < |t| ==> t[i] != '}'
    ensures BraceSpan(c) == Some((p - lead, q - lead))
    ensures SpanText(c) == t[p..q]
  {
    var i0 := p - lead;
    var j0 := q - lead;
    assert c[i0] == t[p];
    assert c[j0 - 1] == t[q - 1];
    var (start, stop) := BraceSpan(c).value;
    assert start == i0 by {
      assert c[start] == t[lead + start];
    }
    assert j0 <= stop;
    assert stop == j0 by {
      assert c[stop - 1] == t[lead + stop - 1];
    }
    assert c[i0..j0] == t[p..q] by {
      forall k | 0 <= k < j0 - i0
        ensures c[i0..j0][k] == t[p..q][k]
      {
        assert c[i0 + k] == t[lead + i0 + k];
      }
    }
  }

  /** Characters before the first backtick are copied as they are. */
  lemma {:induction false} PlainPrefix(a: string, b: string)
    requires '`' !in a
    ensures StripFences(a + b) == a + StripFences(b)
    decreases |a|
  {
    if |a| > 0 {
      var s := a + b;
      assert s[0] == a[0];
      assert s[1..] == a[1..] + b;
      PlainPrefix(a[1..], b);
    } else {
      assert a + b == b;
    }
  }
}

=== FILE: models.dfy ===
/** The records of the enrichment core (`Clip`, `Curio`, `Tag`, `ClipTag`, `ClipEmbedding`,
    `ClipProcessingTask`) and the record store they live in. Every table is a sequence and a
    row's id is its index; the store's invariant (database constraints and the platform choices) is `Valid`. */
module Models {
  import opened Wrappers
  import opened Errors

  type UserId = nat
  type Vector = seq<real>

  /** Width of the `embedding` vector column. */
  const EmbeddingDimensions: nat := 1536

  /** The declared choices of `Clip.platform`, and its default. */
  const PlatformChoices: set<string> := {"tiktok", "instagram", "youtube", "other"}
  const DefaultPlatform: string := "other"

  predicate ValidPlatform(p: string) {
    p in PlatformChoices
  }

  /** Python truthiness of an optional string: neither `None` nor `""`. */
  predicate Truthy(o: Option<string>) {
    o.Some? && o.value != ""
  }

  /** The four values `ClipProcessingTask.status` ever takes. */
  datatype TaskStatus = Pending | Processing | Completed | Failed

  datatype Curio = Curio(user: UserId, name: string, description: string, isPublic: bool)

  /** Text columns that the code may set to `None` are optional; `curio` is a nullable key. */
  datatype Clip = Clip(
    user: UserId,
    curio: Option<nat>,
    platform: string,
    platformVideoId: Option<string>,
    title: Option<string>,
    url: string,
    description: Option<string>,
    thumbnailUrl: Option<string>,
    transcript: Option<string>,
    summary: Option<string>,
    isFavorite: bool,
    createdAt: int)

  datatype Tag = Tag(name: string)

  datatype ClipTag = ClipTag(clip: nat, tag: nat)

  datatype ClipEmbedding = ClipEmbedding(
    clip: nat, field: string, chunkIndex: Option<int>, textChunk: string, embedding: Vector)

  datatype ClipProcessingTask = ClipProcessingTask(
    clip: nat, celeryTaskId: string, status: TaskStatus, error: Option<Error>)

  datatype Store = Store(
    curios: seq<Curio>,
    clips: seq<Clip>,
    tags: seq<Tag>,
    clipTags: seq<ClipTag>,
    embeddings: seq<ClipEmbedding>,
    tasks: seq<ClipProcessingTask>)

  /** The writes an operation has committed, and how it ended. There is no rollback:
      a failure still carries every row written before it. */
  datatype Outcome<T> = Outcome(store: Store, result: Result<T, Error>)

  /** A fresh clip as the create view saves it: only owner, url and optional curio are given. */
  function NewClip(user: UserId, url: string, curio: Option<nat>, createdAt: int): (c: Clip)
    ensures c.platform == DefaultPlatform && ValidPlatform(c.platform)
    ensures c.user == user && c.url == url && c.curio == curio && c.createdAt == createdAt
    ensures c.title == Some("") && c.description == Some("") && c.thumbnailUrl == Some("")
    ensures c.transcript == Some("") && c.summary == Some("") && !Truthy(c.summary)
    ensures c.platformVideoId.None? && !c.isFavorite
  {
    Clip(user, curio, DefaultPlatform, None, Some(""), url, Some(""), Some(""), Some(""), Some(""),
      false, createdAt)
  }

  /** A fresh processing task: `pending`, no error. */
  function NewTask(clip: nat, celeryTaskId: string): (t: ClipProcessingTask)
    ensures t.status == Pending && t.error.None?
    ensures t.clip == clip && t.celeryTaskId == celeryTaskId
  {
    ClipProcessingTask(clip, celeryTaskId, Pending, None)
  }

  // ---------------------------------------------------------------- store invariants

  /** `Tag.name` is unique. */
  predicate TagNamesUnique(tags: seq<Tag>) {
    forall i, j :: 0 <= i < j < |tags| ==> tags[i].name != tags[j].name
  }

  /** `ClipTag` is unique on (clip, tag). */
  predicate ClipTagsUnique(links: seq<ClipTag>) {
    forall i, j :: 0 <= i < j < |links| ==> links[i] != links[j]
  }

  predicate LinksInRange(st: Store) {
    forall i :: 0 <= i < |st.clipTags| ==>
      st.clipTags[i].clip < |st.clips| && st.clipTags[i].tag < |st.tags|
  }

  predicate EmbeddingsValid(st: Store) {
    forall i :: 0 <= i < |st.embeddings| ==>
      st.embeddings[i].clip < |st.clips| && |st.embeddings[i].embedding| == EmbeddingDimensions
  }

  /** A clip row's platform is one of the field's choices (a model-level rule) and its curio, if
      any, exists. */
  predicate ClipValid(st: Store, c: Clip) {
    ValidPlatform(c.platform) && (c.curio.Some? ==> c.curio.value < |st.curios|)
  }

  predicate ClipsValid(st: Store) {
    forall i :: 0 <= i < |st.clips| ==> ClipValid(st, st.clips[i])
  }

  predicate TasksInRange(st: Store) {
    forall i :: 0 <= i < |st.tasks| ==> st.tasks[i].clip < |st.clips|
  }

  /** The invariant the model keeps: the database constraints of the schema (unique tag names,
      unique clip-tag pairs, foreign keys that resolve, 1536-wide vectors), together with the
      model-level rule that a clip's platform is one of the field's `choices`. Django checks
      `choices` only in form and model validation, not in `save()`, so the database itself would
      accept any platform text. */
  predicate Valid(st: Store) {
    && TagNamesUnique(st.tags)
    && ClipTagsUnique(st.clipTags)
    && LinksInRange(st)
    && EmbeddingsValid(st)
    && ClipsValid(st)
    && TasksInRange(st)
  }

  function EmptyStore(): (st: Store)
    ensures Valid(st)
  {
    Store([], [], [], [], [], [])
  }

  // ---------------------------------------------------------------- clips

  /** `clip.save()` after assigning some fields of clip `id`. */
  function UpdateClip(st: Store, id: nat, c: Clip): (st': Store)
    requires id < |st.clips|
    ensures st'.clips == st.clips[id := c]
    ensures st' == st.(clips := st'.clips)
    ensures Valid(st) && ClipValid(st, c) ==> Valid(st')
    ensures Valid(st') ==> ClipValid(st, c)
  {
    var st' := st.(clips := st.clips[id := c]);
    assert ClipValid(st', st'.clips[id]) ==> ClipValid(st, c);
    st'
  }

  // ---------------------------------------------------------------- tags

  /** Index of the first tag named `name`. */
  function FindTag(tags: seq<Tag>, name: string): (r: Option<nat>)
    ensures r.None? <==> forall i :: 0 <= i < |tags| ==> tags[i].name != name
    ensures r.Some? ==> r.value < |tags| && tags[r.value].name == name
    ensures r.Some? ==> forall i :: 0 <= i < r.value ==> tags[i].name != name
  {
    if |tags| == 0 then None
    else if tags[0].name == name then Some(0)
    else match FindTag(tags[1..], name)
      case None => None
      case Some(i) => Some(i + 1)
  }

  /** A tag found in a table is still the first one found once rows are appended. */
  lemma {:induction false} FindTagAppend(tags: seq<Tag>, more: seq<Tag>, name: string)
    requires FindTag(tags, name).Some?
    ensures FindTag(tags + more, name) == FindTag(tags, name)
  {
    var i := FindTag(tags, name).value;
    var r := FindTag(tags + more, name);
    assert (tags + more)[i].name == name;
  }

  /** `Tag.objects.get_or_create(name=name)`: the id of the tag named `name`, created when absent. */
  function TagGetOrCreate(st: Store, name: string): (r: (Store, nat))
    ensures r.1 < |r.0.tags| && r.0.tags[r.1].name == name
    ensures FindTag(st.tags, name).Some? ==> r == (st, FindTag(st.tags, name).value)
    ensures FindTag(st.tags, name).None? ==>
      r.0 == st.(tags := st.tags + [Tag(name)]) && r.1 == |st.tags|
    ensures Valid(st) ==> Valid(r.0)
  {
    match FindTag(st.tags, name)
    case Some(i) => (st, i)
    case None => (st.(tags := st.tags + [Tag(name)]), |st.tags|)
  }

  /** `ClipTag.objects.get_or_create(clip=clip, tag=tag)`: add the pair unless it is there. */
  function LinkTag(st: Store, clip: nat, tag: nat): (st': Store)
    ensures ClipTag(clip, tag) in st'.clipTags
    ensures forall l :: l in st'.clipTags <==> l in st.clipTags || l == ClipTag(clip, tag)
    ensures st' == st.(clipTags := st'.clipTags)
    ensures ClipTag(clip, tag) in st.clipTags ==> st' == st
    ensures Valid(st) && clip < |st.clips| && tag < |st.tags| ==> Valid(st')
  {
    if ClipTag(clip, tag) in st.clipTags then st
    else st.(clipTags := st.clipTags + [ClipTag(clip, tag)])
  }

  // ---------------------------------------------------------------- curios

  /** The curio is called `name` and, when `owner` is given, belongs to that owner. */
  predicate Named(c: Curio, name: string, owner: Option<UserId>) {
    c.name == name && (owner.None? || c.user == owner.value)
  }

  /** Ids of the curios named `name`, ascending; restricted to one owner when `owner` is given. */
  function CuriosNamed(curios: seq<Curio>, name: string, owner: Option<UserId>): (ids: seq<nat>)
    ensures forall k :: 0 <= k < |ids| ==> ids[k] < |curios| && Named(curios[ids[k]], name, owner)
    ensures forall i :: 0 <= i < |curios| && Named(curios[i], name, owner) ==> i in ids
    ensures forall k, l :: 0 <= k < l < |ids| ==> ids[k] < ids[l]
  {
    if |curios| == 0 then []
    else
      var n := |curios| - 1;
      var ids := CuriosNamed(curios[..n], name, owner);
      if Named(curios[n], name, owner) then ids + [n] else ids
  }

  /** `Curio.objects.get_or_create(name=name, user_id=owner, defaults=...)`: the owner's curio of that
      name, created private with `description` when there is none; two or more raise. */
  function CurioGetOrCreate(st: Store, name: string, owner: UserId, description: string)
    : (r: Result<(Store, nat), Error>)
    ensures var found := CuriosNamed(st.curios, name, Some(owner));
      && (r.Failure? <==> |found| >= 2)
      && (r.Failure? ==> r.error == MultipleCurios)
      && (|found| == 1 ==> r == Success((st, found[0])))
      && (|found| == 0 ==> r == Success((st.(curios := st.curios + [Curio(owner, name, description, false)]), |st.curios|)))
    ensures r.Success? ==> var (st', id) := r.value;
      id < |st'.curios| && st'.curios[id].name == name && st'.curios[id].user == owner
      && |CuriosNamed(st'.curios, name, Some(owner))| == 1
      && st' == st.(curios := st'.curios)
    ensures r.Success? && Valid(st) ==> Valid(r.value.0)
  {
    var found := CuriosNamed(st.curios, name, Some(owner));
    if |found| >= 2 then Failure(MultipleCurios)
    else if |found| == 1 then Success((st, found[0]))
    else
      var curios' := st.curios + [Curio(owner, name, description, false)];
      CuriosNamedAppend(st.curios, Curio(owner, name, description, false), name, Some(owner));
      assert CuriosNamed(curios', name, Some(owner)) == [|st.curios|];
      Success((st.(curios := curios'), |st.curios|))
  }

  lemma CuriosNamedAppend(curios: seq<Curio>, c: Curio, name: string, owner: Option<UserId>)
    ensures CuriosNamed(curios + [c], name, owner) ==
      CuriosNamed(curios, name, owner)
        + (if Named(c, name, owner) then [|curios|] else [])
  {
    assert (curios + [c])[..|curios|] == curios;
  }

  /** Repeating `get_or_create` for the same owner and name returns the same curio and writes nothing. */
  lemma CurioGetOrCreateIdempotent(st: Store, name: string, owner: UserId, description: string,
                                   description': string)
    ensures CurioGetOrCreate(st, name, owner, description).Success? ==>
      var (st1, id) := CurioGetOrCreate(st, name, owner, description).value;
      CurioGetOrCreate(st1, name, owner, description') == Success((st1, id))
  {
    var r := CurioGetOrCreate(st, name, owner, description);
    if r.Success? {
      var (st1, id) := r.value;
      var found := CuriosNamed(st1.curios, name, Some(owner));
      assert Named(st1.curios[id], name, Some(owner));
      assert id in found && |found| == 1;
      assert found == [id];
    }
  }

  // ---------------------------------------------------------------- embeddings

  /** `ClipEmbedding.objects.filter(clip=clip)`, in store order. */
  function EmbeddingsOf(embeddings: seq<ClipEmbedding>, clip: nat): (r: seq<ClipEmbedding>)
    ensures |r| <= |embeddings|
    ensures forall k :: 0 <= k < |r| ==> r[k].clip == clip && r[k] in embeddings
    ensures (forall i :: 0 <= i < |embeddings| ==> embeddings[i].clip != clip) <==> r == []
  {
    if |embeddings| == 0 then []
    else
      var rest := EmbeddingsOf(embeddings[1..], clip);
      assert forall e :: e in embeddings[1..] ==> e in embeddings;
      if embeddings[0].clip == clip then [embeddings[0]] + rest else rest
  }

  /** `ClipEmbedding.objects.create(...)`: the vector column refuses a vector that is not 1536 wide. */
  function AddEmbedding(st: Store, e: ClipEmbedding): (r: Result<Store, Error>)
    ensures r.Failure? <==> |e.embedding| != EmbeddingDimensions
    ensures r.Failure? ==> r.error == DimensionMismatch(|e.embedding|)
    ensures r.Success? ==> r.value == st.(embeddings := st.embeddings + [e])
    ensures r.Success? && Valid(st) && e.clip < |st.clips| ==> Valid(r.value)
  {
    if |e.embedding| != EmbeddingDimensions then Failure(DimensionMismatch(|e.embedding|))
    else Success(st.(embeddings := st.embeddings + [e]))
  }

  // ---------------------------------------------------------------- tasks

  /** Ids of the tasks whose queue-task reference is `celeryTaskId`, ascending, each once: its length
      is the number of rows `.get(celery_task_id=...)` finds. */
  function TasksWithCeleryId(tasks: seq<ClipProcessingTask>, celeryTaskId: string): (ids: seq<nat>)
    ensures forall k :: 0 <= k < |ids| ==> ids[k] < |tasks| && tasks[ids[k]].celeryTaskId == celeryTaskId
    ensures forall i :: 0 <= i < |tasks| && tasks[i].celeryTaskId == celeryTaskId ==> i in ids
    ensures forall j, k :: 0 <= j < k < |ids| ==> ids[j] < ids[k]
  {
    if |tasks| == 0 then []
    else
      var n := |tasks| - 1;
      var ids := TasksWithCeleryId(tasks[..n], celeryTaskId);
      if tasks[n].celeryTaskId == celeryTaskId then ids + [n] else ids
  }

  /** When no row but possibly `t` carries the reference, the lookup yields `t` alone, or nothing
      when `t` lies beyond the rows. */
  lemma {:induction false} OnlyCeleryRow(tasks: seq<ClipProcessingTask>, celeryTaskId: string, t: nat)
    requires forall i :: 0 <= i < |tasks| && tasks[i].celeryTaskId == celeryTaskId ==> i == t
    requires t < |tasks| ==> tasks[t].celeryTaskId == celeryTaskId
    ensures TasksWithCeleryId(tasks, celeryTaskId) == (if t < |tasks| then [t] else [])
  {
    if |tasks| > 0 {
      var n := |tasks| - 1;
      OnlyCeleryRow(tasks[..n], celeryTaskId, t);
    }
  }

  /** `.get()` finds exactly one row iff exactly one task carries the reference: the lookup then
      yields that row, and it yields two or more ids as soon as two rows carry it. */
  lemma CeleryIdCount(tasks: seq<ClipProcessingTask>, celeryTaskId: string, t: nat, u: nat)
    requires t < |tasks| && tasks[t].celeryTaskId == celeryTaskId
    ensures (forall i :: 0 <= i < |tasks| && tasks[i].celeryTaskId == celeryTaskId ==> i == t)
      <==> TasksWithCeleryId(tasks, celeryTaskId) == [t]
    ensures u < |tasks| && u != t && tasks[u].celeryTaskId == celeryTaskId ==>
      |TasksWithCeleryId(tasks, celeryTaskId)| >= 2
  {
    var ids := TasksWithCeleryId(tasks, celeryTaskId);
    assert t in ids;
    if forall i :: 0 <= i < |tasks| && tasks[i].celeryTaskId == celeryTaskId ==> i == t {
      OnlyCeleryRow(tasks, celeryTaskId, t);
    }
    if u < |tasks| && u != t && tasks[u].celeryTaskId == celeryTaskId {
      assert u in ids;
    }
  }

  /** `task_entry.status = s; task_entry.error = e; task_entry.save()`. */
  function SetTask(st: Store, id: nat, status: TaskStatus, error: Option<Error>): (st': Store)
    requires id < |st.tasks|
    ensures st'.tasks == st.tasks[id := st.tasks[id].(status := status, error := error)]
    ensures st' == st.(tasks := st'.tasks)
    ensures Valid(st) ==> Valid(st')
  {
    st.(tasks := st.tasks[id := st.tasks[id].(status := status, error := error)])
  }
}

=== FILE: reuse.dfy ===
/** `reuse_clip_if_exists`: when another clip with the same URL has already been enriched, copy its
    results (fields, thumbnail, tags, embeddings, category) instead of processing the clip again. */
module Reuse {
  import opened Wrappers
  import opened Errors
  import Models
  import Acquire
  import Embeddings

  /** `handle_thumbnail_upload(source_url, clip_id, ...)`: the public URL of the compressed copy, or
      `None` when any step failed (it catches every error itself). */
  type Uploader = (string, nat) -> Option<string>

  /** The outside services reuse reaches: embeddings, thumbnail upload, and the downloader that
      `fetch_audio_and_metadata` drives. */
  datatype Services = Services(
    embed: Embeddings.Embedder, upload: Uploader, extract: Acquire.Extractor, fetchImage: Acquire.ImageFetch)

  /** Description of a curio created for a reused clip when the donor's curio has none. */
  const AutoCurioDescription: string := "Created automatically for reused clip."

  // ---------------------------------------------------------------- donor selection

  /** Same URL, and both a summary and a transcript (`exclude(summary__in=[None, ""])` and the same
      for the transcript). */
  predicate Candidate(c: Models.Clip, url: string) {
    c.url == url && Models.Truthy(c.summary) && Models.Truthy(c.transcript)
  }

  /** `.order_by('-created_at').first()` over the candidates: a newest one, the earliest stored
      among equally new ones. */
  function Donor(clips: seq<Models.Clip>, url: string): (r: Option<nat>)
    ensures r.None? <==> forall i :: 0 <= i < |clips| ==> !Candidate(clips[i], url)
    ensures r.Some? ==> r.value < |clips| && Candidate(clips[r.value], url)
    ensures r.Some? ==> forall i :: 0 <= i < |clips| && Candidate(clips[i], url) ==>
      clips[i].createdAt <= clips[r.value].createdAt
    ensures r.Some? ==> forall i :: 0 <= i < r.value && Candidate(clips[i], url) ==>
      clips[i].createdAt < clips[r.value].createdAt
  {
    if |clips| == 0 then None
    else
      var n := |clips| - 1;
      var best := Donor(clips[..n], url);
      assert forall i :: 0 <= i < n ==> clips[..n][i] == clips[i];
      if Candidate(clips[n], url) && (best.None? || clips[n].createdAt > clips[best.value].createdAt) then Some(n)
      else best
  }

  // ---------------------------------------------------------------- the copy steps

  /** Step 1: give the donor embeddings when it has none. */
  function EnsureDonorEmbeddings(st: Models.Store, donor: nat, embed: Embeddings.Embedder): (r: Models.Outcome<()>)
    requires donor < |st.clips|
    ensures r.store == st.(embeddings := r.store.embeddings)
    ensures Models.EmbeddingsOf(st.embeddings, donor) != [] ==> r == Models.Outcome(st, Success(()))
    ensures Models.EmbeddingsOf(st.embeddings, donor) == [] ==> r == Embeddings.ProcessClipEmbeddings(st, donor, embed)
    ensures Models.Valid(st) ==> Models.Valid(r.store)
  {
    if Models.EmbeddingsOf(st.embeddings, donor) == [] then Embeddings.ProcessClipEmbeddings(st, donor, embed)
    else Models.Outcome(st, Success(()))
  }

  /** Step 2: title, platform, transcript, summary, video id and description come from the donor;
      owner, URL, category, thumbnail, favourite flag and creation time stay the clip's own. */
  function CopyFields(target: Models.Clip, donor: Models.Clip): (c: Models.Clip)
    ensures c.title == donor.title && c.platform == donor.platform && c.transcript == donor.transcript
    ensures c.summary == donor.summary && c.platformVideoId == donor.platformVideoId
    ensures c.description == donor.description
    ensures c.user == target.user && c.url == target.url && c.curio == target.curio
    ensures c.thumbnailUrl == target.thumbnailUrl && c.isFavorite == target.isFavorite
    ensures c.createdAt == target.createdAt
  {
    target.(title := donor.title, platform := donor.platform, transcript := donor.transcript,
            summary := donor.summary, platformVideoId := donor.platformVideoId,
            description := donor.description)
  }

  /** The upload of the donor's thumbnail, when it has one. */
  function DonorThumbnail(svc: Services, donor: Models.Clip, id: nat): Option<string> {
    if Models.Truthy(donor.thumbnailUrl) then svc.upload(donor.thumbnailUrl.value, id) else None
  }

  /** Step 3 as written: when the donor's thumbnail cannot be re-uploaded, the clip's URL is
      fetched again to find one; an error of that fetch propagates out of the reuse. */
  function ThumbnailAsWritten(svc: Services, donor: Models.Clip, id: nat, url: string): (r: Result<Option<string>, Error>)
    ensures Models.Truthy(DonorThumbnail(svc, donor, id)) ==> r == Success(DonorThumbnail(svc, donor, id))
    ensures r.Failure? <==>
      !Models.Truthy(DonorThumbnail(svc, donor, id)) && Acquire.FetchMetadata(url, svc.extract, svc.fetchImage).Failure?
    ensures r.Failure? ==> r.error == svc.extract(url).error
  {
    var first := DonorThumbnail(svc, donor, id);
    if Models.Truthy(first) then Success(first)
    else
      var data :- Acquire.FetchMetadata(url, svc.extract, svc.fetchImage);
      if Models.Truthy(data.thumbnail) then Success(svc.upload(data.thumbnail.value, id)) else Success(None)
  }

  /** Step 3 corrected: a failing fallback fetch only means there is no thumbnail. */
  function Thumbnail(svc: Services, donor: Models.Clip, id: nat, url: string): (r: Option<string>)
    ensures Models.Truthy(DonorThumbnail(svc, donor, id)) ==> r == DonorThumbnail(svc, donor, id)
    ensures ThumbnailAsWritten(svc, donor, id, url).Success? ==> r == ThumbnailAsWritten(svc, donor, id, url).value
    ensures ThumbnailAsWritten(svc, donor, id, url).Failure? ==> r.None?
  {
    match ThumbnailAsWritten(svc, donor, id, url)
    case Success(t) => t
    case Failure(_) => None
  }

  /** Step 3's fallback fetch, when it runs and succeeds: the donor's thumbnail could not be
      re-uploaded, so the clip's URL is downloaded again, audio included. The audio file and the
      local thumbnail copy it writes are never removed. */
  function FallbackFetch(svc: Services, donor: Models.Clip, id: nat, url: string): (r: Option<Acquire.Metadata>)
    ensures r.Some? <==>
      !Models.Truthy(DonorThumbnail(svc, donor, id)) && Acquire.FetchMetadata(url, svc.extract, svc.fetchImage).Success?
    ensures r.Some? ==> r.value == Acquire.FetchMetadata(url, svc.extract, svc.fetchImage).value
    ensures r.Some? ==>
      Thumbnail(svc, donor, id, url) == if Models.Truthy(r.value.thumbnail) then svc.upload(r.value.thumbnail.value, id) else None
  {
    if Models.Truthy(DonorThumbnail(svc, donor, id)) then None
    else
      match Acquire.FetchMetadata(url, svc.extract, svc.fetchImage)
      case Success(m) => Some(m)
      case Failure(_) => None
  }

  /** The download `reuse_clip_if_exists` makes, if any: only a reuse that gets as far as the
      thumbnail step can fetch, and then only through `FallbackFetch`. */
  function ReuseDownload(st: Models.Store, id: nat, svc: Services): (r: Option<Acquire.Metadata>)
    requires Models.Valid(st) && id < |st.clips|
    ensures r.Some? ==> ReuseClip(st, id, svc).result == Success(true)
    ensures ReuseClip(st, id, svc).result == Success(true) ==>
      var d := Donor(st.clips, st.clips[id].url).value;
      r == FallbackFetch(svc, st.clips[d], id, st.clips[id].url)
  {
    match Donor(st.clips, st.clips[id].url)
    case None => None
    case Some(d) =>
      if EnsureDonorEmbeddings(st, d, svc.embed).result.Failure? then None
      else FallbackFetch(svc, st.clips[d], id, st.clips[id].url)
  }

  /** With no donor thumbnail and a failing downloader, the reuse as written aborts where the
      corrected step carries on without a thumbnail. */
  lemma ThumbnailFetchAborts(svc: Services, donor: Models.Clip, id: nat, url: string)
    requires !Models.Truthy(donor.thumbnailUrl) && svc.extract(url).Failure?
    ensures ThumbnailAsWritten(svc, donor, id, url) == Failure(svc.extract(url).error)
    ensures Thumbnail(svc, donor, id, url) == None
  {
  }

  /** Tag ids linked to clip `clip`, in link order (`Tag.objects.filter(cliptag__clip=clip)`). */
  function TagsOf(links: seq<Models.ClipTag>, clip: nat): (tags: seq<nat>)
    ensures forall t :: t in tags <==> Models.ClipTag(clip, t) in links
  {
    if |links| == 0 then []
    else
      var rest := TagsOf(links[1..], clip);
      assert forall l :: l in links <==> l == links[0] || l in links[1..];
      if links[0].clip == clip then [links[0].tag] + rest else rest
  }

  /** Link each tag to the clip unless the pair exists: `bulk_create(..., ignore_conflicts=True)`,
      and equally a run of `ClipTag.objects.get_or_create`. */
  function LinkAll(st: Models.Store, clip: nat, tags: seq<nat>): (st': Models.Store)
    ensures st' == st.(clipTags := st'.clipTags)
    ensures forall l :: l in st'.clipTags <==> l in st.clipTags || (l.clip == clip && l.tag in tags)
    ensures Models.Valid(st) && clip < |st.clips| && (forall k :: 0 <= k < |tags| ==> tags[k] < |st.tags|) ==>
      Models.Valid(st')
    decreases |tags|
  {
    if |tags| == 0 then st
    else
      var st1 := Models.LinkTag(st, clip, tags[0]);
      assert forall t :: t in tags <==> t == tags[0] || t in tags[1..];
      LinkAll(st1, clip, tags[1..])
  }

  /** Linking the same tags again adds nothing. */
  lemma {:induction false} LinkAllAgain(st: Models.Store, clip: nat, tags: seq<nat>)
    requires forall k :: 0 <= k < |tags| ==> Models.ClipTag(clip, tags[k]) in st.clipTags
    ensures LinkAll(st, clip, tags) == st
    decreases |tags|
  {
    if |tags| > 0 {
      assert Models.LinkTag(st, clip, tags[0]) == st;
      LinkAllAgain(st, clip, tags[1..]);
    }
  }

  /** Linking is idempotent: a second pass with the same tags leaves the store as the first left it. */
  lemma LinkAllIdempotent(st: Models.Store, clip: nat, tags: seq<nat>)
    ensures LinkAll(LinkAll(st, clip, tags), clip, tags) == LinkAll(st, clip, tags)
  {
    LinkAllAgain(LinkAll(st, clip, tags), clip, tags);
  }

  /** The donor's embedding rows re-pointed at the clip, all else identical. */
  function Retarget(rows: seq<Models.ClipEmbedding>, clip: nat): (copies: seq<Models.ClipEmbedding>)
    ensures |copies| == |rows|
    ensures forall k {:trigger copies[k]} :: 0 <= k < |copies| ==> copies[k] == rows[k].(clip := clip)
  {
    if |rows| == 0 then [] else [rows[0].(clip := clip)] + Retarget(rows[1..], clip)
  }

  /** Step 5: one bulk insert of the donor's embeddings, copied for the clip. */
  function CopyEmbeddings(st: Models.Store, donor: nat, clip: nat): (st': Models.Store)
    ensures st' == st.(embeddings := st'.embeddings)
    ensures st'.embeddings == st.embeddings + Retarget(Models.EmbeddingsOf(st.embeddings, donor), clip)
    ensures var src := Models.EmbeddingsOf(st.embeddings, donor);
      && |st'.embeddings| == |st.embeddings| + |src|
      && st'.embeddings[..|st.embeddings|] == st.embeddings
      && forall k :: 0 <= k < |src| ==>
        var e := st'.embeddings[|st.embeddings| + k];
        e.clip == clip && e.field == src[k].field && e.chunkIndex == src[k].chunkIndex
        && e.textChunk == src[k].textChunk && e.embedding == src[k].embedding
    ensures Models.Valid(st) && clip < |st.clips| ==> Models.Valid(st')
  {
    var src := Models.EmbeddingsOf(st.embeddings, donor);
    var copies := Retarget(src, clip);
    var rows := st.embeddings + copies;
    assert rows[..|st.embeddings|] == st.embeddings;
    assert forall k :: 0 <= k < |src| ==> rows[|st.embeddings| + k] == copies[k];
    CopiesValid(st, donor, clip);
    st.(embeddings := rows)
  }

  /** Appending retargeted copies of a donor's rows, for a clip that exists, keeps a store valid. */
  lemma CopiesValid(st: Models.Store, donor: nat, clip: nat)
    ensures Models.Valid(st) && clip < |st.clips| ==>
      Models.Valid(st.(embeddings := st.embeddings + Retarget(Models.EmbeddingsOf(st.embeddings, donor), clip)))
  {
    var src := Models.EmbeddingsOf(st.embeddings, donor);
    var st' := st.(embeddings := st.embeddings + Retarget(src, clip));
    if Models.Valid(st) && clip < |st.clips| {
      StoredWidths(st, donor);
      forall i | 0 <= i < |st'.embeddings|
        ensures st'.embeddings[i].clip < |st'.clips|
        ensures |st'.embeddings[i].embedding| == Models.EmbeddingDimensions
      {
        if i >= |st.embeddings| {
          assert st'.embeddings[i] == src[i - |st.embeddings|].(clip := clip);
        }
      }
    }
  }

  /** The rows copied from a valid store are 1536 wide. */
  lemma StoredWidths(st: Models.Store, donor: nat)
    ensures Models.Valid(st) ==> forall k :: 0 <= k < |Models.EmbeddingsOf(st.embeddings, donor)| ==>
      |Models.EmbeddingsOf(st.embeddings, donor)[k].embedding| == Models.EmbeddingDimensions
  {
    var src := Models.EmbeddingsOf(st.embeddings, donor);
    if Models.Valid(st) {
      forall k | 0 <= k < |src|
        ensures |src[k].embedding| == Models.EmbeddingDimensions
      {
        var i :| 0 <= i < |st.embeddings| && st.embeddings[i] == src[k];
      }
    }
  }

  /** Steps 3 to 5 once the thumbnail is known: store it, link the donor's tags, copy its embeddings. */
  function CopyRest(st: Models.Store, id: nat, donor: nat, thumbnail: Option<string>): (st': Models.Store)
    requires id < |st.clips|
    ensures st'.clips == st.clips[id := st.clips[id].(thumbnailUrl := thumbnail)]
    ensures st'.curios == st.curios && st'.tags == st.tags && st'.tasks == st.tasks
    ensures forall l :: l in st'.clipTags <==>
      l in st.clipTags || (l.clip == id && Models.ClipTag(donor, l.tag) in st.clipTags)
    ensures st'.embeddings == st.embeddings + Retarget(Models.EmbeddingsOf(st.embeddings, donor), id)
    ensures Models.Valid(st) ==> Models.Valid(st')
  {
    var st3 := Models.UpdateClip(st, id, st.clips[id].(thumbnailUrl := thumbnail));
    var tags := TagsOf(st3.clipTags, donor);
    LinkedTagsExist(st3, donor);
    var st4 := LinkAll(st3, id, tags);
    CopyEmbeddings(st4, donor, id)
  }

  /** The tags linked in a valid store exist. */
  lemma LinkedTagsExist(st: Models.Store, clip: nat)
    ensures Models.Valid(st) ==>
      forall k :: 0 <= k < |TagsOf(st.clipTags, clip)| ==> TagsOf(st.clipTags, clip)[k] < |st.tags|
  {
    var tags := TagsOf(st.clipTags, clip);
    if Models.Valid(st) {
      forall k | 0 <= k < |tags|
        ensures tags[k] < |st.tags|
      {
        var i :| 0 <= i < |st.clipTags| && st.clipTags[i] == Models.ClipTag(clip, tags[k]);
      }
    }
  }

  /** Step 6 as written: the log line reads the donor's curio name before anything checks that the
      donor has a curio, so a donor without one raises. */
  function CurioStepAsWritten(st: Models.Store, id: nat, donor: nat): (r: Models.Outcome<()>)
    requires id < |st.clips| && donor < |st.clips|
    requires Models.Valid(st)
    ensures st.clips[donor].curio.None? ==> r == Models.Outcome(st, Failure(NoCurioOnDonor))
    ensures st.clips[donor].curio.Some? ==> r == Models.Outcome(CurioStep(st, id, donor), Success(()))
  {
    if st.clips[donor].curio.None? then Models.Outcome(st, Failure(NoCurioOnDonor))
    else Models.Outcome(CurioStep(st, id, donor), Success(()))
  }

  /** Step 6 corrected: only when the donor has a curio and the clip has none, give the clip the
      owner's curio of the same name, creating it private when the owner has none. */
  function CurioStep(st: Models.Store, id: nat, donor: nat): (st': Models.Store)
    requires id < |st.clips| && donor < |st.clips|
    requires Models.Valid(st)
    ensures Models.Valid(st') && st'.tasks == st.tasks
    ensures st.clips[donor].curio.None? || st.clips[id].curio.Some? ==> st' == st
    ensures st.clips[donor].curio.Some? && st.clips[id].curio.None? ==>
      var name := st.curios[st.clips[donor].curio.value].name;
      && |st'.clips| == |st.clips|
      && st'.clips == st.clips[id := st.clips[id].(curio := st'.clips[id].curio)]
      && st'.clips[id].curio.Some?
      && st'.curios[st'.clips[id].curio.value].name == name
      && st'.curios[st'.clips[id].curio.value].user == st.clips[id].user
      && st'.tags == st.tags && st'.clipTags == st.clipTags && st'.embeddings == st.embeddings
    ensures st.clips[donor].curio.Some? && st.clips[id].curio.None? ==>
      var dc := st.curios[st.clips[donor].curio.value];
      var owned := Models.CuriosNamed(st.curios, dc.name, Some(st.clips[id].user));
      && (|owned| > 0 ==> st'.curios == st.curios && st'.clips[id].curio == Some(owned[0]))
      && (|owned| == 0 ==> st'.curios == st.curios + [Models.Curio(st.clips[id].user, dc.name,
            if dc.description == "" then AutoCurioDescription else dc.description, false)])
  {
    var clip := st.clips[id];
    var d := st.clips[donor];
    if d.curio.None? || clip.curio.Some? then st
    else
      var dc := st.curios[d.curio.value];
      var found := Models.CuriosNamed(st.curios, dc.name, Some(clip.user));
      if |found| > 0 then
        Models.UpdateClip(st, id, clip.(curio := Some(found[0])))
      else
        var description := if dc.description == "" then AutoCurioDescription else dc.description;
        var (st1, c) := Models.CurioGetOrCreate(st, dc.name, clip.user, description).value;
        Models.UpdateClip(st1, id, clip.(curio := Some(c)))
  }

  // ---------------------------------------------------------------- the whole reuse

  /** `reuse_clip_if_exists(clip, ...)` for clip `id`, with the two corrections: no donor means
      `False` and no write; otherwise the only error left is the donor's embedding service, which
      fails before any clip is touched; on success the clip carries the donor's results and the
      store keeps its invariant. */
  function ReuseClip(st: Models.Store, id: nat, svc: Services): (r: Models.Outcome<bool>)
    requires Models.Valid(st) && id < |st.clips|
    ensures Models.Valid(r.store) && r.store.tasks == st.tasks
    ensures Donor(st.clips, st.clips[id].url).None? ==> r == Models.Outcome(st, Success(false))
    ensures Donor(st.clips, st.clips[id].url).Some? ==> r.result != Success(false)
    ensures r.result.Failure? ==>
      && Donor(st.clips, st.clips[id].url).Some?
      && Models.EmbeddingsOf(st.embeddings, Donor(st.clips, st.clips[id].url).value) == []
      && r.store.clips == st.clips
    ensures Donor(st.clips, st.clips[id].url).Some? ==>
      var o := EnsureDonorEmbeddings(st, Donor(st.clips, st.clips[id].url).value, svc.embed);
      && (r.result.Failure? <==> o.result.Failure?)
      && (o.result.Failure? ==> r == Models.Outcome(o.store, Failure(o.result.error)))
    ensures r.result == Success(true) ==>
      var d := Donor(st.clips, st.clips[id].url).value;
      Copied(st, r.store, id, d, Thumbnail(svc, st.clips[d], id, st.clips[id].url),
        EnsureDonorEmbeddings(st, d, svc.embed).store.embeddings)
  {
    match Donor(st.clips, st.clips[id].url)
    case None => Models.Outcome(st, Success(false))
    case Some(d) => ReuseFrom(st, id, d, svc)
  }

  /** The corrected reuse once donor `d` is chosen. */
  function ReuseFrom(st: Models.Store, id: nat, d: nat, svc: Services): (r: Models.Outcome<bool>)
    requires Models.Valid(st) && id < |st.clips| && d < |st.clips|
    ensures Models.Valid(r.store) && r.store.tasks == st.tasks
    ensures r.result != Success(false)
    ensures r.result.Failure? ==> Models.EmbeddingsOf(st.embeddings, d) == [] && r.store.clips == st.clips
    ensures r.result.Failure? <==> EnsureDonorEmbeddings(st, d, svc.embed).result.Failure?
    ensures EnsureDonorEmbeddings(st, d, svc.embed).result.Failure? ==>
      var o := EnsureDonorEmbeddings(st, d, svc.embed);
      r == Models.Outcome(o.store, Failure(o.result.error))
    ensures r.result == Success(true) ==>
      Copied(st, r.store, id, d, Thumbnail(svc, st.clips[d], id, st.clips[id].url),
        EnsureDonorEmbeddings(st, d, svc.embed).store.embeddings)
  {
    var o1 := EnsureDonorEmbeddings(st, d, svc.embed);
    if o1.result.Failure? then Models.Outcome(o1.store, Failure(o1.result.error))
    else
      var thumbnail := Thumbnail(svc, st.clips[d], id, st.clips[id].url);
      CopyStepsCopied(st, o1.store, id, d, thumbnail);
      Models.Outcome(CopySteps(o1.store, id, d, thumbnail), Success(true))
  }

  /** What a completed reuse leaves behind, given the embedding rows `pre` present once the donor's
      embeddings are ensured: clip `id` holds the donor's fields, the given thumbnail, its own owner,
      URL, favourite flag and creation time; the other clips and the tags are untouched; the links are the old ones plus one per
      donor tag; the donor's embedding rows are appended, re-pointed at `id`; curios are only
      appended, and the category follows step 6. */
  ghost predicate Copied(st: Models.Store, st': Models.Store, id: nat, d: nat, thumbnail: Option<string>,
                         pre: seq<Models.ClipEmbedding>)
    requires Models.Valid(st) && id < |st.clips| && d < |st.clips|
  {
    && |st'.clips| == |st.clips|
    && (forall j :: 0 <= j < |st.clips| && j != id ==> st'.clips[j] == st.clips[j])
    && st'.tags == st.tags
    && (forall l :: l in st'.clipTags <==> l in st.clipTags || (l.clip == id && Models.ClipTag(d, l.tag) in st.clipTags))
    && st'.embeddings == pre + Retarget(Models.EmbeddingsOf(pre, d), id)
    && |st.curios| <= |st'.curios| && st'.curios[..|st.curios|] == st.curios
    && var c := st'.clips[id];
    && var donor := st.clips[d];
    && c.title == donor.title && c.platform == donor.platform && c.transcript == donor.transcript
    && c.summary == donor.summary && c.platformVideoId == donor.platformVideoId
    && c.description == donor.description && c.thumbnailUrl == thumbnail
    && c.user == st.clips[id].user && c.url == st.clips[id].url
    && c.isFavorite == st.clips[id].isFavorite && c.createdAt == st.clips[id].createdAt
    && (st.clips[id].curio.Some? || donor.curio.None? ==> c.curio == st.clips[id].curio)
    && (st.clips[id].curio.None? && donor.curio.Some? ==>
          c.curio.Some? && c.curio.value < |st'.curios|
          && st'.curios[c.curio.value].name == st.curios[donor.curio.value].name
          && st'.curios[c.curio.value].user == st.clips[id].user)
  }

  /** Steps 2 to 6 of a reuse whose donor has embeddings. */
  function CopySteps(st: Models.Store, id: nat, d: nat, thumbnail: Option<string>): (st': Models.Store)
    requires Models.Valid(st) && id < |st.clips| && d < |st.clips|
    ensures Models.Valid(st') && st'.tasks == st.tasks
  {
    var st2 := Models.UpdateClip(st, id, CopyFields(st.clips[id], st.clips[d]));
    CurioStep(CopyRest(st2, id, d, thumbnail), id, d)
  }

  lemma CopyStepsCopied(st0: Models.Store, st: Models.Store, id: nat, d: nat, thumbnail: Option<string>)
    requires Models.Valid(st0) && Models.Valid(st) && id < |st.clips| && d < |st.clips|
    requires st == st0.(embeddings := st.embeddings)
    ensures Copied(st0, CopySteps(st, id, d, thumbnail), id, d, thumbnail, st.embeddings)
  {
    var st2 := Models.UpdateClip(st, id, CopyFields(st.clips[id], st.clips[d]));
    var st5 := CopyRest(st2, id, d, thumbnail);
    assert st5.clips == st.clips[id := CopyFields(st.clips[id], st.clips[d]).(thumbnailUrl := thumbnail)];
    assert st5.embeddings == st.embeddings + Retarget(Models.EmbeddingsOf(st.embeddings, d), id);
    assert st5.clips[d].curio == st.clips[d].curio;
    assert st5.clips[id].curio == st.clips[id].curio;
    var st6 := CurioStep(st5, id, d);
    if st.clips[d].curio.None? || st.clips[id].curio.Some? {
      assert st6 == st5;
    } else {
      assert st6.clips == st5.clips[id := st5.clips[id].(curio := st6.clips[id].curio)];
      assert st6.clipTags == st5.clipTags && st6.embeddings == st5.embeddings && st6.tags == st5.tags;
      assert st6.curios[..|st.curios|] == st.curios;
    }
  }

  /** `reuse_clip_if_exists` as written: besides the embedding service, the fallback metadata fetch
      can raise, and so can the log line reading the donor's curio name. Where it succeeds it agrees
      with the corrected reuse. */
  function ReuseClipAsWritten(st: Models.Store, id: nat, svc: Services): (r: Models.Outcome<bool>)
    requires Models.Valid(st) && id < |st.clips|
    ensures Donor(st.clips, st.clips[id].url).None? ==> r == Models.Outcome(st, Success(false))
    ensures r.result.Success? ==> r == ReuseClip(st, id, svc)
  {
    match Donor(st.clips, st.clips[id].url)
    case None => Models.Outcome(st, Success(false))
    case Some(d) => ReuseFromAsWritten(st, id, d, svc)
  }

  /** The reuse as written once donor `d` is chosen. It fails where the corrected one succeeds only
      because the donor has no category or the fallback fetch raised. */
  function ReuseFromAsWritten(st: Models.Store, id: nat, d: nat, svc: Services): (r: Models.Outcome<bool>)
    requires Models.Valid(st) && id < |st.clips| && d < |st.clips|
    ensures r.result.Success? ==> r == ReuseFrom(st, id, d, svc)
    ensures r.result.Failure? && ReuseFrom(st, id, d, svc).result.Success? ==>
      st.clips[d].curio.None? || ThumbnailAsWritten(svc, st.clips[d], id, st.clips[id].url).Failure?
  {
    var o1 := EnsureDonorEmbeddings(st, d, svc.embed);
    if o1.result.Failure? then Models.Outcome(o1.store, Failure(o1.result.error))
    else
      var st2 := Models.UpdateClip(o1.store, id, CopyFields(o1.store.clips[id], o1.store.clips[d]));
      match ThumbnailAsWritten(svc, st.clips[d], id, st.clips[id].url)
      case Failure(e) => Models.Outcome(st2, Failure(e))
      case Success(thumbnail) =>
        var st5 := CopyRest(st2, id, d, thumbnail);
        var o6 := CurioStepAsWritten(st5, id, d);
        assert Thumbnail(svc, st.clips[d], id, st.clips[id].url) == thumbnail;
        assert o6.result.Success? ==> o6.store == CopySteps(o1.store, id, d, thumbnail);
        Models.Outcome(o6.store, if o6.result.Success? then Success(true) else Failure(o6.result.error))
  }

  /** A donor without a category makes the reuse as written fail after it has copied everything
      else, where the corrected reuse completes. */
  lemma DonorWithoutCurioFails(st: Models.Store, id: nat, d: nat, svc: Services)
    requires Models.Valid(st) && id < |st.clips| && d < |st.clips|
    requires st.clips[d].curio.None?
    requires Models.EmbeddingsOf(st.embeddings, d) != []
    requires Models.Truthy(DonorThumbnail(svc, st.clips[d], id))
    ensures ReuseFromAsWritten(st, id, d, svc).result == Failure(NoCurioOnDonor)
    ensures ReuseFrom(st, id, d, svc).result == Success(true)
  {
  }
}

=== FILE: search.dfy ===
/** The post-processing in `vector_search_clip_ids_with_similarity`: the query's rows, already ordered
    by similarity, are filtered by a threshold and turned into match records. */
module Search {
  import opened Wrappers

  /** A result row `(id, clip_id, field, chunk_index, text_chunk, percent_match)`; `similarity` is
      `1 - cosine distance`. */
  datatype Row = Row(
    embeddingId: nat, clipId: nat, field: string, chunkIndex: Option<int>, textChunk: string, similarity: real)

  /** One dictionary of the returned list. */
  datatype Match = Match(
    clipId: nat, embeddingId: nat, percentMatch: real, field: string, chunkIndex: Option<int>, textChunk: string)

  /** The default threshold. */
  const DefaultThreshold: real := 0.7

  /** `{"clip_id": r[1], "embedding_id": r[0], "percent_match": r[5] * 100, ...}`. */
  function ToMatch(r: Row): (m: Match)
    ensures m.clipId == r.clipId && m.embeddingId == r.embeddingId
    ensures m.field == r.field && m.chunkIndex == r.chunkIndex && m.textChunk == r.textChunk
    ensures m.percentMatch == r.similarity * 100.0
  {
    Match(r.clipId, r.embeddingId, r.similarity * 100.0, r.field, r.chunkIndex, r.textChunk)
  }

  /** Positions from `from` on of the rows at or above the threshold, ascending: what
      `[r for r in results if r[5] >= threshold]` keeps, each row once, in list order. */
  ghost function PassingFrom(rows: seq<Row>, threshold: real, from: nat): (idx: seq<nat>)
    requires from <= |rows|
    ensures forall k :: 0 <= k < |idx| ==> from <= idx[k] < |rows| && rows[idx[k]].similarity >= threshold
    ensures forall i :: from <= i < |rows| && rows[i].similarity >= threshold ==> i in idx
    ensures forall k, l :: 0 <= k < l < |idx| ==> idx[k] < idx[l]
    decreases |rows| - from
  {
    if from == |rows| then []
    else
      var rest := PassingFrom(rows, threshold, from + 1);
      if rows[from].similarity >= threshold then [from] + rest else rest
  }

  /** Rows at or above the threshold, in their original order. */
  function Keep(rows: seq<Row>, threshold: real): (kept: seq<Row>)
    ensures |kept| <= |rows|
    ensures forall k :: 0 <= k < |kept| ==> kept[k] in rows && kept[k].similarity >= threshold
    ensures forall i :: 0 <= i < |rows| && rows[i].similarity >= threshold ==> rows[i] in kept
  {
    if |rows| == 0 then []
    else
      var rest := Keep(rows[1..], threshold);
      assert forall r :: r in rows[1..] ==> r in rows;
      assert forall i :: 1 <= i < |rows| ==> rows[i] == rows[1..][i - 1];
      if rows[0].similarity >= threshold then [rows[0]] + rest else rest
  }

  /** The filter applied to the rows from `from` on keeps exactly the passing positions, in order. */
  lemma {:induction false} KeepFrom(rows: seq<Row>, threshold: real, from: nat)
    requires from <= |rows|
    ensures |Keep(rows[from..], threshold)| == |PassingFrom(rows, threshold, from)|
    ensures forall k :: 0 <= k < |Keep(rows[from..], threshold)| ==>
      Keep(rows[from..], threshold)[k] == rows[PassingFrom(rows, threshold, from)[k]]
    decreases |rows| - from
  {
    if from < |rows| {
      var t := rows[from..];
      var kept := Keep(t, threshold);
      var idx := PassingFrom(rows, threshold, from);
      var kept' := Keep(rows[from + 1..], threshold);
      var idx' := PassingFrom(rows, threshold, from + 1);
      KeepFrom(rows, threshold, from + 1);
      assert t[1..] == rows[from + 1..];
      assert t[0] == rows[from];
      if rows[from].similarity >= threshold {
        assert kept == [rows[from]] + kept';
        assert idx == [from] + idx';
        forall k | 0 <= k < |kept|
          ensures kept[k] == rows[idx[k]]
        {
          if k > 0 {
            assert kept[k] == kept'[k - 1] && idx[k] == idx'[k - 1];
          }
        }
      } else {
        assert kept == kept';
        assert idx == idx';
      }
    }
  }

  /** The kept rows are the passing rows in their original order, each once: the k-th kept row is
      the row at the k-th passing position. */
  lemma KeepInOrder(rows: seq<Row>, threshold: real)
    ensures |Keep(rows, threshold)| == |PassingFrom(rows, threshold, 0)|
    ensures forall k :: 0 <= k < |Keep(rows, threshold)| ==>
      Keep(rows, threshold)[k] == rows[PassingFrom(rows, threshold, 0)[k]]
  {
    KeepFrom(rows, threshold, 0);
    assert rows[0..] == rows;
  }

  function Matches(rows: seq<Row>): (ms: seq<Match>)
    ensures |ms| == |rows|
    ensures forall k {:trigger ms[k]} :: 0 <= k < |ms| ==> ms[k] == ToMatch(rows[k])
  {
    if |rows| == 0 then [] else [ToMatch(rows[0])] + Matches(rows[1..])
  }

  /** The filter and the list of dictionaries: every match has at least `threshold * 100` percent,
      and every row that reaches the threshold yields a match. */
  function SearchResults(rows: seq<Row>, threshold: real): (ms: seq<Match>)
    ensures |ms| <= |rows|
    ensures forall k :: 0 <= k < |ms| ==> ms[k].percentMatch >= threshold * 100.0
    ensures forall i :: 0 <= i < |rows| && rows[i].similarity >= threshold ==> ToMatch(rows[i]) in ms
    ensures forall k :: 0 <= k < |ms| ==>
      exists i :: 0 <= i < |rows| && rows[i].similarity >= threshold && ms[k] == ToMatch(rows[i])
    ensures |ms| == |PassingFrom(rows, threshold, 0)|
    ensures forall k :: 0 <= k < |ms| ==> ms[k] == ToMatch(rows[PassingFrom(rows, threshold, 0)[k]])
  {
    MatchesInOrder(rows, threshold);
    Matches(Keep(rows, threshold))
  }

  /** The matches of the kept rows come from the passing rows, one each, in the rows' order. */
  lemma MatchesInOrder(rows: seq<Row>, threshold: real)
    ensures var ms := Matches(Keep(rows, threshold));
      && |ms| == |PassingFrom(rows, threshold, 0)|
      && (forall k :: 0 <= k < |ms| ==> ms[k] == ToMatch(rows[PassingFrom(rows, threshold, 0)[k]]))
      && (forall k :: 0 <= k < |ms| ==>
            exists i :: 0 <= i < |rows| && rows[i].similarity >= threshold && ms[k] == ToMatch(rows[i]))
  {
    var kept := Keep(rows, threshold);
    var idx := PassingFrom(rows, threshold, 0);
    KeepInOrder(rows, threshold);
    var ms := Matches(kept);
    forall k | 0 <= k < |ms|
      ensures ms[k] == ToMatch(rows[idx[k]])
      ensures exists i :: 0 <= i < |rows| && rows[i].similarity >= threshold && ms[k] == ToMatch(rows[i])
    {
      assert kept[k] == rows[idx[k]];
      assert idx[k] < |rows| && rows[idx[k]].similarity >= threshold;
    }
  }

  /** The rows are ordered by similarity, highest first (`ORDER BY percent_match DESC`). */
  predicate Descending(rows: seq<Row>) {
    forall i, j :: 0 <= i < j < |rows| ==> rows[i].similarity >= rows[j].similarity
  }

  /** On rows ordered highest first, the filter keeps a prefix: the results are the best rows,
      still highest first. */
  lemma {:induction false} DescendingKeepsPrefix(rows: seq<Row>, threshold: real)
    requires Descending(rows)
    ensures exists m :: 0 <= m <= |rows| && Keep(rows, threshold) == rows[..m]
    decreases |rows|
  {
    if |rows| == 0 {
      assert Keep(rows, threshold) == rows[..0];
    } else if rows[0].similarity >= threshold {
      DescendingKeepsPrefix(rows[1..], threshold);
      var m :| 0 <= m <= |rows[1..]| && Keep(rows[1..], threshold) == rows[1..][..m];
      assert Keep(rows, threshold) == rows[..m + 1];
    } else {
      NoneKept(rows, threshold);
      assert Keep(rows, threshold) == rows[..0];
    }
  }

  /** When the best row misses the threshold, so does every row. */
  lemma {:induction false} NoneKept(rows: seq<Row>, threshold: real)
    requires Descending(rows) && |rows| > 0 && rows[0].similarity < threshold
    ensures Keep(rows, threshold) == []
    decreases |rows|
  {
    if |rows| > 1 {
      assert rows[1].similarity <= rows[0].similarity;
      NoneKept(rows[1..], threshold);
    }
  }

  /** The results of rows ordered highest first are ordered highest first. */
  lemma DescendingResults(rows: seq<Row>, threshold: real)
    requires Descending(rows)
    ensures var ms := SearchResults(rows, threshold);
      forall i, j :: 0 <= i < j < |ms| ==> ms[i].percentMatch >= ms[j].percentMatch
  {
    DescendingKeepsPrefix(rows, threshold);
    var m :| 0 <= m <= |rows| && Keep(rows, threshold) == rows[..m];
    var ms := SearchResults(rows, threshold);
    forall i, j | 0 <= i < j < |ms|
      ensures ms[i].percentMatch >= ms[j].percentMatch
    {
      assert ms[i] == ToMatch(rows[i]) && ms[j] == ToMatch(rows[j]);
    }
  }
}

=== FILE: summarizer.dfy ===
/** `summarize_and_categorize_clip`: ask each configured model in turn for a JSON summary of the
    transcript and keep the first answer that parses. */
module Summarizer {
  import opened Wrappers
  import opened Errors
  import Text
  import JsonExtract

  /** A key of the parsed JSON object: missing, present as `null`, or present with a value. */
  datatype Field<T> = Absent | Null | Present(value: T)

  /** The parsed object, with the keys `process_clip_task` reads. Values of other JSON types are not
      modelled (see the README). */
  datatype SummaryData = SummaryData(
    oneLineSummary: Field<string>,
    tags: Field<seq<string>>,
    assignedCurio: Field<string>,
    suggestedCurio: Field<string>,
    description: Field<string>)

  /** `dict.get(key, default)`: the default only when the key is missing; `null` reads as `None`. */
  function Get<T>(f: Field<T>, default: Option<T>): (r: Option<T>)
    ensures f.Absent? ==> r == default
    ensures f.Null? ==> r.None?
    ensures f.Present? ==> r == Some(f.value)
  {
    match f
    case Absent => default
    case Null => None
    case Present(v) => Some(v)
  }

  /** The chat-completion service: model name, transcript and the owner's curio names in, the
      reply text (before `.strip()`) or the service's error out. */
  type Complete = (string, string, seq<string>) -> Result<string, Error>

  /** `json_repair.loads` applied to the extracted text: `None` where it raises. */
  type Loads = string -> Option<SummaryData>

  /** `AI_MODELS`: the models asked, in this order. */
  const AiModels: seq<string> := ["qwen/qwen3-235b-a22b:free", "sarvamai/sarvam-m:free"]

  /** One iteration of the loop body: call one model, strip the reply, parse it. */
  function Attempt(model: string, transcript: string, curioNames: seq<string>, complete: Complete, loads: Loads)
    : (r: Result<SummaryData, Error>)
    ensures complete(model, transcript, curioNames).Failure? ==> r == Failure(complete(model, transcript, curioNames).error)
    ensures complete(model, transcript, curioNames).Success? ==>
      r == JsonExtract.ParseResponse(Text.Strip(complete(model, transcript, curioNames).value), loads)
  {
    var reply :- complete(model, transcript, curioNames);
    JsonExtract.ParseResponse(Text.Strip(reply), loads)
  }

  /** Index of the first model whose attempt succeeds. */
  function FirstSuccess<R>(models: seq<string>, attempt: string -> Result<R, Error>): (r: Option<nat>)
    ensures r.None? <==> forall i :: 0 <= i < |models| ==> attempt(models[i]).Failure?
    ensures r.Some? ==> r.value < |models| && attempt(models[r.value]).Success?
    ensures r.Some? ==> forall i :: 0 <= i < r.value ==> attempt(models[i]).Failure?
  {
    if |models| == 0 then None
    else if attempt(models[0]).Success? then Some(0)
    else
      match FirstSuccess(models[1..], attempt)
      case None => None
      case Some(k) => Some(k + 1)
  }

  /** The loop `for model in AI_MODELS: try ... return ... except: last_exception = e`,
      `raise last_exception if last_exception else RuntimeError(...)`, with `last` the exception
      kept from the models already tried. */
  function FallbackFrom<R>(models: seq<string>, attempt: string -> Result<R, Error>, last: Option<Error>)
    : (r: Result<R, Error>)
  {
    if |models| == 0 then
      match last
      case Some(e) => Failure(e)
      case None => Failure(AllModelsFailed)
    else
      match attempt(models[0])
      case Success(v) => Success(v)
      case Failure(e) => FallbackFrom(models[1..], attempt, Some(e))
  }

  /** The models the loop calls, in order, before it returns or gives up. */
  function TriedFrom<R>(models: seq<string>, attempt: string -> Result<R, Error>): (tried: seq<string>)
  {
    if |models| == 0 then []
    else if attempt(models[0]).Success? then [models[0]]
    else [models[0]] + TriedFrom(models[1..], attempt)
  }

  /** The first success wins; when every model fails the last model's error is raised; with no
      models at all the error is `RuntimeError("All model calls failed.")`. */
  function Fallback<R>(models: seq<string>, attempt: string -> Result<R, Error>): (r: Result<R, Error>)
    ensures FirstSuccess(models, attempt).Some? ==> r == attempt(models[FirstSuccess(models, attempt).value])
    ensures FirstSuccess(models, attempt).None? && |models| > 0 ==> r == attempt(models[|models| - 1])
    ensures |models| == 0 ==> r == Failure(AllModelsFailed)
  {
    FallbackSpec(models, attempt, None);
    FallbackFrom(models, attempt, None)
  }

  lemma {:induction false} FallbackSpec<R>(models: seq<string>, attempt: string -> Result<R, Error>, last: Option<Error>)
    ensures FirstSuccess(models, attempt).Some? ==>
      FallbackFrom(models, attempt, last) == attempt(models[FirstSuccess(models, attempt).value])
    ensures FirstSuccess(models, attempt).None? && |models| > 0 ==>
      FallbackFrom(models, attempt, last) == attempt(models[|models| - 1])
    decreases |models|
  {
    if |models| > 0 && attempt(models[0]).Failure? {
      var e := attempt(models[0]).error;
      FallbackSpec(models[1..], attempt, Some(e));
      if |models| == 1 {
        assert FallbackFrom(models, attempt, last) == Failure(e);
      }
    }
  }

  /** The loop stops at the first success: it calls exactly the models up to and including the
      first one that succeeds, or all of them when none does; every model it called but the
      last failed. */
  lemma {:induction false} TriedPrefix<R>(models: seq<string>, attempt: string -> Result<R, Error>)
    ensures FirstSuccess(models, attempt).Some? ==>
      TriedFrom(models, attempt) == models[..FirstSuccess(models, attempt).value + 1]
    ensures FirstSuccess(models, attempt).None? ==> TriedFrom(models, attempt) == models
    decreases |models|
  {
    if |models| > 0 && attempt(models[0]).Failure? {
      TriedPrefix(models[1..], attempt);
      var k := FirstSuccess(models, attempt);
      if k.Some? {
        assert models[..k.value + 1] == [models[0]] + models[1..][..k.value];
      } else {
        assert models == [models[0]] + models[1..];
      }
    }
  }

  /** `summarize_and_categorize_clip(transcript, curio_names, key)` over the configured model list:
      it succeeds exactly when some model's answer parses, and then returns the first such answer;
      otherwise it raises the last model's error. */
  function SummarizeAndCategorize(
    transcript: string, curioNames: seq<string>, models: seq<string>, complete: Complete, loads: Loads)
    : (r: Result<SummaryData, Error>)
    ensures r.Success? <==>
      exists i :: 0 <= i < |models| && Attempt(models[i], transcript, curioNames, complete, loads).Success?
    ensures r.Success? ==> exists i :: (0 <= i < |models| && r == Attempt(models[i], transcript, curioNames, complete, loads)
      && forall j :: 0 <= j < i ==> Attempt(models[j], transcript, curioNames, complete, loads).Failure?)
    ensures r.Failure? && |models| > 0 ==> r == Attempt(models[|models| - 1], transcript, curioNames, complete, loads)
    ensures |models| == 0 ==> r == Failure(AllModelsFailed)
  {
    var attempt := (m: string) => Attempt(m, transcript, curioNames, complete, loads);
    var r := Fallback(models, attempt);
    var first := FirstSuccess(models, attempt);
    if first.Some? then
      assert attempt(models[first.value]) == Attempt(models[first.value], transcript, curioNames, complete, loads);
      assert forall j :: 0 <= j < first.value ==> attempt(models[j]) == Attempt(models[j], transcript, curioNames, complete, loads);
      r
    else
      assert forall i :: 0 <= i < |models| ==> attempt(models[i]) == Attempt(models[i], transcript, curioNames, complete, loads);
      r
  }

  /** With the configured list: the first model's answer when it parses, otherwise whatever the
      second model's attempt gives, its error included. */
  lemma ConfiguredFallback(transcript: string, curioNames: seq<string>, complete: Complete, loads: Loads)
    ensures var r := SummarizeAndCategorize(transcript, curioNames, AiModels, complete, loads);
      var first := Attempt(AiModels[0], transcript, curioNames, complete, loads);
      var second := Attempt(AiModels[1], transcript, curioNames, complete, loads);
      (first.Success? ==> r == first) && (first.Failure? ==> r == second)
  {
  }
}

=== FILE: tasks.dfy ===
/** `process_clip_task`: the background job that enriches one clip and records the job's status. */
module Tasks {
  import opened Wrappers
  import opened Errors
  import Models
  import Acquire
  import Summarizer
  import Embeddings
  import Reuse

  /** Description given to a curio created from the model's suggestion. */
  const SuggestedCurioDescription: string := "Created by AI suggestion based on video content."

  /** The category name the model answers when no existing curio fits. */
  const OtherCurio: string := "Other"

  // ---------------------------------------------------------------- metadata

  /** Lines 38-40 as written: title, thumbnail and platform straight from the download metadata. */
  function ApplyMetadataAsWritten(c: Models.Clip, m: Acquire.Metadata): (c': Models.Clip)
    ensures c' == c.(title := c'.title, thumbnailUrl := c'.thumbnailUrl, platform := c'.platform)
    ensures c'.title == m.title && c'.thumbnailUrl == m.thumbnail && c'.platform == m.platform
  {
    c.(title := m.title, thumbnailUrl := m.thumbnail, platform := m.platform)
  }

  /** Lines 38-40 corrected: a platform outside the column's choices is stored as the default
      `"other"`, so the row stays valid. */
  function ApplyMetadata(c: Models.Clip, m: Acquire.Metadata): (c': Models.Clip)
    ensures Models.ValidPlatform(c'.platform)
    ensures Models.ValidPlatform(m.platform) ==> c' == ApplyMetadataAsWritten(c, m)
    ensures !Models.ValidPlatform(m.platform) ==> c' == ApplyMetadataAsWritten(c, m).(platform := Models.DefaultPlatform)
  {
    var p := if Models.ValidPlatform(m.platform) then m.platform else Models.DefaultPlatform;
    c.(title := m.title, thumbnailUrl := m.thumbnail, platform := p)
  }

  /** For a clip whose URL names no known host, the platform stored as written is `"unknown"` and
      the clip row falls outside the field's platform choices; the corrected step stores `"other"`. */
  lemma UnknownPlatformStored(c: Models.Clip, extract: Acquire.Extractor, fetchImage: Acquire.ImageFetch)
    requires c.url == "a.io/v" && extract(c.url).Success?
    ensures var m := Acquire.FetchMetadata(c.url, extract, fetchImage).value;
      && ApplyMetadataAsWritten(c, m).platform == "unknown"
      && !Models.ValidPlatform(ApplyMetadataAsWritten(c, m).platform)
      && ApplyMetadata(c, m).platform == Models.DefaultPlatform
  {
    Acquire.UnknownHostWitness();
  }

  // ---------------------------------------------------------------- categorisation input

  /** `Curio.objects.filter(user_id=owner).values_list('name', flat=True)`, in store order. */
  function CurioNamesOf(curios: seq<Models.Curio>, owner: Models.UserId): (names: seq<string>)
    ensures |names| <= |curios|
    ensures forall k :: 0 <= k < |names| ==> exists i :: 0 <= i < |curios| && curios[i].user == owner && curios[i].name == names[k]
    ensures forall i :: 0 <= i < |curios| && curios[i].user == owner ==> curios[i].name in names
  {
    if |curios| == 0 then []
    else
      var n := |curios| - 1;
      var names := CurioNamesOf(curios[..n], owner);
      assert forall i :: 0 <= i < n ==> curios[..n][i] == curios[i];
      if curios[n].user == owner then names + [curios[n].name] else names
  }

  // ---------------------------------------------------------------- tags

  /** Every name has a tag, and that tag is linked to the clip. */
  ghost predicate Attached(st: Models.Store, clip: nat, names: seq<string>) {
    forall k :: 0 <= k < |names| ==>
      Models.FindTag(st.tags, names[k]).Some? && Models.ClipTag(clip, Models.FindTag(st.tags, names[k]).value) in st.clipTags
  }

  /** `st'` extends `st` by tags appended at the end and by links of clip `clip`; nothing else changes. */
  ghost predicate Grows(st: Models.Store, st': Models.Store, clip: nat) {
    && st' == st.(tags := st'.tags, clipTags := st'.clipTags)
    && |st.tags| <= |st'.tags| && st'.tags[..|st.tags|] == st.tags
    && (forall l :: l in st.clipTags ==> l in st'.clipTags)
    && (forall l :: l in st'.clipTags && l !in st.clipTags ==> l.clip == clip)
  }

  /** Lines 65-68: `Tag.objects.get_or_create(name=...)` then `ClipTag.objects.get_or_create(...)` for
      each name. Tags are only appended, links only added, and every name ends up attached. */
  function AttachTags(st: Models.Store, clip: nat, names: seq<string>): (st': Models.Store)
    ensures Grows(st, st', clip)
    ensures Attached(st', clip, names)
    ensures Models.Valid(st) && clip < |st.clips| ==> Models.Valid(st')
    decreases |names|
  {
    if |names| == 0 then st
    else
      var (st1, tag) := Models.TagGetOrCreate(st, names[0]);
      var st2 := Models.LinkTag(st1, clip, tag);
      var st' := AttachTags(st2, clip, names[1..]);
      AttachStep(st, st2, st', clip, names, tag);
      st'
  }

  /** Attaching the first name, then the rest, attaches them all. */
  lemma AttachStep(st: Models.Store, st2: Models.Store, st': Models.Store, clip: nat, names: seq<string>, tag: nat)
    requires |names| > 0
    requires (st2.(clipTags := st.clipTags), tag) == Models.TagGetOrCreate(st, names[0])
    requires st2 == Models.LinkTag(st2.(clipTags := st.clipTags), clip, tag)
    requires Grows(st2, st', clip) && Attached(st', clip, names[1..])
    ensures Grows(st, st', clip) && Attached(st', clip, names)
  {
    var st1 := st2.(clipTags := st.clipTags);
    assert st1 == st.(tags := st1.tags);
    assert st'.tags[..|st.tags|] == st2.tags[..|st.tags|] == st.tags;
    AttachedHead(st2, st', clip, names[0], tag);
    forall k | 0 <= k < |names|
      ensures Models.FindTag(st'.tags, names[k]).Some?
      ensures Models.ClipTag(clip, Models.FindTag(st'.tags, names[k]).value) in st'.clipTags
    {
      if k > 0 {
        assert names[k] == names[1..][k - 1];
      }
    }
  }

  /** The first name stays attached while the rest are processed. */
  lemma AttachedHead(st2: Models.Store, st': Models.Store, clip: nat, name: string, tag: nat)
    requires tag < |st2.tags| && st2.tags[tag].name == name && Models.FindTag(st2.tags, name) == Some(tag)
    requires Models.ClipTag(clip, tag) in st2.clipTags
    requires |st2.tags| <= |st'.tags| && st'.tags[..|st2.tags|] == st2.tags
    requires forall l :: l in st2.clipTags ==> l in st'.clipTags
    ensures Models.FindTag(st'.tags, name) == Some(tag)
    ensures Models.ClipTag(clip, tag) in st'.clipTags
  {
    assert st'.tags == st2.tags + st'.tags[|st2.tags|..];
    Models.FindTagAppend(st2.tags, st'.tags[|st2.tags|..], name);
  }

  /** Attaching names that are all attached already writes nothing. */
  lemma {:induction false} AttachAgain(st: Models.Store, clip: nat, names: seq<string>)
    requires Attached(st, clip, names)
    ensures AttachTags(st, clip, names) == st
    decreases |names|
  {
    if |names| > 0 {
      assert Models.FindTag(st.tags, names[0]).Some?;
      var (st1, tag) := Models.TagGetOrCreate(st, names[0]);
      assert st1 == st;
      assert Models.LinkTag(st1, clip, tag) == st;
      assert Attached(st, clip, names[1..]) by {
        forall k | 0 <= k < |names[1..]|
          ensures Models.FindTag(st.tags, names[1..][k]).Some?
        {
          assert names[1..][k] == names[k + 1];
        }
      }
      AttachAgain(st, clip, names[1..]);
    }
  }

  /** Re-running the tag step with the same names adds no tag and no link. */
  lemma AttachTagsIdempotent(st: Models.Store, clip: nat, names: seq<string>)
    ensures AttachTags(AttachTags(st, clip, names), clip, names) == AttachTags(st, clip, names)
  {
    AttachAgain(AttachTags(st, clip, names), clip, names);
  }

  // ---------------------------------------------------------------- category

  /** Whether the answer asks for a category at all (lines 74 and 85). */
  predicate WantsSuggested(suggested: Option<string>) {
    Models.Truthy(suggested)
  }

  predicate WantsAssigned(suggested: Option<string>, assignedName: Option<string>) {
    !Models.Truthy(suggested) && Models.Truthy(assignedName) && assignedName.value != OtherCurio
  }

  /** Point clip `id` at curio `c`. */
  function SetCurio(st: Models.Store, id: nat, c: nat): (st': Models.Store)
    requires id < |st.clips|
    ensures st'.clips == st.clips[id := st.clips[id].(curio := Some(c))]
    ensures st' == st.(clips := st'.clips)
    ensures Models.Valid(st) && c < |st.curios| ==> Models.Valid(st')
  {
    Models.UpdateClip(st, id, st.clips[id].(curio := Some(c)))
  }

  /** The assigned-name branch with the lookup of the source (`Curio.objects.get(name=...)`) over the
      curios of owner `scope`, or of every owner when `scope` is `None`: no match leaves the clip as
      it is, one match is assigned to the clip, several raise. */
  function AssignByName(st: Models.Store, id: nat, name: string, scope: Option<Models.UserId>)
    : (r: Result<Models.Store, Error>)
    requires id < |st.clips|
    ensures var found := Models.CuriosNamed(st.curios, name, scope);
      && (|found| == 0 ==> r == Success(st))
      && (|found| == 1 ==> r == Success(SetCurio(st, id, found[0])))
      && (|found| >= 2 ==> r == Failure(MultipleCurios))
  {
    var found := Models.CuriosNamed(st.curios, name, scope);
    if |found| == 0 then Success(st)
    else if |found| == 1 then Success(SetCurio(st, id, found[0]))
    else Failure(MultipleCurios)
  }

  /** Lines 71-92 as written: the assigned curio name is looked up among every owner's curios. */
  function ResolveCurioAsWritten(st: Models.Store, id: nat, suggested: Option<string>, assignedName: Option<string>)
    : (r: Result<Models.Store, Error>)
    requires id < |st.clips|
    ensures WantsSuggested(suggested) ==>
      var owner := st.clips[id].user;
      var found := Models.CuriosNamed(st.curios, suggested.value, Some(owner));
      && (|found| >= 2 ==> r == Failure(MultipleCurios))
      && (|found| == 1 ==> r == Success(SetCurio(st, id, found[0])))
      && (|found| == 0 ==>
            && r.Success?
            && r.value.curios == st.curios + [Models.Curio(owner, suggested.value, SuggestedCurioDescription, false)]
            && r.value.clips == st.clips[id := st.clips[id].(curio := Some(|st.curios|))]
            && r.value == st.(curios := r.value.curios, clips := r.value.clips))
    ensures WantsAssigned(suggested, assignedName) ==> r == AssignByName(st, id, assignedName.value, None)
    ensures !WantsSuggested(suggested) && !WantsAssigned(suggested, assignedName) ==> r == Success(st)
  {
    if WantsSuggested(suggested) then
      var (st1, c) :- Models.CurioGetOrCreate(st, suggested.value, st.clips[id].user, SuggestedCurioDescription);
      Success(SetCurio(st1, id, c))
    else if WantsAssigned(suggested, assignedName) then AssignByName(st, id, assignedName.value, None)
    else Success(st)
  }

  /** Lines 71-92 corrected: a truthy suggestion get-or-creates the owner's curio of that name;
      otherwise a truthy assigned curio name other than `"Other"` is looked up among the owner's curios
      only; otherwise the clip keeps its category. The clip only ever gets a curio of its owner. */
  function ResolveCurio(st: Models.Store, id: nat, suggested: Option<string>, assignedName: Option<string>)
    : (r: Result<Models.Store, Error>)
    requires id < |st.clips|
    ensures WantsSuggested(suggested) ==>
      var found := Models.CuriosNamed(st.curios, suggested.value, Some(st.clips[id].user));
      && (r.Failure? <==> |found| >= 2)
      && (r.Success? ==> (|r.value.clips| == |st.clips| && r.value.clips[id].curio.Some?
           && r.value.clips[id].curio.value < |r.value.curios|
           && r.value.curios[r.value.clips[id].curio.value].name == suggested.value
           && r.value.curios[r.value.clips[id].curio.value].user == st.clips[id].user
           && (|found| == 0 ==> !r.value.curios[r.value.clips[id].curio.value].isPublic)))
    ensures WantsSuggested(suggested) ==>
      var owner := st.clips[id].user;
      var found := Models.CuriosNamed(st.curios, suggested.value, Some(owner));
      && (|found| >= 2 ==> r == Failure(MultipleCurios))
      && (|found| == 1 ==> r == Success(SetCurio(st, id, found[0])))
      && (|found| == 0 ==>
            && r.Success?
            && r.value.curios == st.curios + [Models.Curio(owner, suggested.value, SuggestedCurioDescription, false)]
            && r.value.clips == st.clips[id := st.clips[id].(curio := Some(|st.curios|))]
            && r.value == st.(curios := r.value.curios, clips := r.value.clips))
    ensures WantsAssigned(suggested, assignedName) ==> r == AssignByName(st, id, assignedName.value, Some(st.clips[id].user))
    ensures !WantsSuggested(suggested) && !WantsAssigned(suggested, assignedName) ==> r == Success(st)
    ensures r.Success? ==> (|r.value.clips| == |st.clips|
      && r.value.clips == st.clips[id := st.clips[id].(curio := r.value.clips[id].curio)]
      && r.value.tags == st.tags && r.value.clipTags == st.clipTags && r.value.embeddings == st.embeddings
      && r.value.tasks == st.tasks)
    ensures r.Success? && r.value.clips[id].curio != st.clips[id].curio ==>
      (r.value.clips[id].curio.Some? && r.value.clips[id].curio.value < |r.value.curios|
       && r.value.curios[r.value.clips[id].curio.value].user == st.clips[id].user)
    ensures r.Success? && Models.Valid(st) ==> Models.Valid(r.value)
  {
    var owner := st.clips[id].user;
    if WantsSuggested(suggested) then
      var (st1, c) :- Models.CurioGetOrCreate(st, suggested.value, owner, SuggestedCurioDescription);
      Success(SetCurio(st1, id, c))
    else if WantsAssigned(suggested, assignedName) then AssignByName(st, id, assignedName.value, Some(owner))
    else Success(st)
  }

  /** Resolving the same suggestion twice creates no second curio and leaves the store as the
      first resolution left it. */
  lemma SuggestedTwice(st: Models.Store, id: nat, suggested: Option<string>, assignedName: Option<string>)
    requires id < |st.clips|
    requires WantsSuggested(suggested)
    requires ResolveCurio(st, id, suggested, assignedName).Success?
    ensures var st1 := ResolveCurio(st, id, suggested, assignedName).value;
      ResolveCurio(st1, id, suggested, assignedName) == Success(st1)
  {
    var owner := st.clips[id].user;
    var (st1, c) := Models.CurioGetOrCreate(st, suggested.value, owner, SuggestedCurioDescription).value;
    Models.CurioGetOrCreateIdempotent(st, suggested.value, owner, SuggestedCurioDescription, SuggestedCurioDescription);
    var st2 := SetCurio(st1, id, c);
    assert st2.curios == st1.curios;
    assert Models.CurioGetOrCreate(st2, suggested.value, owner, SuggestedCurioDescription) == Success((st2, c));
    assert st2.clips[id := st2.clips[id].(curio := Some(c))] == st2.clips;
  }

  /** When the only curio with the assigned curio name belongs to another owner, the lookup as written
      files the clip under that stranger's curio; the corrected lookup leaves the clip alone. */
  lemma ForeignCurioAssigned(st: Models.Store, id: nat, name: string)
    requires id < |st.clips| && name != "" && name != OtherCurio
    requires |st.curios| == 1 && st.curios[0].name == name && st.curios[0].user != st.clips[id].user
    ensures ResolveCurioAsWritten(st, id, None, Some(name)) == Success(SetCurio(st, id, 0))
    ensures SetCurio(st, id, 0).clips[id].curio == Some(0)
    ensures ResolveCurio(st, id, None, Some(name)) == Success(st)
  {
    assert Models.CuriosNamed(st.curios, name, None) == [0];
    assert Models.CuriosNamed(st.curios, name, Some(st.clips[id].user)) == [];
  }

  // ---------------------------------------------------------------- the stages

  /** Speech-to-text of the downloaded audio file. */
  type Transcriber = string -> Result<string, Error>

  /** Everything outside the process that `process_clip_task` calls. */
  datatype TaskServices = TaskServices(
    reuse: Reuse.Services,
    transcribe: Transcriber,
    complete: Summarizer.Complete,
    loads: Summarizer.Loads,
    fileExists: string -> bool)

  /** How the body of the `try` ended: the store it left, its error if it raised, whether it
      returned early through reuse, the audio path once set in `audio_path`, whether a local
      thumbnail copy was written (nothing removes it), and an audio file downloaded where
      `audio_path` never sees it (so the `finally` does not remove it). */
  datatype Run = Run(
    store: Models.Store, result: Result<(), Error>, reused: bool, audioPath: Option<string>, thumbnailLeft: bool,
    strayAudio: Option<string>)

  /** Lines 34-48: download, store title, thumbnail and platform, transcribe, store the transcript. */
  function Acquisition(st: Models.Store, id: nat, svc: TaskServices): (r: Run)
    requires Models.Valid(st) && id < |st.clips|
    ensures Models.Valid(r.store) && !r.reused && r.strayAudio.None?
    ensures r.store == st.(clips := r.store.clips) && |r.store.clips| == |st.clips|
    ensures r.result.Success? ==> r.store.clips[id].transcript.Some?
    ensures var fetched := Acquire.FetchMetadata(st.clips[id].url, svc.reuse.extract, svc.reuse.fetchImage);
      && (fetched.Failure? ==> r == Run(st, Failure(fetched.error), false, None, false, None))
      && (fetched.Success? ==>
           && r.audioPath == Some(fetched.value.filepath)
           && r.thumbnailLeft == fetched.value.thumbnailSaved
           && r.store.clips[id].title == fetched.value.title
           && r.store.clips[id].thumbnailUrl == fetched.value.thumbnail
           && (Models.ValidPlatform(fetched.value.platform) ==> r.store.clips[id].platform == fetched.value.platform)
           && (r.result.Failure? <==> svc.transcribe(fetched.value.filepath).Failure?)
           && (r.result.Failure? ==> r.result.error == svc.transcribe(fetched.value.filepath).error)
           && (r.result.Success? ==> r.store.clips[id].transcript == Some(svc.transcribe(fetched.value.filepath).value))
           && r.store.clips == st.clips[id := ApplyMetadata(st.clips[id], fetched.value).(transcript :=
                if r.result.Success? then Some(svc.transcribe(fetched.value.filepath).value)
                else st.clips[id].transcript)])
  {
    match Acquire.FetchMetadata(st.clips[id].url, svc.reuse.extract, svc.reuse.fetchImage)
    case Failure(e) => Run(st, Failure(e), false, None, false, None)
    case Success(m) =>
      var st1 := Models.UpdateClip(st, id, ApplyMetadata(st.clips[id], m));
      match svc.transcribe(m.filepath)
      case Failure(e) => Run(st1, Failure(e), false, Some(m.filepath), m.thumbnailSaved, None)
      case Success(t) =>
        var st2 := Models.UpdateClip(st1, id, st1.clips[id].(transcript := Some(t)));
        Run(st2, Success(()), false, Some(m.filepath), m.thumbnailSaved, None)
  }

  /** Lines 52-61: the owner's curio names, the model fallback, and the one-line summary stored
      (`""` when the key is missing, `None` when it is `null`). */
  function SummaryStage(st: Models.Store, id: nat, svc: TaskServices): (r: Models.Outcome<Summarizer.SummaryData>)
    requires Models.Valid(st) && id < |st.clips| && st.clips[id].transcript.Some?
    ensures Models.Valid(r.store)
    ensures var names := CurioNamesOf(st.curios, st.clips[id].user);
      var answer := Summarizer.SummarizeAndCategorize(st.clips[id].transcript.value, names, Summarizer.AiModels, svc.complete, svc.loads);
      && (answer.Failure? ==> r == Models.Outcome(st, Failure(answer.error)))
      && (answer.Success? ==> (r.result == answer
           && r.store == Models.UpdateClip(st, id,
                st.clips[id].(summary := Summarizer.Get(answer.value.oneLineSummary, Some(""))))))
  {
    var names := CurioNamesOf(st.curios, st.clips[id].user);
    match Summarizer.SummarizeAndCategorize(st.clips[id].transcript.value, names, Summarizer.AiModels, svc.complete, svc.loads)
    case Failure(e) => Models.Outcome(st, Failure(e))
    case Success(data) =>
      var clip := st.clips[id].(summary := Summarizer.Get(data.oneLineSummary, Some("")));
      Models.Outcome(Models.UpdateClip(st, id, clip), Success(data))
  }

  /** Lines 65-98 for a parsed answer: tags, category, description, embeddings. A `null` tag list
      raises before anything is written; on success every tag is attached, the description is
      stored (`""` when the key is missing) and the category follows `ResolveCurio`. */
  function ClassifyStage(st: Models.Store, id: nat, data: Summarizer.SummaryData, embed: Embeddings.Embedder)
    : (r: Models.Outcome<()>)
    requires Models.Valid(st) && id < |st.clips|
    ensures Models.Valid(r.store) && r.store.tasks == st.tasks && |r.store.clips| == |st.clips|
    ensures data.tags.Null? ==> r == Models.Outcome(st, Failure(TagsNotIterable))
    ensures r.result.Success? ==>
      && Attached(r.store, id, Summarizer.Get(data.tags, Some([])).value)
      && r.store.clips[id].description == Summarizer.Get(data.description, Some(""))
      && r.store.clips[id].summary == st.clips[id].summary
      && r.store.clips[id].transcript == st.clips[id].transcript
    ensures Summarizer.Get(data.tags, Some([])).Some? ==>
      var st1 := AttachTags(st, id, Summarizer.Get(data.tags, Some([])).value);
      var res := ResolveCurio(st1, id, Summarizer.Get(data.suggestedCurio, None), Summarizer.Get(data.assignedCurio, None));
      && (res.Failure? ==> r == Models.Outcome(st1, Failure(res.error)))
      && (res.Success? ==>
            && r.store.tags == st1.tags && r.store.clipTags == st1.clipTags
            && r.store.curios == res.value.curios
            && r.store.clips == res.value.clips[id := r.store.clips[id]]
            && r.store.clips[id] == res.value.clips[id].(description := r.store.clips[id].description)
            && r == Embeddings.ProcessClipEmbeddings(r.store.(embeddings := st.embeddings), id, embed))
  {
    match Summarizer.Get(data.tags, Some([]))
    case None => Models.Outcome(st, Failure(TagsNotIterable))
    case Some(tags) =>
      var st1 := AttachTags(st, id, tags);
      var suggested := Summarizer.Get(data.suggestedCurio, None);
      var assignedName := Summarizer.Get(data.assignedCurio, None);
      match ResolveCurio(st1, id, suggested, assignedName)
      case Failure(e) => Models.Outcome(st1, Failure(e))
      case Success(st2) =>
        var st3 := Models.UpdateClip(st2, id, st2.clips[id].(description := Summarizer.Get(data.description, Some(""))));
        var o := Embeddings.ProcessClipEmbeddings(st3, id, embed);
        Models.Outcome(o.store, o.result)
  }

  /** The body of the `try` from line 24 on, with the reuse call given all its arguments and the
      two other corrections: a missing clip raises; a reuse ends the run at once, leaving behind
      only what its fallback fetch downloaded, which `audio_path` never records; otherwise the
      three stages run in order and the first error ends the run. */
  function Enrich(st: Models.Store, clipId: nat, svc: TaskServices): (r: Run)
    requires Models.Valid(st)
    ensures Models.Valid(r.store) && r.store.tasks == st.tasks
    ensures clipId >= |st.clips| ==> r == Run(st, Failure(ClipDoesNotExist), false, None, false, None)
    ensures clipId < |st.clips| ==>
      var reuse := Reuse.ReuseClip(st, clipId, svc.reuse);
      && (reuse.result == Success(true) ==>
           var m := Reuse.ReuseDownload(st, clipId, svc.reuse);
           r == Run(reuse.store, Success(()), true, None, m.Some? && m.value.thumbnailSaved,
             if m.Some? then Some(m.value.filepath) else None))
      && (reuse.result.Failure? ==> r == Run(reuse.store, Failure(reuse.result.error), false, None, false, None))
      && (reuse.result == Success(false) ==> r == Fresh(st, clipId, svc))
  {
    if clipId >= |st.clips| then Run(st, Failure(ClipDoesNotExist), false, None, false, None)
    else
      var reuse := Reuse.ReuseClip(st, clipId, svc.reuse);
      match reuse.result
      case Failure(e) => Run(reuse.store, Failure(e), false, None, false, None)
      case Success(true) =>
        var m := Reuse.ReuseDownload(st, clipId, svc.reuse);
        Run(reuse.store, Success(()), true, None, m.Some? && m.value.thumbnailSaved,
          if m.Some? then Some(m.value.filepath) else None)
      case Success(false) => Fresh(st, clipId, svc)
  }

  /** A clip that was not reused: acquisition, then the summary and classification stages. */
  function Fresh(st: Models.Store, id: nat, svc: TaskServices): (r: Run)
    requires Models.Valid(st) && id < |st.clips|
    ensures Models.Valid(r.store) && r.store.tasks == st.tasks && !r.reused && r.strayAudio.None?
    ensures r.audioPath == Acquisition(st, id, svc).audioPath
    ensures r.thumbnailLeft == Acquisition(st, id, svc).thumbnailLeft
    ensures Acquisition(st, id, svc).result.Failure? ==> r == Acquisition(st, id, svc)
  {
    Continue(st, id, svc, Acquisition(st, id, svc))
  }

  /** The summary and classification stages after a successful acquisition. */
  function Continue(st: Models.Store, id: nat, svc: TaskServices, acquired: Run): (r: Run)
    requires Models.Valid(st) && id < |st.clips|
    requires Models.Valid(acquired.store) && acquired.store == st.(clips := acquired.store.clips)
    requires |acquired.store.clips| == |st.clips| && !acquired.reused
    requires acquired.result.Success? ==> acquired.store.clips[id].transcript.Some?
    ensures Models.Valid(r.store) && r.store.tasks == st.tasks && !r.reused
    ensures r.audioPath == acquired.audioPath && r.thumbnailLeft == acquired.thumbnailLeft
    ensures acquired.result.Failure? ==> r == acquired
    ensures acquired.result.Success? ==>
      var summarized := SummaryStage(acquired.store, id, svc);
      && (summarized.result.Failure? ==>
            r == acquired.(store := summarized.store, result := Failure(summarized.result.error)))
      && (summarized.result.Success? ==>
            var classified := ClassifyStage(summarized.store, id, summarized.result.value, svc.reuse.embed);
            r == acquired.(store := classified.store, result := classified.result))
  {
    if acquired.result.Failure? then acquired
    else
      var summarized := SummaryStage(acquired.store, id, svc);
      match summarized.result
      case Failure(e) => acquired.(store := summarized.store, result := Failure(e))
      case Success(data) =>
        var classified := ClassifyStage(summarized.store, id, data, svc.reuse.embed);
        acquired.(store := classified.store, result := classified.result)
  }

  /** A classification that completes had a tag list; it attaches the tags and stores the
      description, keeps the clip's title, thumbnail, transcript and summary, and leaves the
      embeddings `process_clip_embeddings` computes for the finished clip. */
  lemma ClassifyCompleted(st: Models.Store, id: nat, data: Summarizer.SummaryData, embed: Embeddings.Embedder)
    requires Models.Valid(st) && id < |st.clips|
    ensures var r := ClassifyStage(st, id, data, embed);
      r.result.Success? ==>
        && Summarizer.Get(data.tags, Some([])).Some?
        && r.store.clips[id].title == st.clips[id].title
        && r.store.clips[id].thumbnailUrl == st.clips[id].thumbnailUrl
        && r.store.clips[id].transcript == st.clips[id].transcript
        && r.store.clips[id].summary == st.clips[id].summary
        && Attached(r.store, id, Summarizer.Get(data.tags, Some([])).value)
        && r.store.clips[id].description == Summarizer.Get(data.description, Some(""))
        && Embeddings.ProcessClipEmbeddings(r.store.(embeddings := st.embeddings), id, embed)
             == Models.Outcome(r.store, Success(()))
  {
    var r := ClassifyStage(st, id, data, embed);
    if r.result.Success? {
      var tags := Summarizer.Get(data.tags, Some([])).value;
      var st1 := AttachTags(st, id, tags);
      assert st1.clips == st.clips;
      var res := ResolveCurio(st1, id, Summarizer.Get(data.suggestedCurio, None), Summarizer.Get(data.assignedCurio, None));
      assert res.Success?;
      assert res.value.clips[id] == st.clips[id].(curio := res.value.clips[id].curio);
    }
  }

  /** After a successful acquisition, the two later stages complete only when the summarizer
      answered with a tag list: the summary, tags and description are stored, the acquired title,
      thumbnail and transcript stay, and the embeddings are those computed for the finished clip. */
  lemma ContinueCompleted(st: Models.Store, id: nat, svc: TaskServices, acquired: Run)
    requires Models.Valid(st) && id < |st.clips|
    requires Models.Valid(acquired.store) && acquired.store == st.(clips := acquired.store.clips)
    requires |acquired.store.clips| == |st.clips| && !acquired.reused
    requires acquired.result.Success? && acquired.store.clips[id].transcript.Some?
    ensures var r := Continue(st, id, svc, acquired);
      var c := acquired.store.clips[id];
      var answer := Summarizer.SummarizeAndCategorize(c.transcript.value, CurioNamesOf(st.curios, c.user),
        Summarizer.AiModels, svc.complete, svc.loads);
      r.result.Success? ==>
        && answer.Success?
        && Summarizer.Get(answer.value.tags, Some([])).Some?
        && r.store.clips[id].title == c.title
        && r.store.clips[id].thumbnailUrl == c.thumbnailUrl
        && r.store.clips[id].transcript == c.transcript
        && r.store.clips[id].summary == Summarizer.Get(answer.value.oneLineSummary, Some(""))
        && Attached(r.store, id, Summarizer.Get(answer.value.tags, Some([])).value)
        && r.store.clips[id].description == Summarizer.Get(answer.value.description, Some(""))
        && Embeddings.ProcessClipEmbeddings(r.store.(embeddings := st.embeddings), id, svc.reuse.embed)
             == Models.Outcome(r.store, Success(()))
  {
    var r := Continue(st, id, svc, acquired);
    if r.result.Success? {
      var summarized := SummaryStage(acquired.store, id, svc);
      assert summarized.result.Success?;
      ClassifyCompleted(summarized.store, id, summarized.result.value, svc.reuse.embed);
      assert summarized.store.embeddings == st.embeddings;
    }
  }

  /** A fresh run completes only once every stage has: the download and the transcription
      succeeded and the transcript is stored, the summarizer answered and its one-line summary is
      stored, the answer's tags are all attached, its description is stored, and the embeddings
      are exactly those `process_clip_embeddings` computes for the finished clip. */
  lemma FreshCompleted(st: Models.Store, id: nat, svc: TaskServices)
    requires Models.Valid(st) && id < |st.clips|
    ensures var r := Fresh(st, id, svc);
      var fetched := Acquire.FetchMetadata(st.clips[id].url, svc.reuse.extract, svc.reuse.fetchImage);
      r.result.Success? ==>
        && fetched.Success?
        && svc.transcribe(fetched.value.filepath).Success?
        && var transcript := svc.transcribe(fetched.value.filepath).value;
        && var answer := Summarizer.SummarizeAndCategorize(transcript, CurioNamesOf(st.curios, st.clips[id].user),
             Summarizer.AiModels, svc.complete, svc.loads);
        && answer.Success?
        && Summarizer.Get(answer.value.tags, Some([])).Some?
        && r.store.clips[id].title == fetched.value.title
        && r.store.clips[id].thumbnailUrl == fetched.value.thumbnail
        && r.store.clips[id].transcript == Some(transcript)
        && r.store.clips[id].summary == Summarizer.Get(answer.value.oneLineSummary, Some(""))
        && Attached(r.store, id, Summarizer.Get(answer.value.tags, Some([])).value)
        && r.store.clips[id].description == Summarizer.Get(answer.value.description, Some(""))
        && Embeddings.ProcessClipEmbeddings(r.store.(embeddings := st.embeddings), id, svc.reuse.embed)
             == Models.Outcome(r.store, Success(()))
  {
    var acquired := Acquisition(st, id, svc);
    if acquired.result.Success? {
      var fetched := Acquire.FetchMetadata(st.clips[id].url, svc.reuse.extract, svc.reuse.fetchImage);
      assert acquired.store.clips[id] == ApplyMetadata(st.clips[id], fetched.value)
        .(transcript := Some(svc.transcribe(fetched.value.filepath).value));
      ContinueCompleted(st, id, svc, acquired);
    }
  }

  /** A reused clip completes with exactly the reuse's writes and no transcription, summary or
      embedding call of the task's own; `audio_path` stays unset. When the donor's thumbnail
      re-uploads, nothing is downloaded; otherwise the reuse's fallback fetch downloads the
      audio, which stays on disk together with any local thumbnail copy. */
  lemma ReusedSkipsProcessing(st: Models.Store, clipId: nat, svc: TaskServices)
    requires Models.Valid(st) && clipId < |st.clips|
    ensures Reuse.ReuseClip(st, clipId, svc.reuse).result == Success(true) ==>
      var r := Enrich(st, clipId, svc);
      var d := Reuse.Donor(st.clips, st.clips[clipId].url).value;
      var fetched := Acquire.FetchMetadata(st.clips[clipId].url, svc.reuse.extract, svc.reuse.fetchImage);
      && r.result.Success? && r.reused && r.audioPath.None?
      && r.store == Reuse.ReuseClip(st, clipId, svc.reuse).store
      && (Models.Truthy(Reuse.DonorThumbnail(svc.reuse, st.clips[d], clipId)) || fetched.Failure? ==>
            r.strayAudio.None? && !r.thumbnailLeft)
      && (!Models.Truthy(Reuse.DonorThumbnail(svc.reuse, st.clips[d], clipId)) && fetched.Success? ==>
            r.strayAudio == Some(fetched.value.filepath) && r.thumbnailLeft == fetched.value.thumbnailSaved)
  {
  }

  // ---------------------------------------------------------------- process_clip_task

  /** `audio_path and os.path.exists(audio_path)`: the file removed in the `finally`, if any.
      The recorded path need not exist: the downloader's fallback file name (api/utils.py:95)
      is only a guess at where the audio went. */
  function Removed(audioPath: Option<string>, fileExists: string -> bool): (r: Option<string>)
    ensures r.Some? <==> Models.Truthy(audioPath) && fileExists(audioPath.value)
    ensures r.Some? ==> r == audioPath
  {
    if Models.Truthy(audioPath) && fileExists(audioPath.value) then audioPath else None
  }

  /** `process_clip_task(clip_id)` for the queue task `celeryId`, corrected. The task row is found
      first, outside the `try`: when it is missing or ambiguous the error escapes and nothing is
      written. Otherwise the row goes to `processing`, then to `completed` exactly when every
      stage succeeded, else to `failed` with the error; no other status is written. On every path the
      `finally` removes the recorded audio path when it exists on disk; the reuse's own download
      is not recorded there and stays. */
  method ProcessClipTask(st: Models.Store, celeryId: string, clipId: nat, svc: TaskServices)
    returns (st': Models.Store, statuses: seq<Models.TaskStatus>, raised: Option<Error>,
             removed: Option<string>, thumbnailLeft: bool, strayAudio: Option<string>)
    requires Models.Valid(st)
    ensures Models.Valid(st')
    ensures |Models.TasksWithCeleryId(st.tasks, celeryId)| != 1 ==>
      && st' == st && statuses == [] && raised == Some(TaskNotUnique)
      && removed.None? && !thumbnailLeft && strayAudio.None?
    ensures |Models.TasksWithCeleryId(st.tasks, celeryId)| == 1 ==>
      var t := Models.TasksWithCeleryId(st.tasks, celeryId)[0];
      var started := Models.SetTask(st, t, Models.Processing, st.tasks[t].error);
      var run := Enrich(started, clipId, svc);
      && raised.None?
      && statuses == [Models.Processing, if run.result.Success? then Models.Completed else Models.Failed]
      && |st'.tasks| == |st.tasks| && st'.tasks[t].status == statuses[1]
      && st'.tasks == st.tasks[t := st.tasks[t].(status := statuses[1],
           error := if run.result.Failure? then Some(run.result.error) else st.tasks[t].error)]
      && (run.result.Failure? ==> st'.tasks[t].error == Some(run.result.error))
      && (run.result.Success? ==> st'.tasks[t].error == st.tasks[t].error)
      && st' == run.store.(tasks := st'.tasks)
      && removed == Removed(run.audioPath, svc.fileExists)
      && thumbnailLeft == run.thumbnailLeft && strayAudio == run.strayAudio
  {
    var ids := Models.TasksWithCeleryId(st.tasks, celeryId);
    if |ids| != 1 {
      return st, [], Some(TaskNotUnique), None, false, None;
    }
    var t := ids[0];
    var started := Models.SetTask(st, t, Models.Processing, st.tasks[t].error);
    statuses := [Models.Processing];
    var run := Enrich(started, clipId, svc);
    assert run.store.tasks == started.tasks;
    var last := if run.result.Success? then Models.Completed else Models.Failed;
    var error := if run.result.Failure? then Some(run.result.error) else st.tasks[t].error;
    st' := Models.SetTask(run.store, t, last, error);
    assert st'.tasks == st.tasks[t := st.tasks[t].(status := last, error := error)];
    statuses := statuses + [last];
    raised := None;
    removed := Removed(run.audioPath, svc.fileExists);
    thumbnailLeft := run.thumbnailLeft;
    strayAudio := run.strayAudio;
  }

  /** `process_clip_task` as written: line 26 passes two of the four arguments `reuse_clip_if_exists`
      requires, so once the clip is loaded the call raises `TypeError`, every run ends `failed`, no
      clip data is written and no audio is downloaded. */
  method ProcessClipTaskAsWritten(st: Models.Store, celeryId: string, clipId: nat)
    returns (st': Models.Store, statuses: seq<Models.TaskStatus>, raised: Option<Error>, removed: Option<string>)
    requires Models.Valid(st)
    ensures Models.Valid(st')
    ensures |Models.TasksWithCeleryId(st.tasks, celeryId)| != 1 ==>
      st' == st && statuses == [] && raised == Some(TaskNotUnique) && removed.None?
    ensures |Models.TasksWithCeleryId(st.tasks, celeryId)| == 1 ==>
      var t := Models.TasksWithCeleryId(st.tasks, celeryId)[0];
      && raised.None? && removed.None?
      && statuses == [Models.Processing, Models.Failed]
      && st' == st.(tasks := st.tasks[t := st.tasks[t].(status := Models.Failed,
           error := Some(if clipId < |st.clips| then MissingArguments else ClipDoesNotExist))])
  {
    var ids := Models.TasksWithCeleryId(st.tasks, celeryId);
    if |ids| != 1 {
      return st, [], Some(TaskNotUnique), None;
    }
    var t := ids[0];
    var started := Models.SetTask(st, t, Models.Processing, st.tasks[t].error);
    var error := if clipId < |st.clips| then MissingArguments else ClipDoesNotExist;
    st' := Models.SetTask(started, t, Models.Failed, Some(error));
    statuses := [Models.Processing, Models.Failed];
    raised := None;
    removed := None;
  }
}

=== FILE: text.dfy ===
/** The handful of Python `str` operations the enrichment code relies on:
    `split()`, `" ".join`, `strip()`, `find`, `rfind`, `rstrip(c)` and `in`. */
module Text {
  import opened Wrappers

  /** Python's `str.isspace` for one character: the separators `split()` and `strip()` use. */
  predicate IsSpace(c: char) {
    || ('\t' <= c <= '\r')
    || ('\U{1C}' <= c <= ' ')
    || c == '\U{85}' || c == '\U{A0}' || c == '\U{1680}'
    || ('\U{2000}' <= c <= '\U{200A}')
    || c == '\U{2028}' || c == '\U{2029}' || c == '\U{202F}' || c == '\U{205F}' || c == '\U{3000}'
  }

  /** A word as `split()` produces it: non-empty, no whitespace. */
  predicate IsWord(w: string) {
    |w| > 0 && forall i :: 0 <= i < |w| ==> !IsSpace(w[i])
  }

  predicate AllWords(words: seq<string>) {
    forall i :: 0 <= i < |words| ==> IsWord(words[i])
  }

  /** Length of the leading run of non-whitespace characters. */
  function WordLength(s: string): (k: nat)
    ensures k <= |s|
    ensures forall i :: 0 <= i < k ==> !IsSpace(s[i])
    ensures k < |s| ==> IsSpace(s[k])
  {
    if |s| == 0 || IsSpace(s[0]) then 0 else 1 + WordLength(s[1..])
  }

  /** Python's `str.split()` with no separator: the maximal runs of non-whitespace, in order. */
  function Split(s: string): (words: seq<string>)
    ensures AllWords(words)
    decreases |s|
  {
    if |s| == 0 then []
    else if IsSpace(s[0]) then Split(s[1..])
    else
      var k := WordLength(s);
      [s[..k]] + Split(s[k..])
  }

  /** Python's `" ".join(words)`. */
  function Join(words: seq<string>): string {
    if |words| == 0 then ""
    else if |words| == 1 then words[0]
    else words[0] + " " + Join(words[1..])
  }

  lemma {:induction false} WordLengthOfWord(w: string, rest: string)
    requires IsWord(w)
    requires |rest| == 0 || IsSpace(rest[0])
    ensures WordLength(w + rest) == |w|
    decreases |w|
  {
    var s := w + rest;
    assert s[0] == w[0];
    if |w| > 1 {
      assert s[1..] == w[1..] + rest;
      WordLengthOfWord(w[1..], rest);
    } else {
      assert s[1..] == rest;
    }
  }

  lemma SplitLeadingSpace(t: string)
    ensures Split(" " + t) == Split(t)
  {
    assert (" " + t)[1..] == t;
  }

  /** `split()` undoes `" ".join` on words: joining loses nothing. */
  lemma {:induction false} SplitJoin(words: seq<string>)
    requires AllWords(words)
    ensures Split(Join(words)) == words
    decreases |words|
  {
    if |words| == 1 {
      var w := words[0];
      WordLengthOfWord(w, "");
      assert w + "" == w;
      assert w[..|w|] == w;
    } else if |words| > 1 {
      var w := words[0];
      var rest := Join(words[1..]);
      var s := w + " " + rest;
      assert s == w + (" " + rest);
      WordLengthOfWord(w, " " + rest);
      assert s[..|w|] == w;
      assert s[|w|..] == " " + rest;
      SplitLeadingSpace(rest);
      SplitJoin(words[1..]);
    }
  }

  /** Whitespace normalised character by character: every run of whitespace between two words
      becomes one space and leading and trailing whitespace is dropped. `emitted` records that a
      non-space character was already written, `owed` that a space is due before the next one. */
  function Squash(s: string, emitted: bool, owed: bool): string
    decreases |s|
  {
    if |s| == 0 then ""
    else if IsSpace(s[0]) then Squash(s[1..], emitted, emitted)
    else (if owed then " " else "") + [s[0]] + Squash(s[1..], true, false)
  }

  function Collapse(s: string): string {
    Squash(s, false, false)
  }

  /** Squashing a word copies it and leaves no space owed. */
  lemma {:induction false} SquashWord(s: string, k: nat, emitted: bool, owed: bool)
    requires 0 < k <= |s| && forall i :: 0 <= i < k ==> !IsSpace(s[i])
    ensures Squash(s, emitted, owed) == (if owed then " " else "") + s[..k] + Squash(s[k..], true, false)
    decreases k
  {
    if k == 1 {
      assert s[..1] == [s[0]];
      assert s[1..] == s[k..];
    } else {
      SquashWord(s[1..], k - 1, true, false);
      assert s[1..][k - 1..] == s[k..];
      assert s[..k] == [s[0]] + s[1..][..k - 1];
    }
  }

  /** `" ".join(s.split())` is `s` with its whitespace runs collapsed and its ends stripped; with a
      space already owed, the words are preceded by that space. */
  lemma {:induction false} JoinSplitSquash(s: string)
    ensures Squash(s, false, false) == Join(Split(s))
    ensures Squash(s, true, true) == (if Split(s) == [] then "" else " " + Join(Split(s)))
    decreases |s|
  {
    if |s| > 0 {
      if IsSpace(s[0]) {
        JoinSplitSquash(s[1..]);
      } else {
        var k := WordLength(s);
        var w := s[..k];
        SquashWord(s, k, false, false);
        SquashWord(s, k, true, true);
        var t := s[k..];
        assert Split(s) == [w] + Split(t);
        if |t| == 0 {
          assert Split(t) == [];
        } else {
          assert IsSpace(t[0]);
          JoinSplitSquash(t[1..]);
          assert Split(t) == Split(t[1..]);
          assert Squash(t, true, false) == Squash(t[1..], true, true);
          assert ([w] + Split(t))[1..] == Split(t);
        }
      }
    }
  }

  /** `split()` yields the one list of words whose `" ".join` is the collapsed text: the words are
      the text's maximal non-whitespace runs, in order. */
  lemma SplitCollapses(s: string, words: seq<string>)
    ensures Join(Split(s)) == Collapse(s)
    ensures AllWords(words) && Join(words) == Collapse(s) ==> words == Split(s)
  {
    JoinSplitSquash(s);
    if AllWords(words) && Join(words) == Collapse(s) {
      SplitJoin(words);
      SplitJoin(Split(s));
    }
  }

  function TrimStart(s: string): (r: string)
    ensures |r| <= |s| && r == s[|s| - |r|..]
    ensures forall i :: 0 <= i < |s| - |r| ==> IsSpace(s[i])
    ensures |r| > 0 ==> !IsSpace(r[0])
  {
    if |s| > 0 && IsSpace(s[0]) then TrimStart(s[1..]) else s
  }

  function TrimEnd(s: string): (r: string)
    ensures |r| <= |s| && r == s[..|r|]
    ensures forall i :: |r| <= i < |s| ==> IsSpace(s[i])
    ensures |r| > 0 ==> !IsSpace(r[|r| - 1])
  {
    if |s| > 0 && IsSpace(s[|s| - 1]) then TrimEnd(s[..|s| - 1]) else s
  }

  /** Number of leading whitespace characters `strip()` removes. */
  function LeadingSpaces(s: string): (k: nat)
    ensures k <= |s|
  {
    |s| - |TrimStart(s)|
  }

  /** Python's `str.strip()`: a slice of `s` that neither starts nor ends with whitespace,
      and everything cut off is whitespace. */
  function Strip(s: string): (r: string)
    ensures LeadingSpaces(s) + |r| <= |s|
    ensures r == s[LeadingSpaces(s)..LeadingSpaces(s) + |r|]
    ensures forall i :: 0 <= i < LeadingSpaces(s) ==> IsSpace(s[i])
    ensures forall i :: LeadingSpaces(s) + |r| <= i < |s| ==> IsSpace(s[i])
    ensures |r| > 0 ==> !IsSpace(r[0]) && !IsSpace(r[|r| - 1])
  {
    TrimEnd(TrimStart(s))
  }

  /** Stripping whitespace never removes a non-whitespace character. */
  lemma StripKeeps(s: string, c: char)
    requires !IsSpace(c)
    ensures c in Strip(s) <==> c in s
  {
    var r := Strip(s);
    var k := LeadingSpaces(s);
    if c in s {
      var i :| 0 <= i < |s| && s[i] == c;
      assert r[i - k] == c;
    }
  }

  /** Python's `s.find(c)`, with `None` for `-1`. */
  function IndexOf(s: string, c: char): (r: Option<nat>)
    ensures r.None? <==> c !in s
    ensures r.Some? ==> r.value < |s| && s[r.value] == c
    ensures r.Some? ==> forall i :: 0 <= i < r.value ==> s[i] != c
  {
    if |s| == 0 then None
    else if s[0] == c then Some(0)
    else match IndexOf(s[1..], c)
      case None => None
      case Some(i) => Some(i + 1)
  }

  /** Python's `s.rfind(c)`, with `None` for `-1`. */
  function LastIndexOf(s: string, c: char): (r: Option<nat>)
    ensures r.None? <==> c !in s
    ensures r.Some? ==> r.value < |s| && s[r.value] == c
    ensures r.Some? ==> forall i :: r.value < i < |s| ==> s[i] != c
  {
    if |s| == 0 then None
    else if s[|s| - 1] == c then Some(|s| - 1)
    else
      var r := LastIndexOf(s[..|s| - 1], c);
      assert r.None? ==> s == s[..|s| - 1] + [s[|s| - 1]];
      r
  }

  /** Python's `s.rstrip(c)` for a one-character argument. */
  function RStrip(s: string, c: char): (r: string)
    ensures |r| <= |s| && r == s[..|r|]
    ensures |r| > 0 ==> r[|r| - 1] != c
    ensures forall i :: |r| <= i < |s| ==> s[i] == c
  {
    if |s| > 0 && s[|s| - 1] == c then RStrip(s[..|s| - 1], c) else s
  }

  predicate StartsWith(s: string, prefix: string) {
    |prefix| <= |s| && s[..|prefix|] == prefix
  }

  /** Python's `sub in s`. */
  predicate Contains(s: string, sub: string)
    decreases |s|
  {
    StartsWith(s, sub) || (|s| > 0 && Contains(s[1..], sub))
  }

  /** Number of occurrences of `c` in `s`. */
  function Count(s: string, c: char): (n: nat)
    ensures n <= |s|
    ensures n == 0 <==> c !in s
  {
    if |s| == 0 then 0 else (if s[0] == c then 1 else 0) + Count(s[1..], c)
  }

  lemma {:induction false} CountAppend(a: string, b: string, c: char)
    ensures Count(a + b, c) == Count(a, c) + Count(b, c)
    decreases |a|
  {
    if |a| > 0 {
      assert (a + b)[1..] == a[1..] + b;
      CountAppend(a[1..], b, c);
    } else {
      assert a + b == b;
    }
  }
}

=== FILE: wrappers.dfy ===
/** Option and Result, the failure-compatible wrappers the rest of the model uses
    for Python's `None` and for raised exceptions. */
module Wrappers {

  datatype Option<+T> = None | Some(value: T) {

    /** The value, or `default` when there is none. */
    function GetOr(default: T): T {
      match this
      case Some(v) => v
      case None => default
    }
  }

  datatype Result<+T, +E> = Success(value: T) | Failure(error: E) {

    predicate IsFailure() {
      Failure?
    }

    function PropagateFailure<U>(): Result<U, E>
      requires Failure?
    {
      Failure(error)
    }

    function Extract(): T
      requires Success?
    {
      value
    }
  }
}
